=== FILE: README.md ===
# Tiger compiler middle end, modelled in Dafny

This project models the middle end of a compiler for Tiger, the teaching
language of Appel's *Modern Compiler Implementation*. The middle end sits
between the parser and the instruction selector. It has these parts:

- **Escape analysis** (`escape.c`) marks every variable and parameter that is
  read from a function nested deeper than the one declaring it.
- **Semantic analysis** (`semantic.c`) type-checks the abstract syntax tree.
  It reports errors through `errmsg.c` and translates the tree into
  intermediate-representation terms.
- **Storage placement** (`translate.c`, `frame-mips.c`) gives each function a
  level and a MIPS frame, and gives each variable an access: a frame slot or
  a register.

The pieces underneath are modelled too:

- the hash tables (`table.c`, whose binders also form a stack for `tab_pop`, and
  `symbol.c`, whose tables share that representation);
- symbol interning;
- temporaries and labels (`temp.c`);
- the type graph with its name links (`types.c`);
- the base environments (`env.c`);
- the list helpers (`utils.c`).

The C program keeps its state in globals. In the model each piece of that
state is an explicit value, threaded through pure functions:

- the interner, the label and temporary counters and the temp map (`Temp.Gen`);
- the levels (`Translate.TrState`);
- the type store (`Types.Store`), a sequence of type nodes indexed by id;
- the environments, binder chains newest first (`Table.Binder`);
- the reported errors (`Semantic.Sem`).

Scopes in `symbol.c` are stubs (`sym_begin_scope` returns NULL and
`sym_end_scope` does nothing), so the environments only grow. The model
keeps that behaviour, and it is the cause of one of the findings below.

Modules follow the source files:

- `Utils`, `Table`, `Symbol`, `Temp`, `Types`, `Env`, `ErrMsg`, `Escape`,
  `Frame` and `Translate`;
- `Ast` and `Ir`, the tree shapes taken from `ast.h` and `ir.h`;
- for `semantic.c`, four modules:
  - `SemanticRules`, the rule of each node, a pure function of the types of its parts;
  - `Semantic`, the traversal;
  - `SemanticFacts`, what the traversal preserves;
  - `SemanticProps`, properties of small programs and the findings;
  - `SemanticPairs`, the diagnostics of the pairwise loops over call arguments and record initializers.

The traversal in `Semantic` applies the corrected rules of the three
findings below, not `semantic.c` as written: `SemanticRules.OrderRule` for
orderings, `SemanticRules.ArrayRule` for array literals and
`Semantic.TransBodies` for function bodies. `Semantic.TransProg`, the
`SemanticFacts` lemmas and the `SemanticProps` examples are therefore all
about the corrected checker; the as-written members are separate.

## Model

| member | source | states |
|---|---|---|
| Utils.Prepend | utils.c:21-27 | the new cell's elements are the datum followed by the old list's elements |
| Utils.VList | utils.c:29-45 | a non-positive count gives the empty list; otherwise the list holds exactly the first `count` arguments, in order |
| Utils.JoinList | utils.c:63-72 | the joined list's elements are the first list's followed by the second's; an empty first list returns the second unchanged; otherwise the first list's head is kept |
| Table.Empty | table.c:31-40 | a fresh table has 773 buckets, satisfies the bucket/stack invariant and binds nothing |
| Table.Enter | table.c:42-50 | the new binding is found for its key, every other key's lookup is unchanged, the binder is pushed on the stack, and the invariant is kept |
| Table.Lookup | table.c:52-63 | under the invariant, a lookup in the key's bucket returns the newest binding of that key on the whole stack |
| Table.FindInBucket | table.c:52-63 | searching the key's bucket finds the same binding as searching the whole stack |
| Table.TopHeadsBucket | table.c:72-76 | the newest binder is at the head of its bucket, which is what `tab_pop` asserts |
| Table.Pop | table.c:65-80 | popping removes the newest binder from the stack and from its bucket, returns its key, and keeps the invariant |
| Table.EnterThenPop | table.c:42-80 | popping right after an insertion gives back the table as it was, and the inserted key |
| Table.EnterThenPopLookups | table.c:42-80 | after an insertion and a pop, every lookup is as before the insertion |
| Table.Dump | table.c:82-88 | the binders are shown newest first: exactly the stack |
| Table.EnterAllStack | table.c:42-50 | after a series of insertions the stack holds them newest first, above the old stack |
| Symbol.SignedChar | symbol.c:19-27 | a character enters the hash as a signed 8-bit value, between -128 and 127 |
| Symbol.Hash | symbol.c:19-27 | the hash is an unsigned 32-bit value |
| Symbol.HashStep | symbol.c:19-27 | the empty string hashes to 0, and each further character multiplies by 65599 and adds the signed character, modulo 2^32 |
| Symbol.Search | symbol.c:34-36 | the bucket search finds an id whose name is the string, or shows that no id in the bucket has that name |
| Symbol.Intern | symbol.c:29-40 | the returned symbol's name is the string; a known string leaves the interner unchanged; an unknown one is appended as the next id; existing ids keep their names |
| Symbol.InternNewValid | symbol.c:29-40 | chaining a new name at the head of its hash bucket keeps the interner valid: every id sits in the bucket its hash selects, and names stay distinct |
| Symbol.InternIdempotent | symbol.c:29-40 | interning the same string twice gives the same symbol and the same interner |
| Symbol.NameUnique | symbol.c:29-40 | two symbols with the same name are the same symbol |
| Symbol.InternDistinct | symbol.c:29-40 | different strings are interned as different symbols |
| Symbol.SymName | symbol.c:42-45 | a symbol's name interns back to that same symbol, leaving the table unchanged |
| Symbol.SymEmpty | symbol.c:60-69 | a symbol table has 109 buckets, satisfies the invariant and binds nothing |
| Symbol.SymEnter | symbol.c:80-90 | the symbol is bound to the value and other symbols are unchanged |
| Symbol.SymLookup | symbol.c:92-106 | a lookup returns the newest binding of the symbol; not found means the symbol was never entered |
| Symbol.BeginScope | symbol.c:108-112 | beginning a scope yields no table (the stub returns NULL) |
| Symbol.EndScope | symbol.c:114-117 | ending a scope removes nothing: every lookup is unchanged |
| Symbol.ScopeKeepsBindings | symbol.c:80-117 | a binding entered inside a scope is still found after the scope ends |
| Temp.InitGen | temp.c:13-39 | the starting generator is well formed: a valid interner, and valid layers in any temp map |
| Temp.Decimal | temp.c:13-20 | a decimal numeral is a non-empty string of digits, with a leading zero only for zero, and at least two digits from 10 on |
| Temp.DecimalValue | temp.c:13-20 | reading a numeral back as a number gives the number printed |
| Temp.DecimalInjective | temp.c:13-39 | different numbers have different numerals, so generated names never collide |
| Temp.NewLabel | temp.c:13-20 | a new label is named ".L" followed by the label counter, which advances by one; the temp counter and earlier names are unchanged |
| Temp.SuccessiveLabelsDiffer | temp.c:13-20 | two labels made one after the other are different symbols |
| Temp.NamedLabel | temp.c:22-25 | a named label is the interned symbol of that name; both counters are unchanged |
| Temp.TmpName | temp.c:8-11 | a label's string names that same label again, with no change of state |
| Temp.NamedLabelIdempotent | temp.c:22-25 | asking twice for the same named label gives the same label and state |
| Temp.TmpEmpty | temp.c:63-66 | an empty temp map is one empty layer |
| Temp.TmpMap | temp.c:47-53 | the global temp map is created on first use and then returned unchanged |
| Temp.TmpMapStable | temp.c:47-53 | asking for the global temp map twice gives the same map and state |
| Temp.TmpEnter | temp.c:76-80 | the temp is named in the top layer and looks up to the new name; every other temp keeps its binding in the top layer and its lookup through the map; the layers below are untouched |
| Temp.NewTemp | temp.c:27-39 | a new temp is numbered by the temp counter, which advances by one, and the global map names it by its decimal number; every other temp looks up as before, or to nothing when the map is created by this call |
| Temp.SuccessiveTempsDiffer | temp.c:27-39 | two temps made one after the other have consecutive numbers |
| Temp.LayerMap | temp.c:68-74 | layering puts the new layers above the old ones; layering over nothing is the identity |
| Temp.TmpLookup | temp.c:82-94 | no name exactly when no layer names the temp; otherwise the name from the topmost layer that has one |
| Types.BuiltinsAreSingletons | types.c:7-29 | nil, int, string and void each exist exactly once, at fixed ids |
| Types.BuiltinKinds | types.c:7-29 | the four built-in ids have their own kinds |
| Types.Alloc | types.c:31-54 | a new type node gets the next id, and every older node keeps its id |
| Types.NewRecord | types.c:31-37 | a record type is a fresh id of kind record holding exactly the given fields |
| Types.NewArray | types.c:39-45 | an array type is a fresh id of kind array with the given element type |
| Types.NewName | types.c:47-54 | a name type is a fresh id holding the symbol and the link |
| Types.SetLink | semantic.c:184-190 | linking a name node changes only that node's link; any other node is left alone |
| Types.Actual | types.c:64-77 | a non-name type resolves to itself; in a fully linked store, resolution gives the start itself or a non-name type |
| Types.ActualIdempotent | types.c:64-77 | resolving a resolved type changes nothing |
| Types.ActualOnChain | types.c:64-77 | the resolved type is the start, or is reached by following name links at most 4096 times |
| Types.ActualFromReaches | types.c:64-77 | a walk that has taken `c` steps and reaches a non-name type within the remaining budget ends there |
| Types.ActualResolves | types.c:64-77 | when at most 4096 name links lead from a type to a non-name type, resolution gives that type |
| Types.CycleExhaustsBound | types.c:64-77 | on a cycle of names, the bounded walk runs out of hops |
| Types.CycleResolvesToSelf | types.c:64-77 | a type on a cycle of names resolves to itself, the fact the type-cycle check relies on |
| Types.SelfLoopResolvesToSelf | types.c:64-77 | a name linked to itself resolves to itself |
| Types.TwoCycleResolvesToSelf | types.c:64-77 | two names linked to each other each resolve to themselves |
| Types.Match | types.c:79-90 | two types match exactly when they resolve to the same type, or one resolves to a record and the other to nil |
| Types.MatchReflexiveSymmetric | types.c:79-90 | type matching is reflexive and symmetric |
| Types.DistinctRecordsDontMatch | types.c:79-90 | two different record types never match |
| Types.MatchOfNonRecords | types.c:79-90 | when neither side resolves to a record or nil, the types match exactly when they resolve to the same type |
| Env.Intern | env.c:29-58 | interning a base name keeps levels and counters, gives a symbol with that name, and keeps older names |
| Env.BaseTenv | env.c:29-35 | the base type environment binds exactly `int` to int and `string` to string, in a 109-bucket table |
| Env.BaseTypeTable | env.c:29-35 | the table holds `string` above `int` and satisfies the invariant |
| Env.UniqueNames | env.c:29-35 | only the interned symbols for `int` and `string` carry those names |
| Env.BaseTenvLookups | env.c:29-35 | the two binders give every symbol its base type binding: only `int` and `string` are bound |
| Env.BuiltinBinderKept | env.c:37-58 | a built-in function binder stays correct when more names are interned later |
| Env.BaseBindersKept | env.c:37-58 | all four built-in binders stay correct when more names are interned later |
| Env.LabelledPush | env.c:40-56 | a binder under the label of a counter not used before carries a label that differs from every earlier binder's |
| Env.EnterBuiltin | env.c:40-56 | one built-in function is entered at the outermost level with the given formals and result, under a label `.L<n>` whose number no binder already entered has, so all labels stay distinct |
| Env.BaseVenv | env.c:37-58 | the base value environment binds `getchar: () -> string`, `ord: (string) -> int`, `print: (string) -> void` and `chr: (int) -> string`, each at the outermost level, which has no parent, and each under a label of its own |
| ErrMsg.Reset | errmsg.c:44-56 | a reset clears the error flag and starts line 1 at position 0 |
| ErrMsg.SetTokPos | errmsg.c:7-14 | only the current token position changes |
| ErrMsg.Newline | errmsg.c:16-20 | a newline adds a line, whose start is the current token position |
| ErrMsg.Locate | errmsg.c:22-42 | the line and column of an error: every skipped line starts at or after the position, and the column is measured from the first line start before it, or from 0 |
| ErrMsg.Error | errmsg.c:22-42 | an error sets the error flag, changes nothing else, and is placed by `Locate` |
| ErrMsg.FlagSticky | errmsg.c:22-42 | after any run of events the flag is set exactly when it was set before or some event was an error |
| ErrMsg.ResetLines | errmsg.c:44-56 | after a reset the line starts are well formed |
| ErrMsg.NewlineLines | errmsg.c:16-20 | newlines at advancing positions keep the line starts well formed |
| ErrMsg.CountBefore | errmsg.c:29-33 | the number of line starts before a position is at most the number of lines |
| ErrMsg.LineIsCount | errmsg.c:29-33 | the reported line is offset by the number of line starts before the position |
| ErrMsg.ErrorLine | errmsg.c:22-42 | with well-formed line starts, the reported line number is the number of line starts before the position |
| ErrMsg.ErrorAtZero | errmsg.c:22-42 | an error at position 0 is reported at line 0, column 0 |
| ErrMsg.ErrorExample | errmsg.c:22-42 | with lines starting at 0, 10 and 25, positions 12 and 25 are reported at line 2, columns 2 and 15 |
| Escape.Register | escape.c:11-19 | registering a variable binds it at the current depth and clears its flag |
| Escape.RegisterParams | escape.c:39-47 | every parameter is bound at the current depth, newest last, with its flag cleared |
| Escape.ParamsGrow | escape.c:39-47 | registering parameters only adds binders, and clears only their own flags |
| Escape.TraverseVar | escape.c:150-170 | visiting a variable restores the depth and removes no binder |
| Escape.TraverseExpr | escape.c:67-148 | visiting an expression restores the depth and removes no binder |
| Escape.TraverseDecl | escape.c:28-65 | visiting a declaration restores the depth and removes no binder |
| Escape.TraverseFunc | escape.c:32-53 | a function body is visited one level deeper, and its parameters stay bound afterwards |
| Escape.TraverseFuncs | escape.c:32-53 | visiting a function batch restores the depth and removes no binder |
| Escape.ExprGrows | escape.c:67-148 | over a whole tree, the depth is restored and binders are only added. A flag is cleared only by an added binder's registration, and a flag is set only for a bound variable |
| Escape.DeclGrows | escape.c:28-65 | the same for a declaration |
| Escape.FuncsGrow | escape.c:32-53 | the same for a function batch |
| Escape.FindEscapeRegistered | escape.c:172-177 | only variables and parameters the analysis registered end up escaping |
| Escape.SimpleVarRule | escape.c:154-159 | a read of a name sets its flag when the name is bound at a shallower depth. An unbound name changes nothing, and nothing else changes |
| Escape.InertNodes | escape.c:67-148 | nil, numbers, strings, break and type declarations change nothing |
| Escape.NestedReadEscapes | escape.c:28-159 | a variable read inside a nested function escapes |
| Escape.LetThenBody | escape.c:135-141 | a let visits its declarations, then its body |
| Escape.ShallowerReadEscapes | escape.c:32-159 | a function body reading a variable of the enclosing depth marks it escaping |
| Escape.SameDepthReadStaysClear | escape.c:58-159 | a variable read at its own depth does not escape |
| Escape.OwnParameterStaysClear | escape.c:32-159 | a function reading its own parameter does not make it escape |
| Frame.FormalAccesses | frame-mips.c:40-65 | each formal is placed in order: in the frame at 4 times its index if it escapes or is past the fourth, else in a fresh register |
| Frame.PlacedCons | frame-mips.c:40-65 | placing the first formal and then the rest places all of them |
| Frame.NewFrame | frame-mips.c:40-65 | formal i lives in the frame at offset 4i exactly when it escapes or i is at least 4. Otherwise it is a fresh register, distinct from the other register formals. A new frame has no locals |
| Frame.AllocLocal | frame-mips.c:77-99 | an escaping local gets the next frame slot below the saved words, at 4 * (-2 - n) for the n-th such slot, and counts it. Any other local gets a fresh register. The access is appended to the locals |
| Frame.SlotOffsetsDecrease | frame-mips.c:77-99 | frame slots start at -12 and each later slot is strictly lower |
| Frame.Offset | frame-mips.c:101-105 | a frame access is read as memory at the frame pointer plus its offset |
| Frame.Expr | frame-mips.c:163-179 | an access is read as memory exactly when it is a frame slot, and as a temporary exactly when it is a register |
| Frame.FormalExpr | frame-mips.c:163-179 | formal i of a new frame reads as the word at 4i from the frame pointer when it is placed in the frame, and otherwise as one of the temporaries the frame made |
| Frame.LocalExpr | frame-mips.c:163-179 | a new escaping local reads as the word at its fresh slot offset from the frame pointer; any other local reads as the temporary the counter numbered |
| Frame.FrameAccessors | frame-mips.c:66-74 | `fr_name` and `fr_formals` give back the name and the placed formals of the frame, and allocating a local changes neither |
| Frame.AddFrag | frame-mips.c:128-141 | a string fragment joins the string list and a procedure fragment the procedure list; the other list is unchanged |
| Frame.AddFragsSplits | frame-mips.c:128-141 | adding several fragments splits them by kind, each list keeping their order |
| Frame.Fp | frame-mips.c:143-150 | the frame-pointer temp is made on first use and then stays the same |
| Frame.Rv | frame-mips.c:152-161 | the return-value temp is made on first use and then stays the same |
| Frame.FpStable | frame-mips.c:143-150 | asking for the frame pointer twice gives the same temp and state |
| Translate.Tagged | translate.c:10-16 | every frame access is tagged with its level, in order |
| Translate.InitState | translate.c:28-33 | the translation state starts with no level and no outermost level |
| Translate.NewLevel | translate.c:35-57 | a new level gets the next id and records its parent and frame. The frame has one more formal than asked, the static link, in the frame at offset 0. The k-th real formal is in the frame exactly when the frame rules say so for index k+1 |
| Translate.AppendLevel | translate.c:35-57 | appending a well-formed level keeps all levels well formed |
| Translate.Outermost | translate.c:28-33 | the outermost level is created once, without a parent, and then returned unchanged |
| Translate.OutermostStable | translate.c:28-33 | asking for the outermost level twice gives the same level and state |
| Translate.Formals | translate.c:59-62 | a level's formals start with the static link in the frame at offset 0, and all belong to that level |
| Translate.TaggedSnoc | translate.c:64-79 | tagging an extended list extends the tagged list |
| Translate.AllocLocal | translate.c:64-79 | a local belongs to the level, lives in the frame exactly when it escapes, and is appended to that level's locals. Every other level is unchanged |
| Translate.ReplaceLevel | translate.c:64-79 | replacing a level by a well-formed one keeps all levels well formed |
| SemanticRules.LookupType | semantic.c:46-54 | a type name gives a type exactly when it is bound, resolved through name links; otherwise one undefined-type error at the given position |
| SemanticRules.LookupOrInt | semantic.c:46-54 | an unbound type name falls back to int, with one error |
| SemanticRules.FormalTypes | semantic.c:56-75 | one type per parameter, int for an unbound one. Every error is an undefined type at the batch position, and there are none exactly when all parameter types are bound |
| SemanticRules.SameNamed | semantic.c:99-108 | the later batch members with the given name, all of them and only them |
| SemanticRules.RedefinitionsComplete | semantic.c:99-108 | each later member with an earlier namesake is reported |
| SemanticRules.RedefinitionsSound | semantic.c:99-108 | every report is a member with an earlier namesake |
| SemanticRules.RedefinitionsEmpty | semantic.c:99-108 | nothing is reported exactly when all names in the batch differ |
| SemanticRules.RedefinitionsThree | semantic.c:99-108 | three members of one name draw three reports: the second once, the third twice |
| SemanticRules.RedefinitionDiags | semantic.c:99-108 | one "redefined" error per report, at the member's position |
| SemanticRules.BinOpOfCode | semantic.c:326-328 | the arithmetic operator whose IR code is the given code |
| SemanticRules.RelOpOfCode | semantic.c:337-342 | the relational operator whose IR code is the given code |
| SemanticRules.OperatorMapping | semantic.c:319-362 | each source operator translates to the IR operator of the same meaning |
| SemanticRules.KindDiag | semantic.c:312-367 | no error exactly when the type has the required kind |
| SemanticRules.MatchDiag | semantic.c:312-367 | no error exactly when the two types match |
| SemanticRules.ArithRule | semantic.c:319-329 | arithmetic is int-typed. Each non-int operand draws "integer required" at its own position, left before right; there is no error exactly when both are int |
| SemanticRules.EqualityRule | semantic.c:331-343 | equality is int-typed. Operands that do not match draw one error and no term. Otherwise strings are compared as strings and anything else as values |
| SemanticRules.OrderDiags | semantic.c:345-356 | an ordering reports mismatched operands, and separately an operand that is neither int nor string |
| SemanticRules.OrderTerm | semantic.c:357-360 | an ordering of strings compares strings; any other compares values |
| SemanticRules.OrderRuleAsWritten | semantic.c:345-362 | as written, an ordering has the left operand's type |
| SemanticRules.OrderRule | semantic.c:345-362 | corrected, an ordering is int-typed, with the same errors and term |
| SemanticRules.StringComparisonType | semantic.c:345-362 | comparing two strings is accepted, but as written its type is string, which an if condition then rejects; corrected, the condition is accepted |
| SemanticRules.OpRule | semantic.c:312-367 | each operator class uses its own rule |
| SemanticRules.ArityDiags | semantic.c:301-304 | no error exactly when the counts agree; otherwise "expect more" or "expect less" arguments |
| SemanticRules.RecordFields | semantic.c:369-398 | a record type's fields; no fields for any other type |
| SemanticRules.ArrayInitAsWritten | semantic.c:413-416 | as written, the initializer check is defined only when the named type is an array, and then it holds exactly when the initializer matches the element type |
| SemanticRules.ArrayOfIntAborts | semantic.c:413-416 | as written, `int [n] of 0` reaches the undefined element read |
| SemanticRules.ArrayRule | semantic.c:400-417 | corrected, an array literal has its named type. It reports a non-array type, a non-int size and a mismatched initializer, each exactly when it occurs |
| SemanticRules.ArrayRuleAgrees | semantic.c:400-417 | where the code as written is defined, the corrected rule reports the initializer exactly as it does |
| SemanticRules.IfArmsRule | semantic.c:437-456 | with an else, the arms must match and the if has the then arm's type; without one, the arm must be void and so is the if |
| SemanticRules.WhileRule | semantic.c:458-467 | a while is void. It reports a non-int condition and a non-void body, each exactly when it occurs |
| SemanticRules.ForBoundsDiags | semantic.c:469-489 | each non-int bound is reported, and only those |
| SemanticRules.VarDeclRule | semantic.c:206-228 | an annotated variable takes the annotation and reports a mismatch. An unannotated one takes the initializer's type and reports nil or void initializers |
| SemanticRules.AssignRule | semantic.c:525-543 | an assignment is void. It reports mismatched types, and assignment to a `for` index, each exactly when it occurs |
| SemanticRules.SimpleVarRule | semantic.c:631-650 | a name read is clean exactly when it is bound to a variable. Unbound or function names give one error and an int |
| SemanticRules.FieldIndex | semantic.c:652-678 | the position of the first field of that name, or none when no field has it |
| SemanticRules.FieldVarRule | semantic.c:652-678 | a field access is clean exactly when the base is a record with that field, and then has the field's type at its index. Otherwise one error |
| SemanticRules.SubVarRule | semantic.c:680-693 | a subscript is clean exactly when the base is an array and the index an int, and then has the element type; a non-array base gives one error and int |
| Semantic.TransExpr | semantic.c:565-568 | checking any expression keeps the translation state valid and every level made so far |
| Semantic.TransExprList | semantic.c:419-435 | a sequence yields one result per expression |
| Semantic.TransCall | semantic.c:264-310 | checking a call keeps the translation state and levels |
| Semantic.TransArgs | semantic.c:264-310 | only the arguments paired with a formal are checked |
| Semantic.TransOp | semantic.c:312-367 | checking an operation keeps the translation state and levels |
| Semantic.TransRecord | semantic.c:369-398 | checking a record literal keeps the translation state and levels |
| Semantic.TransEFields | semantic.c:369-398 | only the initializers paired with a field are checked |
| Semantic.TransArray | semantic.c:400-417 | checking an array literal keeps the translation state and levels |
| Semantic.TransIf | semantic.c:437-456 | checking an if keeps the translation state and levels |
| Semantic.TransWhile | semantic.c:458-467 | checking a while keeps the translation state and levels |
| Semantic.TransFor | semantic.c:469-489 | checking a for keeps the translation state and levels |
| Semantic.TransLet | semantic.c:497-523 | checking a let keeps the translation state and levels |
| Semantic.TransAssign | semantic.c:525-543 | checking an assignment keeps the translation state and levels |
| Semantic.TransVar | semantic.c:703-706 | checking a variable keeps the translation state and levels |
| Semantic.TransDecl | semantic.c:239-242 | checking a declaration keeps the translation state and levels |
| Semantic.TransVarDecl | semantic.c:206-228 | checking a variable declaration keeps the translation state and levels |
| Semantic.FuncNames | semantic.c:99-108 | the function batch members, reported at each function's position |
| Semantic.TypeNames | semantic.c:168-175 | the type batch members, all reported at the batch position |
| Semantic.EscapeFlags | semantic.c:77-92 | each parameter's flag is set exactly when its declaration escapes |
| Semantic.EnterPrototype | semantic.c:110-133 | a prototype gets a new level whose parent is the current level, with one formal per parameter plus the static link. The result is void without an annotation. It is bound as a function entry above the old environment |
| Semantic.EnterPrototypes | semantic.c:110-133 | one prototype per function |
| Semantic.TransBodies | semantic.c:135-156 | corrected: every body is checked against the prototype entered for its own function |
| Semantic.BodyStep | semantic.c:141-155 | checking one body keeps the translation state and levels |
| Semantic.TransFuncsDecl | semantic.c:94-162 | a function batch yields no term and keeps the translation state and levels |
| Semantic.RawLookup | semantic.c:570-579 | a type annotation's binding as it stands, without resolving it; int and one error when unbound |
| Semantic.FieldTypes | semantic.c:581-605 | one field per parameter, with its name and its looked-up type |
| Semantic.TransTy | semantic.c:626-629 | a name annotation reuses its binding; a record or array annotation creates a new type of that kind |
| Semantic.EnterPlaceholders | semantic.c:177-182 | one fresh name type per member; older types, values and errors are unchanged |
| Semantic.LinkTypes | semantic.c:184-190 | linking right-hand sides changes neither environment |
| Semantic.CycleDiags | semantic.c:192-201 | an infinite-type error at the batch position, and none exactly when no member's binding resolves to itself |
| Semantic.TransTypesDecl | semantic.c:164-204 | a type batch leaves the value environment and the levels unchanged |
| Semantic.TransProg | semantic.c:708-723 | the program is checked at the outermost level, in the base environments with a fresh type store and no error. The errors returned are exactly those reported |
| Semantic.BaseState | semantic.c:708-713 | the starting state: only `int` and `string` are type names, only the four built-in functions are values, all at the parentless outermost level |
| SemanticFacts.ExprGrows | semantic.c:244-568 | checking any expression only adds bindings, appends errors and adds types. Every earlier binding, error and type is kept |
| SemanticFacts.DeclGrows | semantic.c:239-242 | the same for any declaration |
| SemanticFacts.VarDeclGrows | semantic.c:206-228 | the same for a variable declaration |
| SemanticFacts.FuncsDeclGrows | semantic.c:94-162 | the same for a function batch |
| SemanticFacts.TypesDeclGrows | semantic.c:164-204 | the same for a type batch |
| SemanticProps.EmptySequence | semantic.c:419-435 | `()` is void, translates to 0 and changes nothing |
| SemanticProps.StringComparison | semantic.c:345-362 | with the corrected rule, `"a" < "b"` is accepted and is an int |
| SemanticProps.StringComparisonCondition | semantic.c:437-456 | `if "a" < "b" then ()` is accepted with the corrected comparison |
| SemanticProps.CallOfNonFunction | semantic.c:264-275 | calling an unbound name or a variable gives one error and an int, and nothing else changes |
| SemanticProps.CallArity | semantic.c:276-309 | a call checks only the paired arguments, reports a count mismatch last, and has the function's resolved result type |
| SemanticProps.RecordOfUndefinedType | semantic.c:369-380 | a record literal of an unbound type gives one error and nil, and checks no field |
| SemanticPairs.Mismatched | semantic.c:285-294 | every listed position is paired, that is below both lengths |
| SemanticPairs.MismatchedSorted | semantic.c:285-294 | the mismatched positions are listed in increasing order, the order the loop visits the pairs |
| SemanticPairs.MismatchedExact | semantic.c:285-294 | a paired position is listed exactly when its two types do not match (`ty_match` fails) |
| SemanticPairs.LiteralsQuiet | semantic.c:244-262 | `nil`, numbers and strings report nothing and have types nil, int and string, so they satisfy the hypothesis of the loop lemmas |
| SemanticPairs.ArgsQuietStep | semantic.c:285-299 | one turn of the argument loop on a quiet argument adds that pair's diagnostic and keeps store and environments |
| SemanticPairs.QuietArgs | semantic.c:285-299 | with quiet arguments, the loop adds exactly "passing argument i with wrong type" for each mismatched pair, in order, with its 1-based index `i`, and nothing else |
| SemanticPairs.CallErrors | semantic.c:264-310 | a call's errors are those of its argument loop followed by the arity check |
| SemanticPairs.CallArgTypes | semantic.c:264-310 | a call with quiet arguments reports exactly the mismatched arguments by index, in order, then the arity error when the counts differ |
| SemanticPairs.EFieldsQuietStep | semantic.c:382-393 | one turn of the initializer loop on a quiet initializer adds that pair's diagnostic and keeps store and environments |
| SemanticPairs.QuietEFields | semantic.c:382-393 | with quiet initializers, the loop adds exactly one "wrong field type" per mismatched pair, at that initializer's position, in order |
| SemanticPairs.RecordLiteral | semantic.c:369-398 | a record literal of a bound type has that type and builds one term per pair of field and initializer; when the counts differ, the last error is "wrong field number" |
| SemanticPairs.QuietRecord | semantic.c:369-398 | with quiet initializers, a record literal of a bound type reports exactly: "not a record type" if it is not one, then the mismatched fields in order, then "wrong field number" exactly when the counts differ |
| SemanticPairs.RecordIgnoresNames | semantic.c:382-396 | initializers are matched to fields by position: renaming them changes nothing in the result |
| SemanticProps.VarDeclBinding | semantic.c:206-228 | a variable is allocated one local at the current level, in the frame exactly when it escapes. It is bound newest, not as a `for` index. The declaration's term assigns the initializer to it |
| SemanticProps.AssignIndexBody | semantic.c:525-543 | assigning a `for` index is reported |
| SemanticProps.AssignIndexLoop | semantic.c:469-489 | inside a loop, assigning its own index is reported |
| SemanticProps.AssignToForIndex | semantic.c:469-543 | `for i := 0 to n do i := 1` reports exactly one error, the assignment to the index |
| SemanticProps.OneTypeBatch | semantic.c:177-190 | `type a = t` binds a placeholder, then links it to the translated `t` |
| SemanticProps.SingleBatchNoRedefinition | semantic.c:99-108 | a one-member batch reports no redefinition |
| SemanticProps.SelfCycleReported | semantic.c:164-204 | `type a = a` is reported as an infinite type, and nothing else is |
| SemanticProps.RecursiveRecordAccepted | semantic.c:164-204 | `type list = {hd: int, tl: list}` is accepted, and `list` resolves to the new record |
| SemanticProps.TwoCycleStore | semantic.c:177-190 | in `type a = b  type b = a` each placeholder is linked to the other |
| SemanticProps.TwoCycleReported | semantic.c:164-204 | `type a = b  type b = a` reports both names as infinite types |
| SemanticProps.TransBodiesAsWritten | semantic.c:135-156 | as written, a body's entry is looked up again by name. The step is undefined when that lookup finds no function entry |
| SemanticProps.PrototypesLive | semantic.c:110-133 | the prototypes are function entries, one per function, each at its own new level; so every body is checked |
| SemanticProps.TwoPrototypes | semantic.c:110-133 | a two-function batch enters the first prototype, then the second |
| SemanticProps.ShadowBatchPrototypes | semantic.c:110-133 | for `function f(g: t) = ()  function g() = ()`, `g`'s prototype is newest and `f`'s is below it, each at its own level |
| SemanticProps.VoidBodyClean | semantic.c:141-155 | a `()` body of a void function only binds the parameters |
| SemanticProps.BindOneParam | semantic.c:143-149 | binding one parameter puts it newest, as a variable |
| SemanticProps.ShadowAsWritten | semantic.c:135-156 | as written, `g`'s body finds `f`'s parameter `g` instead of its prototype |
| SemanticProps.ShadowCorrected | semantic.c:135-156 | corrected, both bodies of that batch are checked with no error |
| SemanticProps.ParamShadowsLaterFunction | semantic.c:94-162 | for `function f(g: t) = ()  function g() = ()` the loop as written reaches an undefined step; the corrected loop reports nothing |

## Left out

- Printing is not modelled: `tab_dump`'s callback, `tmp_dump_map`, `fr_pp_frags`, `ty_print` and the final printing in `sem_trans_prog`. `Table.Dump` returns the binders in the order they would be shown.
- `em_error` is modelled without its message formatting, file name and output. `ErrMsg.Reset` does not open the source file, so `em_reset`'s error and `exit` on a missing file are not modelled.
- `checked_malloc` and `string` in `utils.c` only allocate, and `int_list` and `bool_list` are `Prepend` at a fixed type. Allocation failure and `exit` are not modelled.
- `sem_trans_prog`'s `exit(1)` when errors were reported is not modelled; `Semantic.TransProg` returns the errors instead.
- Pointer hashing in `table.c` is modelled as the key modulo the bucket count, on abstract natural keys. A pointer's address is not visible to the model.
- The `tr_*` IR builders declared in `translate.h` and implemented outside the core are uninterpreted: `Translate.TrExpr` is a free term type.
- The procedure fragment `trans_funcs_decl` emits at its end (semantic.c:158-160) is not modelled. It reads `result` after the loop, which is uninitialised for an empty batch, and calls the `translate.c` conversion functions, which are not part of this model.
- `fr_external_call`, `fr_proc_entry_exit_1` and `tr_level_frame` are not used by the core's checking and are not modelled.
- The `escape` flags of the tree are modelled as the set of flagged declaration ids. Escape analysis produces it (`Escape.FindEscape`), and semantic analysis reads it (`esc`). The ids are assumed distinct, one per declaration; the tree's shape does not enforce it, and two declarations sharing an id would share one flag.
- `trans_break_expr` accepts every `break` as void, with no loop check (the source leaves it as a TODO), and so does the model.
- `&` and `|` are not among the model's operators. `trans_op_expr` has no case for them and would reach `assert(0)`, so they must be rewritten before checking.
- `ty_actual` on a name type with no link would dereference NULL. The model stops the walk there instead.
- Env.EnterBuiltin: env.c:40-41 passes `tr_outermost()` and `tmp_label()` as arguments of one call, and C leaves their order unspecified. The first `tr_outermost()` itself makes a label (translate.c:28-32). The model evaluates left to right, so the outermost level gets `.L0` and `getchar` gets `.L1`; right to left would swap them. That the built-ins' labels are distinct (`Env.DistinctMarks`) holds under either order.
- SemanticPairs.QuietArgs, SemanticPairs.QuietEFields, SemanticPairs.CallArgTypes and SemanticPairs.QuietRecord: the exact diagnostics are stated only for arguments and initializers that are quiet (`SemanticPairs.Quiet`): from any state with the same store and environments, they report nothing and keep both. For other arguments, their own errors come between the pairs' diagnostics.
- Symbol.SignedChar: each Dafny character stands for one byte, taken modulo 256. A character outside ASCII would be several bytes in C's hash and in `strcmp`, so the model's hash differs from the source's for such strings. String equality, and so interning, is unaffected.
- `Frame.Name` and `Frame.Formals` are plain field reads with no contract of their own; `Frame.FrameAccessors` states what they return.
- Symbol.SymEnter: `symbol.c` links each binder to the previously entered symbol (`top` and `prev`) and nothing in the file reads that chain. The model keeps `Table`'s binder stack for symbol tables instead, so the `stack` clause of `SymEnter` describes the representation, not `sym_enter`.
- Frame.AddFrag: `list_append` is declared in `utils.h` but is not defined in `utils.c`. The model takes it to append at the tail, as its name and its use for the fragment lists say.
- Frame.NewFrame: with no formals, `frame()` leaves the frame's formal list uninitialised; the model gives the empty list. `tr_level` always passes the static link, so no caller reaches this case.
- Temp.LayerMap: `tmp_layer_map` shares the top layer's table with `over`, so a later `tmp_enter` on the result is also seen through `over`. The value model does not keep that aliasing, which the core does not rely on.
- Semantic.TransExpr: states only that the translation state stays valid and no level is lost. What each node does is stated by its `SemanticRules` rule; what the whole traversal keeps, by `SemanticFacts.ExprGrows`; small programs, by the `SemanticProps` lemmas.
- Semantic.TransCall: states only the kept translation state, as `Semantic.TransExpr` does, for the same reason.
- Semantic.TransOp: states only the kept translation state, as `Semantic.TransExpr` does, for the same reason.
- Semantic.TransRecord: states only the kept translation state, as `Semantic.TransExpr` does. The record-literal rule is stated by `SemanticPairs.RecordLiteral`, `SemanticPairs.QuietRecord` and `SemanticPairs.RecordIgnoresNames`.
- Semantic.TransArray: states only the kept translation state, as `Semantic.TransExpr` does, for the same reason.
- Semantic.TransIf: states only the kept translation state, as `Semantic.TransExpr` does, for the same reason.
- Semantic.TransWhile: states only the kept translation state, as `Semantic.TransExpr` does, for the same reason.
- Semantic.TransFor: states only the kept translation state, as `Semantic.TransExpr` does, for the same reason.
- Semantic.TransLet: states only the kept translation state, as `Semantic.TransExpr` does, for the same reason.
- Semantic.TransAssign: states only the kept translation state, as `Semantic.TransExpr` does, for the same reason.
- Semantic.TransVar: states only the kept translation state, as `Semantic.TransExpr` does, for the same reason.
- Semantic.TransDecl: states only the kept translation state, as `Semantic.TransExpr` does, for the same reason.
- Semantic.TransVarDecl: states only the kept translation state, as `Semantic.TransExpr` does, for the same reason.
- Semantic.BodyStep: states only the kept translation state, as `Semantic.TransExpr` does, for the same reason.
- Semantic.TransFuncsDecl: states only the kept state and the absent term; its parts are stated by `EnterPrototype`, `SemanticProps.PrototypesLive` and `SemanticFacts.FuncsDeclGrows`.
- Semantic.TransTypesDecl: states only that values and levels are unchanged; the errors it reports are stated by `CycleDiags`, `RedefinitionDiags` and the `SemanticProps` type-batch lemmas.
- Semantic.TransBodies: the guard on the prototype keeps the function total; `SemanticProps.PrototypesLive` shows it always holds for the prototypes `EnterPrototypes` makes.
- SemanticRules.RecordFields: the model uses no fields wherever the source's read of `u.record` is undefined. That happens for a record literal of an array type, where the element pointer is read as a field list. It also happens for a type in a cycle of names (`let type a = b type b = a in a {} end`), where `ty_actual` returns the name node itself and its `u.name` is read as a field list.
- Escape.TraverseExpr: states only the restored depth and the kept binders; the flags are stated by `Escape.ExprGrows`, `Escape.SimpleVarRule` and the example lemmas.
- Escape.TraverseVar: states only the restored depth and the kept binders, as `Escape.TraverseExpr` does.
- Escape.TraverseDecl: states only the restored depth and the kept binders, as `Escape.TraverseExpr` does.
- Escape.TraverseFunc: states only the restored depth and the kept binders, as `Escape.TraverseExpr` does.
- Escape.TraverseFuncs: states only the restored depth and the kept binders, as `Escape.TraverseExpr` does.

## Findings

| source | as written | input that shows it | evidently intended | confidence | as-written member | corrected member |
|---|---|---|---|---|---|---|
| semantic.c:361 | an ordering `<`, `<=`, `>`, `>=` has the type of its left operand | `if "a" < "b" then ()`: the condition is string-typed and is rejected | a comparison is an int, like equality | high; not executed | SemanticRules.OrderRuleAsWritten | SemanticRules.OrderRule |
| semantic.c:414 | the initializer is matched against `type->u.array` before checking the type is an array | `int [3] of 0`: int has no element type, so the match reads a NULL type and aborts | report "not an array type" and skip the element check | high; not executed | SemanticRules.ArrayInitAsWritten | SemanticRules.ArrayRule |
| semantic.c:139 | each body's prototype is looked up again by name, after earlier bodies' parameters were bound into the never-popped scope | `let function f(g: int) = () function g() = () in () end`: `g` finds `f`'s parameter, a variable entry read as a function entry | check each body against the prototype entered for it | high; not executed | SemanticProps.TransBodiesAsWritten | Semantic.TransBodies |

In each finding the counterexample and the corrected property are proved:

- The comparison: `SemanticRules.StringComparisonType` shows the as-written type is rejected as a condition. `SemanticProps.StringComparisonCondition` shows the corrected rule accepts it.
- The array literal: `SemanticRules.ArrayOfIntAborts` shows the undefined read. `SemanticRules.ArrayRuleAgrees` shows the corrected rule agrees wherever the original is defined.
- The body lookup: `SemanticProps.ShadowAsWritten` and `SemanticProps.ParamShadowsLaterFunction` show the undefined lookup. `SemanticProps.PrototypesLive` and `SemanticProps.ShadowCorrected` show that every body is checked correctly.

=== FILE: ast.dfy ===
/**
 * The abstract syntax built by ast.c. Every node carries its source
 * position. The `escape` flags that ast.c stores in variable declarations,
 * `for` indices and function parameters are given a `DeclId` each: escape
 * analysis computes the set of ids whose flag it sets, and the checker reads
 * the flags through that set.
 */
module Ast {
  import opened Wrappers
  import Symbol

  type Pos = int
  type Sym = Symbol.SymId

  /**
   * The identity of one `escape` flag of the tree. Each declaration is
   * assumed to have its own id: two declarations given the same id would
   * share one flag.
   */
  type DeclId = nat

  /**
   * `ast_binop_t` without `AST_AND` and `AST_OR`: the checker has no rule
   * for them (it reaches `assert(0)`), so `&` and `|` are taken to be
   * rewritten into `if` expressions before checking.
   */
  datatype Oper = Plus | Minus | Times | Divide | Eq | Neq | Lt | Le | Gt | Ge

  /** The enumerator value of an operator in `ast_binop_t`. */
  function OperCode(op: Oper): nat
  {
    match op
    case Plus => 0 case Minus => 1 case Times => 2 case Divide => 3
    case Eq => 4 case Neq => 5 case Lt => 6 case Le => 7 case Gt => 8 case Ge => 9
  }

  datatype Var =
    | SimpleVar(pos: Pos, name: Sym)
    | FieldVar(pos: Pos, base: Var, field: Sym)
    | SubVar(pos: Pos, base: Var, sub: Expr)

  datatype Expr =
    | NilExpr(pos: Pos)
    | VarExpr(pos: Pos, v: Var)
    | NumExpr(pos: Pos, num: int)
    | StringExpr(pos: Pos, str: string)
    | CallExpr(pos: Pos, func: Sym, args: seq<Expr>)
    | OpExpr(pos: Pos, left: Expr, op: Oper, right: Expr)
    | RecordExpr(pos: Pos, ty: Sym, efields: seq<EField>)
    | ArrayExpr(pos: Pos, ty: Sym, size: Expr, init: Expr)
    | SeqExpr(pos: Pos, exprs: seq<Expr>)
    | IfExpr(pos: Pos, cond: Expr, thn: Expr, els: OptExpr)
    | WhileExpr(pos: Pos, cond: Expr, body: Expr)
    | ForExpr(pos: Pos, index: Sym, lo: Expr, hi: Expr, body: Expr, esc: DeclId)
    | BreakExpr(pos: Pos)
    | LetExpr(pos: Pos, decls: seq<Decl>, body: Expr)
    | AssignExpr(pos: Pos, target: Var, expr: Expr)

  /**
   * The optional `else_` arm (a NULL pointer in the source); a separate type
   * so that recursion through it is structural.
   */
  datatype OptExpr = NoExpr | SomeExpr(expr: Expr)

  /** `ast_efield`: one `name = expr` of a record literal. */
  datatype EField = EField(pos: Pos, name: Sym, expr: Expr)

  /** `ast_field`: a parameter or record-type field, `name: type`. */
  datatype Param = Param(name: Sym, ty: Sym, esc: DeclId)

  /** `ast_func`: one function of a batch; `result` is NULL for a procedure. */
  datatype FuncDec = FuncDec(pos: Pos, name: Sym, params: seq<Param>, result: Option<Sym>, body: Expr)

  datatype Ty =
    | NameTy(pos: Pos, name: Sym)
    | RecordTy(pos: Pos, fields: seq<Param>)
    | ArrayTy(pos: Pos, elem: Sym)

  /** `ast_nametype`: one `type name = ty` of a batch. */
  datatype NameType = NameType(name: Sym, ty: Ty)

  datatype Decl =
    | FuncsDecl(pos: Pos, funcs: seq<FuncDec>)
    | TypesDecl(pos: Pos, types: seq<NameType>)
    | VarDecl(pos: Pos, name: Sym, ty: Option<Sym>, init: Expr, esc: DeclId)
}

=== FILE: env.dfy ===
/**
 * env.c: environment entries and the initial environments. A variable
 * entry (`env_var_entry`) carries its access, type and `for_` flag; a
 * function entry (`env_func_entry`) its level, label, formal types and
 * result type. The datatype constructors are those two functions.
 */
module Env {
  import opened Wrappers
  import Symbol
  import Table
  import Temp
  import Types
  import Translate

  datatype Entry =
    | VarEntry(access: Translate.TrAccess, ty: Types.TypeId, isFor: bool)
    | FuncEntry(level: Translate.LevelId, mark: Temp.Label, formals: seq<Types.TypeId>, result: Types.TypeId)

  function Names(st: Translate.TrState): seq<string>
  {
    st.gen.interner.names
  }

  /** `symbol(s)` on the interning table inside the generator state. */
  function Intern(st: Translate.TrState, s: string): (r: (Translate.TrState, Symbol.SymId))
    requires Translate.Valid(st)
    ensures Translate.Valid(r.0) && r.0.levels == st.levels && r.0.outermost == st.outermost
    ensures r.0.gen.labels == st.gen.labels
    ensures r.1 < |Names(r.0)| && Names(r.0)[r.1] == s
    ensures |Names(st)| <= |Names(r.0)| && Names(r.0)[..|Names(st)|] == Names(st)
  {
    var (it, sym) := Symbol.Intern(st.gen.interner, s);
    (st.(gen := st.gen.(interner := it)), sym)
  }

  /** The built-in type named by symbol `k`, if any. */
  function BaseType(names: seq<string>, k: Symbol.SymId): Option<Types.TypeId>
  {
    if k < |names| && names[k] == "int" then Some(Types.IntId)
    else if k < |names| && names[k] == "string" then Some(Types.StringId)
    else None
  }

  /**
   * `env_base_tenv`: a fresh table binding exactly `int` to the int type and
   * `string` to the string type (its lookups are `Find` on its binders, as
   * `Table.Inv` holds).
   */
  function BaseTenv(st: Translate.TrState): (r: (Translate.TrState, Table.Table<Types.TypeId>))
    requires Translate.Valid(st)
    ensures Translate.Valid(r.0) && r.0.levels == st.levels && r.0.outermost == st.outermost
    ensures Table.Inv(r.1) && r.1.size == Symbol.SymSize
    ensures forall k: nat :: Table.Find(r.1.stack, k) == BaseType(Names(r.0), k)
    ensures |Names(st)| <= |Names(r.0)| && Names(r.0)[..|Names(st)|] == Names(st)
  {
    var (st1, intSym) := Intern(st, "int");
    var (st2, strSym) := Intern(st1, "string");
    assert Names(st2)[intSym] == "int";
    var t2 := BaseTypeTable(intSym, strSym);
    UniqueNames(st2.gen.interner, intSym, strSym);
    PrefixTrans(Names(st), Names(st1), Names(st2));
    BaseTenvLookups(Names(st2), intSym, strSym, t2);
    (st2, t2)
  }

  /** The two `sym_enter`s of `env_base_tenv`: `int`, then `string`, into a fresh table. */
  function BaseTypeTable(intSym: Symbol.SymId, strSym: Symbol.SymId): (t: Table.Table<Types.TypeId>)
    ensures Table.Inv(t) && t.size == Symbol.SymSize
    ensures t.stack == [Table.Binder(strSym, Types.StringId), Table.Binder(intSym, Types.IntId)]
  {
    var t0 := Symbol.SymEmpty<Types.TypeId>();
    var t1 := Symbol.SymEnter(t0, intSym, Types.IntId);
    Symbol.SymEnter(t1, strSym, Types.StringId)
  }

  lemma UniqueNames(it: Symbol.Interner, intSym: Symbol.SymId, strSym: Symbol.SymId)
    requires Symbol.Valid(it) && intSym < |it.names| && strSym < |it.names|
    requires it.names[intSym] == "int" && it.names[strSym] == "string"
    ensures forall k: nat :: k < |it.names| && it.names[k] == "int" ==> k == intSym
    ensures forall k: nat :: k < |it.names| && it.names[k] == "string" ==> k == strSym
  {
    forall k: nat | k < |it.names| && it.names[k] == "int" ensures k == intSym {
      Symbol.NameUnique(it, k, intSym);
    }
    forall k: nat | k < |it.names| && it.names[k] == "string" ensures k == strSym {
      Symbol.NameUnique(it, k, strSym);
    }
  }

  lemma BaseTenvLookups(names: seq<string>, intSym: Symbol.SymId, strSym: Symbol.SymId, t: Table.Table<Types.TypeId>)
    requires intSym < |names| && strSym < |names| && names[intSym] == "int" && names[strSym] == "string"
    requires forall k: nat :: k < |names| && names[k] == "int" ==> k == intSym
    requires forall k: nat :: k < |names| && names[k] == "string" ==> k == strSym
    requires t.stack == [Table.Binder(strSym, Types.StringId), Table.Binder(intSym, Types.IntId)]
    ensures forall k: nat :: Table.Find(t.stack, k) == BaseType(names, k)
  {
    assert intSym != strSym by { assert names[intSym] != names[strSym]; }
    assert t.stack[1..] == [Table.Binder(intSym, Types.IntId)] && t.stack[1..][1..] == [];
    forall k: nat ensures Table.Find(t.stack, k) == BaseType(names, k) {
      if k == strSym {
        assert names[k] != "int";
      } else if k != intSym {
        assert Table.Find(t.stack[1..][1..], k) == None;
        assert Table.Find(t.stack[1..], k) == None;
        assert Table.Find(t.stack, k) == None;
        assert !(k < |names| && names[k] == "int") && !(k < |names| && names[k] == "string");
      }
    }
  }

  lemma PrefixTrans(a: seq<string>, b: seq<string>, c: seq<string>)
    requires |a| <= |b| && b[..|a|] == a && |b| <= |c| && c[..|b|] == b
    ensures |a| <= |c| && c[..|a|] == a && forall i :: 0 <= i < |a| ==> c[i] == a[i]
  {
    assert c[..|a|] == c[..|b|][..|a|];
  }

  /**
   * A binder of the base value environment: `name` bound to a function entry
   * at level `lvl` with the given signature, under a label.
   */
  ghost predicate BuiltinBinder(names: seq<string>, b: Table.Binder<Entry>, name: string,
                                formals: seq<Types.TypeId>, result: Types.TypeId, lvl: Translate.LevelId)
  {
    && b.key < |names| && names[b.key] == name
    && b.value.FuncEntry? && b.value.level == lvl
    && b.value.formals == formals && b.value.result == result
    && b.value.mark < |names|
  }

  /** A binder stays described the same way when more names are interned. */
  lemma BuiltinBinderKept(names: seq<string>, names': seq<string>, b: Table.Binder<Entry>, name: string,
                          formals: seq<Types.TypeId>, result: Types.TypeId, lvl: Translate.LevelId)
    requires BuiltinBinder(names, b, name, formals, result, lvl)
    requires |names| <= |names'| && names'[..|names|] == names
    ensures BuiltinBinder(names', b, name, formals, result, lvl)
    ensures names'[b.value.mark] == names[b.value.mark]
  {
    assert names'[b.key] == names'[..|names|][b.key];
    assert names'[b.value.mark] == names'[..|names|][b.value.mark];
  }

  /**
   * The binders of the base value environment, newest first: `chr`, `print`,
   * `ord`, `getchar`, each a function entry at level `out`.
   */
  ghost predicate BaseBinders(names: seq<string>, stack: seq<Table.Binder<Entry>>, out: Translate.LevelId)
  {
    && |stack| == 4
    && BuiltinBinder(names, stack[3], "getchar", [], Types.StringId, out)
    && BuiltinBinder(names, stack[2], "ord", [Types.StringId], Types.IntId, out)
    && BuiltinBinder(names, stack[1], "print", [Types.StringId], Types.VoidId, out)
    && BuiltinBinder(names, stack[0], "chr", [Types.IntId], Types.StringId, out)
  }

  /** The base binders stay described the same way when more names are interned. */
  lemma BaseBindersKept(names: seq<string>, names': seq<string>, stack: seq<Table.Binder<Entry>>, out: Translate.LevelId)
    requires BaseBinders(names, stack, out)
    requires |names| <= |names'| && names'[..|names|] == names
    ensures BaseBinders(names', stack, out)
  {
    BuiltinBinderKept(names, names', stack[3], "getchar", [], Types.StringId, out);
    BuiltinBinderKept(names, names', stack[2], "ord", [Types.StringId], Types.IntId, out);
    BuiltinBinderKept(names, names', stack[1], "print", [Types.StringId], Types.VoidId, out);
    BuiltinBinderKept(names, names', stack[0], "chr", [Types.IntId], Types.StringId, out);
  }

  /** Function binders under pairwise different labels. */
  ghost predicate DistinctMarks(stack: seq<Table.Binder<Entry>>)
  {
    && (forall k :: 0 <= k < |stack| ==> stack[k].value.FuncEntry?)
    && (forall i, j :: 0 <= i < j < |stack| ==> stack[i].value.mark != stack[j].value.mark)
  }

  /** `s` is a label name `.L<n>` that `tmp_label` made before its counter reached `bound`. */
  ghost predicate EarlierLabel(s: string, bound: nat)
  {
    && |s| >= 2 && s[0] == '.' && s[1] == 'L'
    && var digits := s[2..];
       && (forall i :: 0 <= i < |digits| ==> Temp.IsDigit(digits[i]))
       && Temp.DecValue(digits) < bound
  }

  /** Function binders, each under a label made before the counter reached `bound`. */
  ghost predicate LabelledBefore(names: seq<string>, stack: seq<Table.Binder<Entry>>, bound: nat)
  {
    forall k :: 0 <= k < |stack| ==>
      && stack[k].value.FuncEntry? && stack[k].value.mark < |names|
      && EarlierLabel(names[stack[k].value.mark], bound)
  }

  /**
   * Pushing a binder under the label made from a counter `l` at or above
   * `bound` keeps the labels distinct: reading the new name back gives `l`,
   * which no earlier label has.
   */
  lemma LabelledPush(names: seq<string>, names': seq<string>, stack: seq<Table.Binder<Entry>>,
                     bound: nat, b: Table.Binder<Entry>, l: nat)
    requires LabelledBefore(names, stack, bound) && DistinctMarks(stack)
    requires |names| <= |names'| && names'[..|names|] == names
    requires bound <= l
    requires b.value.FuncEntry? && b.value.mark < |names'| && names'[b.value.mark] == ".L" + Temp.Decimal(l)
    ensures LabelledBefore(names', [b] + stack, l + 1) && DistinctMarks([b] + stack)
  {
    var made := ".L" + Temp.Decimal(l);
    assert made[2..] == Temp.Decimal(l);
    Temp.DecimalValue(l);
    forall k | 0 <= k < |stack|
      ensures names'[stack[k].value.mark] == names[stack[k].value.mark]
      ensures stack[k].value.mark != b.value.mark
    {
      assert names'[stack[k].value.mark] == names'[..|names|][stack[k].value.mark];
    }
    var s' := [b] + stack;
    forall k | 0 <= k < |s'|
      ensures s'[k].value.FuncEntry? && s'[k].value.mark < |names'| && EarlierLabel(names'[s'[k].value.mark], l + 1)
    {
      if k > 0 {
        assert s'[k] == stack[k - 1];
      }
    }
    forall i, j | 0 <= i < j < |s'|
      ensures s'[i].value.mark != s'[j].value.mark
    {
      assert s'[j] == stack[j - 1];
      if i > 0 {
        assert s'[i] == stack[i - 1];
      }
    }
  }

  /**
   * One binding of `env_base_venv`: the name is interned, the outermost
   * level fetched, a fresh label made, and a function entry entered. C
   * leaves the order of the arguments of one call unspecified; this model
   * evaluates them left to right, which fixes the label numbers.
   */
  method EnterBuiltin(st: Translate.TrState, tab: Table.Table<Entry>, name: string,
                      formals: seq<Types.TypeId>, result: Types.TypeId)
    returns (st': Translate.TrState, tab': Table.Table<Entry>)
    requires Translate.Valid(st) && Table.Valid(tab)
    ensures Translate.Valid(st') && Table.Valid(tab') && (Table.Inv(tab) ==> Table.Inv(tab'))
    ensures tab'.size == tab.size
    ensures |Names(st)| <= |Names(st')| && Names(st')[..|Names(st)|] == Names(st)
    ensures st.gen.labels < st'.gen.labels
    ensures st'.outermost.Some? && (st.outermost.Some? ==> st'.outermost == st.outermost)
    ensures st'.outermost.value < |st'.levels| && st'.levels[st'.outermost.value].parent.None?
    ensures |tab'.stack| == |tab.stack| + 1 && tab'.stack[1..] == tab.stack
    ensures BuiltinBinder(Names(st'), tab'.stack[0], name, formals, result, st'.outermost.value)
    ensures Names(st')[tab'.stack[0].value.mark] == ".L" + Temp.Decimal(st'.gen.labels - 1)
    ensures LabelledBefore(Names(st), tab.stack, st.gen.labels) && DistinctMarks(tab.stack) ==>
              LabelledBefore(Names(st'), tab'.stack, st'.gen.labels) && DistinctMarks(tab'.stack)
  {
    var (st1, sym) := Intern(st, name);
    var (st2, out) := Translate.Outermost(st1);
    var (g3, mark) := Temp.NewLabel(st2.gen);
    st' := st2.(gen := g3);
    PrefixTrans(Names(st), Names(st1), Names(st2));
    PrefixTrans(Names(st), Names(st2), Names(st'));
    PrefixTrans(Names(st1), Names(st2), Names(st'));
    tab' := Symbol.SymEnter(tab, sym, FuncEntry(out, mark, formals, result));
    if LabelledBefore(Names(st), tab.stack, st.gen.labels) && DistinctMarks(tab.stack) {
      assert tab'.stack == [tab'.stack[0]] + tab.stack;
      LabelledPush(Names(st), Names(st'), tab.stack, st.gen.labels, tab'.stack[0], st'.gen.labels - 1);
    }
  }

  /**
   * `env_base_venv`: `getchar: () -> string`, `ord: (string) -> int`,
   * `print: (string) -> void` and `chr: (int) -> string`, each at the
   * outermost level (which has no parent) under its own fresh label. The
   * model evaluates the arguments of each call left to right, its choice
   * where C leaves the order open; the labels differ under any order.
   */
  method BaseVenv(st: Translate.TrState) returns (st': Translate.TrState, venv: Table.Table<Entry>)
    requires Translate.Valid(st)
    ensures Translate.Valid(st') && Table.Inv(venv) && venv.size == Symbol.SymSize
    ensures st'.outermost.Some? && (st.outermost.Some? ==> st'.outermost == st.outermost)
    ensures st'.outermost.value < |st'.levels| && st'.levels[st'.outermost.value].parent.None?
    ensures BaseBinders(Names(st'), venv.stack, st'.outermost.value)
    ensures DistinctMarks(venv.stack)
  {
    var t0 := Symbol.SymEmpty<Entry>();
    assert LabelledBefore(Names(st), t0.stack, st.gen.labels) && DistinctMarks(t0.stack);
    var st1, t1 := EnterBuiltin(st, t0, "getchar", [], Types.StringId);
    var st2, t2 := EnterBuiltin(st1, t1, "ord", [Types.StringId], Types.IntId);
    var st3, t3 := EnterBuiltin(st2, t2, "print", [Types.StringId], Types.VoidId);
    st', venv := EnterBuiltin(st3, t3, "chr", [Types.IntId], Types.StringId);
    var out := st'.outermost.value;
    PrefixTrans(Names(st1), Names(st2), Names(st3));
    PrefixTrans(Names(st1), Names(st3), Names(st'));
    PrefixTrans(Names(st2), Names(st3), Names(st'));
    assert venv.stack[3] == t1.stack[0] && venv.stack[2] == t2.stack[0] && venv.stack[1] == t3.stack[0];
    BuiltinBinderKept(Names(st1), Names(st'), venv.stack[3], "getchar", [], Types.StringId, out);
    BuiltinBinderKept(Names(st2), Names(st'), venv.stack[2], "ord", [Types.StringId], Types.IntId, out);
    BuiltinBinderKept(Names(st3), Names(st'), venv.stack[1], "print", [Types.StringId], Types.VoidId, out);
  }
}

=== FILE: errmsg.dfy ===
/**
 * errmsg.c: the error flag and the line/column arithmetic of `em_error`.
 * The globals `em_any_errors`, `em_tok_pos`, `_line_num` and `_line_pos` are
 * one explicit state; the file name, `fopen` and the printing are left out.
 */
module ErrMsg {

  /**
   * `linePos` is the `_line_pos` list, newest line start first; `tokPos` is
   * `em_tok_pos`, the lexer's current token position.
   */
  datatype State = State(anyErrors: bool, lineNum: int, linePos: seq<int>, tokPos: int)

  /** A reported source location, `line.column`. */
  datatype Loc = Loc(line: int, col: int)

  /** `em_reset`: no errors yet, on line 1, which starts at offset 0. */
  function Reset(st: State): (r: State)
    ensures !r.anyErrors && r.lineNum == 1 && r.linePos == [0]
    ensures r.tokPos == st.tokPos
  {
    State(false, 1, [0], st.tokPos)
  }

  /** The lexer moving to a token at `pos`. */
  function SetTokPos(st: State, pos: int): (r: State)
    ensures r.tokPos == pos
    ensures r.anyErrors == st.anyErrors && r.lineNum == st.lineNum && r.linePos == st.linePos
  {
    st.(tokPos := pos)
  }

  /** `em_newline`: one more line, starting at the current token position. */
  function Newline(st: State): (r: State)
    ensures r.lineNum == st.lineNum + 1
    ensures r.linePos == [st.tokPos] + st.linePos
    ensures r.anyErrors == st.anyErrors && r.tokPos == st.tokPos
  {
    st.(lineNum := st.lineNum + 1, linePos := [st.tokPos] + st.linePos)
  }

  /**
   * The loop of `em_error`: skip the leading line starts at or after `pos`,
   * one line back for each. The column counts from the first remaining line
   * start, or from 0 when none remains.
   */
  function Locate(lines: seq<int>, line: int, pos: int): (r: Loc)
    ensures 0 <= line - r.line <= |lines|
    ensures forall j :: 0 <= j < line - r.line ==> lines[j] >= pos
    ensures line - r.line < |lines| ==> lines[line - r.line] < pos && r.col == pos - lines[line - r.line]
    ensures line - r.line == |lines| ==> r.col == pos
    decreases |lines|
  {
    if |lines| > 0 && lines[0] >= pos then
      Locate(lines[1..], line - 1, pos)
    else if |lines| > 0 then
      Loc(line, pos - lines[0])
    else
      Loc(line, pos)
  }

  /** `em_error(pos, …)`: the flag is set and the location computed. */
  function Error(st: State, pos: int): (r: (State, Loc))
    ensures r.0.anyErrors
    ensures r.0.lineNum == st.lineNum && r.0.linePos == st.linePos && r.0.tokPos == st.tokPos
    ensures r.1 == Locate(st.linePos, st.lineNum, pos)
  {
    (st.(anyErrors := true), Locate(st.linePos, st.lineNum, pos))
  }

  /** What can happen to the error state between two resets. */
  datatype Event = Token(pos: int) | NewlineEvent | ErrorAt(pos: int)

  function Step(st: State, e: Event): State
  {
    match e
    case Token(p) => SetTokPos(st, p)
    case NewlineEvent => Newline(st)
    case ErrorAt(p) => Error(st, p).0
  }

  function Run(st: State, evs: seq<Event>): State
    decreases |evs|
  {
    if evs == [] then st else Run(Step(st, evs[0]), evs[1..])
  }

  /**
   * `em_any_errors` is sticky: after a run it is set exactly when it was set
   * before or the run reported an error.
   */
  lemma {:induction false} FlagSticky(st: State, evs: seq<Event>)
    ensures Run(st, evs).anyErrors <==> st.anyErrors || exists i :: 0 <= i < |evs| && evs[i].ErrorAt?
    decreases |evs|
  {
    if evs != [] {
      FlagSticky(Step(st, evs[0]), evs[1..]);
      if exists i :: 0 <= i < |evs[1..]| && evs[1..][i].ErrorAt? {
        var i :| 0 <= i < |evs[1..]| && evs[1..][i].ErrorAt?;
        assert evs[i + 1].ErrorAt?;
      }
      if exists i :: 0 <= i < |evs| && evs[i].ErrorAt? {
        var i :| 0 <= i < |evs| && evs[i].ErrorAt?;
        if i > 0 {
          assert evs[1..][i - 1].ErrorAt?;
        }
      }
    }
  }

  /** Line starts newest first, never increasing towards the oldest. */
  ghost predicate Descending(lines: seq<int>)
  {
    forall i, j :: 0 <= i < j < |lines| ==> lines[i] >= lines[j]
  }

  /**
   * The state a lexer keeps by calling only `em_newline` with non-decreasing
   * token positions after `em_reset`: one line start per line, the oldest 0.
   */
  ghost predicate Lines(st: State)
  {
    st.lineNum == |st.linePos| && |st.linePos| >= 1 && st.linePos[|st.linePos| - 1] == 0
    && Descending(st.linePos) && st.tokPos >= st.linePos[0]
  }

  lemma ResetLines(st: State)
    requires st.tokPos >= 0
    ensures Lines(Reset(st))
  {
  }

  /** A newline keeps the line structure, and so does a later token. */
  lemma NewlineLines(st: State, pos: int)
    requires Lines(st) && pos >= st.tokPos
    ensures Lines(SetTokPos(Newline(st), pos))
  {
    var r := SetTokPos(Newline(st), pos);
    forall i, j | 0 <= i < j < |r.linePos|
      ensures r.linePos[i] >= r.linePos[j]
    {
      if i > 0 {
        assert r.linePos[i] == st.linePos[i - 1] && r.linePos[j] == st.linePos[j - 1];
      } else {
        assert r.linePos[j] == st.linePos[j - 1] <= st.linePos[0];
      }
    }
  }

  /** Number of line starts strictly before `pos`. */
  function CountBefore(lines: seq<int>, pos: int): (n: nat)
    ensures n <= |lines|
    decreases |lines|
  {
    if lines == [] then 0 else (if lines[0] < pos then 1 else 0) + CountBefore(lines[1..], pos)
  }

  /** On descending line starts, all entries after one below `pos` are below too. */
  lemma {:induction false} CountBeforeTail(lines: seq<int>, pos: int)
    requires Descending(lines) && lines != [] && lines[0] < pos
    ensures CountBefore(lines, pos) == |lines|
    decreases |lines|
  {
    if |lines| > 1 {
      CountBeforeTail(lines[1..], pos);
    }
  }

  /**
   * On well-kept lines the reported line is the number of line starts
   * before `pos`: the line that holds `pos`, counting from 1.
   */
  lemma {:induction false} LineIsCount(lines: seq<int>, line: int, pos: int)
    requires Descending(lines)
    ensures Locate(lines, line, pos).line == line - |lines| + CountBefore(lines, pos)
    decreases |lines|
  {
    if |lines| > 0 {
      if lines[0] >= pos {
        LineIsCount(lines[1..], line - 1, pos);
      } else {
        CountBeforeTail(lines, pos);
      }
    }
  }

  /** The reported line of an error at `pos`, on well-kept lines. */
  lemma ErrorLine(st: State, pos: int)
    requires Lines(st)
    ensures Error(st, pos).1.line == CountBefore(st.linePos, pos)
  {
    LineIsCount(st.linePos, st.lineNum, pos);
  }

  /** An error at offset 0 precedes every line start and is reported as `0.0`. */
  lemma ErrorAtZero(st: State)
    requires Lines(st)
    ensures Error(st, 0).1 == Loc(0, 0)
  {
    var l := Locate(st.linePos, st.lineNum, 0);
    assert st.linePos[|st.linePos| - 1] >= 0;
    assert forall j :: 0 <= j < |st.linePos| ==> st.linePos[j] >= st.linePos[|st.linePos| - 1];
    assert st.lineNum - l.line == |st.linePos|;
  }

  /** A concrete layout: lines start at 0, 10 and 25; offset 12 is `2.2`. */
  lemma ErrorExample()
    ensures Error(State(false, 3, [25, 10, 0], 30), 12).1 == Loc(2, 2)
    ensures Error(State(false, 3, [25, 10, 0], 30), 25).1 == Loc(2, 15)
  {
  }
}

=== FILE: escape.dfy ===
/**
 * escape.c: which declarations are referenced from a more deeply nested
 * function. The globals `_depth` and `_env` and the `escape` flags of the
 * tree are one explicit state; a flag is set exactly when its `DeclId` is in
 * `escaping`. Scopes are the stubs of symbol.c, so `sym_begin_scope` and
 * `sym_end_scope` change nothing and are not written out: a binder entered
 * for a parameter, a `for` index or a `let` stays visible to the end.
 *
 * The environment is kept as the binder chain of its symbol table, newest
 * first: `Symbol.SymEnter` prepends to that chain and `Symbol.SymLookup`
 * returns `Table.Find` on it, so the buckets add nothing here.
 */
module Escape {
  import opened Wrappers
  import Table
  import opened Ast

  /** `escape_entry_s`: the depth of the declaration and its flag. */
  datatype EscEntry = EscEntry(depth: nat, id: DeclId)

  type Chain = seq<Table.Binder<EscEntry>>

  datatype EscState = EscState(depth: nat, env: Chain, escaping: set<DeclId>)

  /** The flags of the binders of an environment chain. */
  ghost function EntryIds(s: Chain): set<DeclId>
  {
    if s == [] then {} else {s[0].value.id} + EntryIds(s[1..])
  }

  /**
   * What every traversal step does to the state: the depth is restored,
   * binders are only added, a flag is cleared only by registering one of
   * the added binders, and a flag that becomes set belongs to a binder.
   */
  ghost predicate Grows(st: EscState, r: EscState)
  {
    r.depth == st.depth
    && Table.Extends(r.env, st.env)
    && st.escaping - r.escaping <= EntryIds(Table.Added(r.env, st.env))
    && r.escaping - st.escaping <= EntryIds(r.env)
  }

  lemma {:induction false} EntryIdsConcat(s: Chain, t: Chain)
    ensures EntryIds(s + t) == EntryIds(s) + EntryIds(t)
    decreases |s|
  {
    if s != [] {
      assert (s + t)[1..] == s[1..] + t;
      EntryIdsConcat(s[1..], t);
    } else {
      assert s + t == t;
    }
  }

  lemma ExtendsIds(long: Chain, short: Chain)
    requires Table.Extends(long, short)
    ensures EntryIds(short) <= EntryIds(long)
  {
    EntryIdsConcat(Table.Added(long, short), short);
  }

  lemma GrowsTrans(a: EscState, b: EscState, c: EscState)
    requires Grows(a, b) && Grows(b, c)
    ensures Grows(a, c)
  {
    Table.AddedTrans(a.env, b.env, c.env);
    EntryIdsConcat(Table.Added(c.env, b.env), Table.Added(b.env, a.env));
    ExtendsIds(c.env, b.env);
  }

  lemma GrowsRefl(st: EscState)
    ensures Grows(st, st)
  {
    assert Table.Added(st.env, st.env) == [];
  }

  /** A binder found for a symbol is one of the chain's binders. */
  lemma {:induction false} FindIn(s: Chain, key: nat)
    requires Table.Find(s, key).Some?
    ensures Table.Find(s, key).value.id in EntryIds(s)
    decreases |s|
  {
    if s[0].key != key {
      FindIn(s[1..], key);
    }
  }

  /**
   * `sym_enter(_env, name, escape_entry(_depth, &flag))`: a binder at the
   * current depth, and `escape_entry` clears the flag.
   */
  function Register(st: EscState, name: Sym, id: DeclId): (r: EscState)
    ensures r.env == [Table.Binder(name, EscEntry(st.depth, id))] + st.env
    ensures r.escaping == st.escaping - {id} && r.depth == st.depth
  {
    EscState(st.depth, [Table.Binder(name, EscEntry(st.depth, id))] + st.env, st.escaping - {id})
  }

  lemma RegisterGrows(st: EscState, name: Sym, id: DeclId)
    ensures Grows(st, Register(st, name, id))
  {
    var r := Register(st, name, id);
    assert r.env[1..] == st.env;
    assert Table.Added(r.env, st.env) + st.env == [r.env[0]] + st.env;
    assert EntryIds([r.env[0]]) == {id};
  }

  /**
   * Parameters registered in order at the current depth: the newest binder
   * is the last parameter's, and every parameter's flag is cleared.
   */
  function RegisterParams(st: EscState, ps: seq<Param>): (r: EscState)
    ensures r.depth == st.depth && |r.env| == |st.env| + |ps| && r.env[|ps|..] == st.env
    ensures forall j :: 0 <= j < |ps| ==> r.env[|ps| - 1 - j] == Table.Binder(ps[j].name, EscEntry(st.depth, ps[j].esc))
    ensures r.escaping <= st.escaping
    ensures forall j :: 0 <= j < |ps| ==> ps[j].esc !in r.escaping
    decreases |ps|
  {
    if ps == [] then
      st
    else
      var s1 := Register(st, ps[0].name, ps[0].esc);
      var r := RegisterParams(s1, ps[1..]);
      assert forall j :: 1 <= j < |ps| ==> ps[j] == ps[1..][j - 1];
      assert r.env[|ps| - 1] == r.env[|ps| - 1..][0] == s1.env[0];
      assert r.env[|ps|..] == r.env[|ps| - 1..][1..] == s1.env[1..];
      r
  }

  lemma {:induction false} ParamsGrow(st: EscState, ps: seq<Param>)
    ensures Grows(st, RegisterParams(st, ps))
    decreases |ps|
  {
    if ps == [] {
      GrowsRefl(st);
    } else {
      var s1 := Register(st, ps[0].name, ps[0].esc);
      RegisterGrows(st, ps[0].name, ps[0].esc);
      ParamsGrow(s1, ps[1..]);
      GrowsTrans(st, s1, RegisterParams(s1, ps[1..]));
    }
  }

  /**
   * `traverse_var`: a simple variable sets the flag of its binder when the
   * binder is shallower than the current depth; an unbound name does nothing.
   */
  function TraverseVar(st: EscState, v: Var): (r: EscState)
    ensures r.depth == st.depth && |st.env| <= |r.env|
    decreases v, 0
  {
    match v
    case SimpleVar(_, name) =>
      var entry := Table.Find(st.env, name);
      if entry.Some? && entry.value.depth < st.depth then
        st.(escaping := st.escaping + {entry.value.id})
      else
        st
    case FieldVar(_, base, _) => TraverseVar(st, base)
    case SubVar(_, base, sub) => TraverseExpr(TraverseVar(st, base), sub)
  }

  /** `traverse_expr`. */
  function TraverseExpr(st: EscState, e: Expr): (r: EscState)
    ensures r.depth == st.depth && |st.env| <= |r.env|
    decreases e, 1
  {
    match e
    case NilExpr(_) => st
    case VarExpr(_, v) => TraverseVar(st, v)
    case NumExpr(_, _) => st
    case StringExpr(_, _) => st
    case CallExpr(_, _, args) => TraverseExprs(st, args)
    case OpExpr(_, left, _, right) => TraverseExpr(TraverseExpr(st, left), right)
    case RecordExpr(_, _, fs) => TraverseEFields(st, fs)
    case ArrayExpr(_, _, size, init) => TraverseExpr(TraverseExpr(st, size), init)
    case SeqExpr(_, es) => TraverseExprs(st, es)
    case IfExpr(_, c, t, o) => TraverseOpt(TraverseExpr(TraverseExpr(st, c), t), o)
    case WhileExpr(_, c, b) => TraverseExpr(TraverseExpr(st, c), b)
    case ForExpr(_, index, lo, hi, body, esc) =>
      TraverseExpr(Register(TraverseExpr(TraverseExpr(st, lo), hi), index, esc), body)
    case BreakExpr(_) => st
    case LetExpr(_, ds, body) => TraverseExpr(TraverseDecls(st, ds), body)
    case AssignExpr(_, v, x) => TraverseExpr(TraverseVar(st, v), x)
  }

  /** The argument, sequence and similar lists, first to last. */
  function TraverseExprs(st: EscState, es: seq<Expr>): (r: EscState)
    ensures r.depth == st.depth && |st.env| <= |r.env|
    decreases es, 1
  {
    if es == [] then st else TraverseExprs(TraverseExpr(st, es[0]), es[1..])
  }

  function TraverseEFields(st: EscState, fs: seq<EField>): (r: EscState)
    ensures r.depth == st.depth && |st.env| <= |r.env|
    decreases fs, 1
  {
    if fs == [] then st
    else
      assert fs[0].expr < fs[0];
      TraverseEFields(TraverseExpr(st, fs[0].expr), fs[1..])
  }

  function TraverseOpt(st: EscState, o: OptExpr): (r: EscState)
    ensures r.depth == st.depth && |st.env| <= |r.env|
    decreases o, 1
  {
    match o
    case NoExpr => st
    case SomeExpr(x) => TraverseExpr(st, x)
  }

  function TraverseDecls(st: EscState, ds: seq<Decl>): (r: EscState)
    ensures r.depth == st.depth && |st.env| <= |r.env|
    decreases ds, 1
  {
    if ds == [] then st else TraverseDecls(TraverseDecl(st, ds[0]), ds[1..])
  }

  /**
   * `traverse_decl`: a variable is registered before its initialiser is
   * traversed; type declarations change nothing.
   */
  function TraverseDecl(st: EscState, d: Decl): (r: EscState)
    ensures r.depth == st.depth && |st.env| <= |r.env|
    decreases d, 0
  {
    match d
    case FuncsDecl(_, fs) => TraverseFuncs(st, fs)
    case TypesDecl(_, _) => st
    case VarDecl(_, name, _, init, esc) => TraverseExpr(Register(st, name, esc), init)
  }

  /**
   * One function of a batch: its parameters and body one level deeper than
   * the batch, and the depth restored afterwards.
   */
  function TraverseFunc(st: EscState, f: FuncDec): (r: EscState)
    ensures r.depth == st.depth && |st.env| + |f.params| <= |r.env|
    decreases f, 0
  {
    var inner := TraverseExpr(RegisterParams(st.(depth := st.depth + 1), f.params), f.body);
    inner.(depth := st.depth)
  }

  function TraverseFuncs(st: EscState, fs: seq<FuncDec>): (r: EscState)
    ensures r.depth == st.depth && |st.env| <= |r.env|
    decreases fs, 1
  {
    if fs == [] then st else TraverseFuncs(TraverseFunc(st, fs[0]), fs[1..])
  }

  /**
   * `esc_find_escape`: depth 0, an empty environment and no flag set at the
   * start (ast.c creates every flag false).
   */
  function FindEscape(e: Expr): (r: set<DeclId>)
  {
    TraverseExpr(EscState(0, [], {}), e).escaping
  }

  /** Only the flags of registered declarations can end up set. */
  lemma FindEscapeRegistered(e: Expr)
    ensures FindEscape(e) <= EntryIds(TraverseExpr(EscState(0, [], {}), e).env)
  {
    ExprGrows(EscState(0, [], {}), e);
  }

  lemma {:induction false} VarGrows(st: EscState, v: Var)
    ensures Grows(st, TraverseVar(st, v))
    decreases v, 0
  {
    match v
    case SimpleVar(_, name) =>
      GrowsRefl(st);
      if Table.Find(st.env, name).Some? {
        FindIn(st.env, name);
      }
    case FieldVar(_, base, _) => VarGrows(st, base);
    case SubVar(_, base, sub) =>
      var s1 := TraverseVar(st, base);
      VarGrows(st, base);
      ExprGrows(s1, sub);
      GrowsTrans(st, s1, TraverseExpr(s1, sub));
  }

  /** Two traversals in a row grow the state. */
  lemma {:induction false} PairGrows(st: EscState, a: Expr, b: Expr, e: Expr)
    requires a < e && b < e
    ensures Grows(st, TraverseExpr(TraverseExpr(st, a), b))
    decreases e, 0
  {
    var s1 := TraverseExpr(st, a);
    ExprGrows(st, a);
    ExprGrows(s1, b);
    GrowsTrans(st, s1, TraverseExpr(s1, b));
  }

  /**
   * Every traversal grows the state: depth restored, binders only added, a
   * flag cleared only by registration and set only for a binder.
   */
  lemma {:induction false} ExprGrows(st: EscState, e: Expr)
    ensures Grows(st, TraverseExpr(st, e))
    decreases e, 2
  {
    match e
    case NilExpr(_) => GrowsRefl(st);
    case VarExpr(_, v) => VarGrows(st, v);
    case NumExpr(_, _) => GrowsRefl(st);
    case StringExpr(_, _) => GrowsRefl(st);
    case CallExpr(_, _, args) => ExprsGrow(st, args);
    case OpExpr(_, left, _, right) => PairGrows(st, left, right, e);
    case RecordExpr(_, _, fs) => EFieldsGrow(st, fs);
    case ArrayExpr(_, _, size, init) => PairGrows(st, size, init, e);
    case SeqExpr(_, es) => ExprsGrow(st, es);
    case IfExpr(_, _, _, _) => IfGrows(st, e);
    case WhileExpr(_, c, b) => PairGrows(st, c, b, e);
    case ForExpr(_, _, _, _, _, _) => ForGrows(st, e);
    case BreakExpr(_) => GrowsRefl(st);
    case LetExpr(_, _, _) => LetGrows(st, e);
    case AssignExpr(_, _, _) => AssignGrows(st, e);
  }

  lemma {:induction false} IfGrows(st: EscState, e: Expr)
    requires e.IfExpr?
    ensures Grows(st, TraverseExpr(st, e))
    decreases e, 1
  {
    var s2 := TraverseExpr(TraverseExpr(st, e.cond), e.thn);
    PairGrows(st, e.cond, e.thn, e);
    OptGrows(s2, e.els);
    TraverseIf(st, e);
    GrowsTrans(st, s2, TraverseOpt(s2, e.els));
  }

  lemma {:induction false} ForGrows(st: EscState, e: Expr)
    requires e.ForExpr?
    ensures Grows(st, TraverseExpr(st, e))
    decreases e, 1
  {
    var s2 := TraverseExpr(TraverseExpr(st, e.lo), e.hi);
    var s3 := Register(s2, e.index, e.esc);
    PairGrows(st, e.lo, e.hi, e);
    RegisterGrows(s2, e.index, e.esc);
    ExprGrows(s3, e.body);
    GrowsTrans(st, s2, s3);
    TraverseFor(st, e);
    GrowsTrans(st, s3, TraverseExpr(s3, e.body));
  }

  lemma {:induction false} LetGrows(st: EscState, e: Expr)
    requires e.LetExpr?
    ensures Grows(st, TraverseExpr(st, e))
    decreases e, 1
  {
    var s1 := TraverseDecls(st, e.decls);
    DeclsGrow(st, e.decls);
    ExprGrows(s1, e.body);
    TraverseLet(st, e);
    GrowsTrans(st, s1, TraverseExpr(s1, e.body));
  }

  lemma {:induction false} AssignGrows(st: EscState, e: Expr)
    requires e.AssignExpr?
    ensures Grows(st, TraverseExpr(st, e))
    decreases e, 1
  {
    var s1 := TraverseVar(st, e.target);
    VarGrows(st, e.target);
    ExprGrows(s1, e.expr);
    TraverseAssign(st, e);
    GrowsTrans(st, s1, TraverseExpr(s1, e.expr));
  }

  /** One step of `TraverseExpr` on an `if`. */
  lemma TraverseIf(st: EscState, e: Expr)
    requires e.IfExpr?
    ensures TraverseExpr(st, e) == TraverseOpt(TraverseExpr(TraverseExpr(st, e.cond), e.thn), e.els)
  {
  }

  /** One step of `TraverseExpr` on a `for`. */
  lemma TraverseFor(st: EscState, e: Expr)
    requires e.ForExpr?
    ensures TraverseExpr(st, e) == TraverseExpr(Register(TraverseExpr(TraverseExpr(st, e.lo), e.hi), e.index, e.esc), e.body)
  {
  }

  /** One step of `TraverseExpr` on a `let`. */
  lemma TraverseLet(st: EscState, e: Expr)
    requires e.LetExpr?
    ensures TraverseExpr(st, e) == TraverseExpr(TraverseDecls(st, e.decls), e.body)
  {
  }

  /** One step of `TraverseExpr` on an assignment. */
  lemma TraverseAssign(st: EscState, e: Expr)
    requires e.AssignExpr?
    ensures TraverseExpr(st, e) == TraverseExpr(TraverseVar(st, e.target), e.expr)
  {
  }

  lemma {:induction false} ExprsGrow(st: EscState, es: seq<Expr>)
    ensures Grows(st, TraverseExprs(st, es))
    decreases es, 1
  {
    if es == [] {
      GrowsRefl(st);
    } else {
      var s1 := TraverseExpr(st, es[0]);
      ExprGrows(st, es[0]);
      ExprsGrow(s1, es[1..]);
      GrowsTrans(st, s1, TraverseExprs(s1, es[1..]));
    }
  }

  lemma {:induction false} EFieldsGrow(st: EscState, fs: seq<EField>)
    ensures Grows(st, TraverseEFields(st, fs))
    decreases fs, 1
  {
    if fs == [] {
      GrowsRefl(st);
    } else {
      assert fs[0].expr < fs[0];
      var s1 := TraverseExpr(st, fs[0].expr);
      ExprGrows(st, fs[0].expr);
      EFieldsGrow(s1, fs[1..]);
      GrowsTrans(st, s1, TraverseEFields(s1, fs[1..]));
    }
  }

  lemma {:induction false} OptGrows(st: EscState, o: OptExpr)
    ensures Grows(st, TraverseOpt(st, o))
    decreases o, 1
  {
    match o
    case NoExpr => GrowsRefl(st);
    case SomeExpr(x) => ExprGrows(st, x);
  }

  lemma {:induction false} DeclsGrow(st: EscState, ds: seq<Decl>)
    ensures Grows(st, TraverseDecls(st, ds))
    decreases ds, 1
  {
    if ds == [] {
      GrowsRefl(st);
    } else {
      var s1 := TraverseDecl(st, ds[0]);
      DeclGrows(st, ds[0]);
      DeclsGrow(s1, ds[1..]);
      GrowsTrans(st, s1, TraverseDecls(s1, ds[1..]));
    }
  }

  lemma {:induction false} DeclGrows(st: EscState, d: Decl)
    ensures Grows(st, TraverseDecl(st, d))
    decreases d, 0
  {
    match d
    case FuncsDecl(_, fs) => FuncsGrow(st, fs);
    case TypesDecl(_, _) => GrowsRefl(st);
    case VarDecl(_, name, _, init, esc) =>
      var s1 := Register(st, name, esc);
      RegisterGrows(st, name, esc);
      ExprGrows(s1, init);
      GrowsTrans(st, s1, TraverseExpr(s1, init));
  }

  lemma {:induction false} FuncGrows(st: EscState, f: FuncDec)
    ensures Grows(st, TraverseFunc(st, f))
    decreases f, 0
  {
    var inner := st.(depth := st.depth + 1);
    var s1 := RegisterParams(inner, f.params);
    ParamsGrow(inner, f.params);
    ExprGrows(s1, f.body);
    GrowsTrans(inner, s1, TraverseExpr(s1, f.body));
  }

  lemma {:induction false} FuncsGrow(st: EscState, fs: seq<FuncDec>)
    ensures Grows(st, TraverseFuncs(st, fs))
    decreases fs, 1
  {
    if fs == [] {
      GrowsRefl(st);
    } else {
      var s1 := TraverseFunc(st, fs[0]);
      FuncGrows(st, fs[0]);
      FuncsGrow(s1, fs[1..]);
      GrowsTrans(st, s1, TraverseFuncs(s1, fs[1..]));
    }
  }

  /**
   * The rule for a simple variable, both ways: its binder's flag ends up set
   * exactly when it was set or the binder is shallower than the current
   * depth; no other flag, binder or the depth changes.
   */
  lemma SimpleVarRule(st: EscState, pos: Pos, name: Sym)
    ensures TraverseVar(st, SimpleVar(pos, name)).env == st.env
    ensures TraverseVar(st, SimpleVar(pos, name)).depth == st.depth
    ensures Table.Find(st.env, name).None? ==> TraverseVar(st, SimpleVar(pos, name)) == st
    ensures Table.Find(st.env, name).Some? ==>
      var entry := Table.Find(st.env, name).value;
      var r := TraverseVar(st, SimpleVar(pos, name));
      (entry.id in r.escaping <==> entry.id in st.escaping || entry.depth < st.depth)
      && forall x :: x != entry.id ==> (x in r.escaping <==> x in st.escaping)
  {
  }

  /** Nil, literals, `break` and type declarations leave the state alone. */
  lemma InertNodes(st: EscState, pos: Pos, n: int, s: string, types: seq<NameType>)
    ensures TraverseExpr(st, NilExpr(pos)) == st
    ensures TraverseExpr(st, NumExpr(pos, n)) == st
    ensures TraverseExpr(st, StringExpr(pos, s)) == st
    ensures TraverseExpr(st, BreakExpr(pos)) == st
    ensures TraverseDecl(st, TypesDecl(pos, types)) == st
  {
  }

  /**
   * `let var x := n function f() = x in nil end`: the function reads `x`
   * one level deeper than its declaration, so the flag of `x` is set.
   */
  lemma NestedReadEscapes(st: EscState, p: Pos, x: Sym, f: Sym, n: int, id: DeclId)
    ensures id in TraverseExpr(st, LetExpr(p, [VarDecl(p, x, None, NumExpr(p, n), id),
      FuncsDecl(p, [FuncDec(p, f, [], None, VarExpr(p, SimpleVar(p, x)))])], NilExpr(p))).escaping
  {
    var vd := VarDecl(p, x, None, NumExpr(p, n), id);
    var fd := FuncDec(p, f, [], None, VarExpr(p, SimpleVar(p, x)));
    var ds := [vd, FuncsDecl(p, [fd])];
    var s1 := Register(st, x, id);
    assert TraverseDecl(st, vd) == s1;
    var s3 := TraverseFuncs(s1, [fd]);
    ShallowerReadEscapes(s1, p, x, f, id);
    assert ds[1..][1..] == [];
    assert TraverseDecls(s1, ds[1..]) == s3;
    assert TraverseDecls(st, ds) == s3;
    LetThenBody(st, p, ds, NilExpr(p));
  }

  /** A `let` traverses its declarations, then its body in their scope. */
  lemma LetThenBody(st: EscState, p: Pos, ds: seq<Decl>, body: Expr)
    ensures TraverseExpr(st, LetExpr(p, ds, body)) == TraverseExpr(TraverseDecls(st, ds), body)
  {
  }

  /** The function part: a body that reads a binder of the enclosing depth. */
  lemma ShallowerReadEscapes(st: EscState, p: Pos, x: Sym, f: Sym, id: DeclId)
    requires Table.Find(st.env, x) == Some(EscEntry(st.depth, id))
    ensures id in TraverseFuncs(st, [FuncDec(p, f, [], None, VarExpr(p, SimpleVar(p, x)))]).escaping
  {
    var fd := FuncDec(p, f, [], None, VarExpr(p, SimpleVar(p, x)));
    var inner := st.(depth := st.depth + 1);
    assert RegisterParams(inner, []) == inner;
    var s2 := TraverseVar(inner, SimpleVar(p, x));
    assert id in s2.escaping;
    assert TraverseFunc(st, fd) == s2.(depth := st.depth);
    assert [fd][1..] == [];
  }

  /**
   * `let var x := n in x end`: a read at the declaring depth leaves the flag
   * clear, whatever it was before, because registering clears it.
   */
  lemma SameDepthReadStaysClear(st: EscState, p: Pos, x: Sym, n: int, id: DeclId)
    ensures id !in TraverseExpr(st, LetExpr(p, [VarDecl(p, x, None, NumExpr(p, n), id)],
      VarExpr(p, SimpleVar(p, x)))).escaping
  {
    var vd := VarDecl(p, x, None, NumExpr(p, n), id);
    var s1 := Register(st, x, id);
    assert TraverseDecl(st, vd) == s1;
    assert [vd][1..] == [];
    assert TraverseDecls(st, [vd]) == s1;
    assert Table.Find(s1.env, x) == Some(EscEntry(st.depth, id));
    assert TraverseVar(s1, SimpleVar(p, x)) == s1;
    LetThenBody(st, p, [vd], VarExpr(p, SimpleVar(p, x)));
  }

  /**
   * `function f(x: t) = x`: a parameter read by its own function's body is
   * at the same depth, so its flag stays clear.
   */
  lemma OwnParameterStaysClear(st: EscState, p: Pos, f: Sym, x: Sym, t: Sym, id: DeclId)
    ensures id !in TraverseFunc(st, FuncDec(p, f, [Param(x, t, id)], None, VarExpr(p, SimpleVar(p, x)))).escaping
  {
    var inner := st.(depth := st.depth + 1);
    var ps := [Param(x, t, id)];
    var s1 := Register(inner, x, id);
    assert ps[1..] == [];
    assert RegisterParams(s1, ps[1..]) == s1;
    assert RegisterParams(inner, ps) == s1;
    assert Table.Find(s1.env, x) == Some(EscEntry(st.depth + 1, id));
    assert TraverseVar(s1, SimpleVar(p, x)) == s1;
  }
}

=== FILE: frame.dfy ===
/**
 * frame-mips.c: activation records for the MIPS target. Each formal and
 * local is either a frame slot at a word offset from the frame pointer or
 * a register (a fresh temporary). The register budget for formals is K = 4
 * and a word is 4 bytes.
 */
module Frame {
  import opened Wrappers
  import Temp
  import Ir

  /** Register budget for formals. */
  const K: nat := 4
  /** FR_WORD_SIZE. */
  const WordSize: int := 4

  /** `fr_access_s`: FR_IN_FRAME with an offset, or FR_IN_REG with a temporary. */
  datatype Access = InFrame(offset: int) | InReg(reg: Temp.Temp)

  /** `frame_s`. */
  datatype Frame = Frame(name: Temp.Label, formals: seq<Access>, locals: seq<Access>, localCount: nat)

  /** Formal `i` goes in the frame when it escapes or lies beyond the register budget. */
  predicate FormalInFrame(escape: bool, i: nat)
  {
    escape || i >= K
  }

  /** The placement loop of `frame`, from formal `i` on. */
  function FormalAccesses(g: Temp.Gen, escapes: seq<bool>, i: nat): (r: (Temp.Gen, seq<Access>))
    requires Temp.Valid(g) && i <= |escapes|
    ensures Temp.Valid(r.0) && g.temps <= r.0.temps
    ensures r.0.interner == g.interner && r.0.labels == g.labels
    ensures |r.1| == |escapes| - i
    ensures Placed(escapes, i, r.1, g.temps, r.0.temps)
    decreases |escapes| - i
  {
    if i == |escapes| then (g, [])
    else if FormalInFrame(escapes[i], i) then
      var (g1, rest) := FormalAccesses(g, escapes, i + 1);
      PlacedCons(escapes, i, InFrame(i * WordSize), rest, g.temps, g.temps, g1.temps);
      (g1, [InFrame(i * WordSize)] + rest)
    else
      var (g1, t) := Temp.NewTemp(g);
      var (g2, rest) := FormalAccesses(g1, escapes, i + 1);
      PlacedCons(escapes, i, InReg(t), rest, g.temps, g1.temps, g2.temps);
      (g2, [InReg(t)] + rest)
  }

  /**
   * `accs` places formals `i..` of `escapes`: in the frame exactly when
   * `FormalInFrame`, at offset `4*k` for formal `k`, otherwise in registers
   * numbered from `lo` up to below `hi`, increasing.
   */
  ghost predicate Placed(escapes: seq<bool>, i: nat, accs: seq<Access>, lo: nat, hi: nat)
  {
    && i + |accs| == |escapes|
    && (forall j :: 0 <= j < |accs| ==> (accs[j].InFrame? <==> FormalInFrame(escapes[i + j], i + j)))
    && (forall j :: 0 <= j < |accs| && accs[j].InFrame? ==> accs[j].offset == WordSize * (i + j))
    && (forall j :: 0 <= j < |accs| && accs[j].InReg? ==> lo <= accs[j].reg.num < hi)
    && (forall j1, j2 :: 0 <= j1 < j2 < |accs| && accs[j1].InReg? && accs[j2].InReg? ==>
          accs[j1].reg.num < accs[j2].reg.num)
  }

  /** Placing formal `i` in front of the placement of the later ones. */
  lemma PlacedCons(escapes: seq<bool>, i: nat, a: Access, rest: seq<Access>, lo: nat, mid: nat, hi: nat)
    requires i < |escapes| && Placed(escapes, i + 1, rest, mid, hi) && mid <= hi
    requires a.InFrame? <==> FormalInFrame(escapes[i], i)
    requires a.InFrame? ==> a.offset == WordSize * i && lo == mid
    requires a.InReg? ==> a.reg.num == lo && mid == lo + 1
    ensures Placed(escapes, i, [a] + rest, lo, hi)
  {
    var accs := [a] + rest;
    forall j | 1 <= j < |accs| ensures accs[j] == rest[j - 1] && i + j == (i + 1) + (j - 1) {}
  }

  /**
   * `frame(name, formals)`: one access per formal, in order. Formal `i` is
   * the slot at offset `4*i` when it escapes or `i >= K`, otherwise a fresh
   * register. The frame starts with no locals and `local_count = 0`.
   */
  function NewFrame(g: Temp.Gen, name: Temp.Label, escapes: seq<bool>): (r: (Temp.Gen, Frame))
    requires Temp.Valid(g)
    ensures Temp.Valid(r.0) && r.0.interner == g.interner && r.0.labels == g.labels
    ensures r.1.name == name && r.1.locals == [] && r.1.localCount == 0
    ensures |r.1.formals| == |escapes|
    ensures forall i :: 0 <= i < |escapes| ==>
              if FormalInFrame(escapes[i], i) then r.1.formals[i] == InFrame(WordSize * i)
              else r.1.formals[i].InReg? && g.temps <= r.1.formals[i].reg.num < r.0.temps
    ensures forall i, j :: 0 <= i < j < |escapes| && r.1.formals[i].InReg? && r.1.formals[j].InReg? ==>
              r.1.formals[i].reg != r.1.formals[j].reg
    ensures LocalsInv(r.1)
  {
    var (g1, accs) := FormalAccesses(g, escapes, 0);
    (g1, Frame(name, accs, [], 0))
  }

  /** `fr_name`. */
  function Name(f: Frame): Temp.Label
  {
    f.name
  }

  /** `fr_formals`. */
  function Formals(f: Frame): seq<Access>
  {
    f.formals
  }

  /** The offsets of the frame-slot locals, in allocation order. */
  function SlotOffsets(locals: seq<Access>): seq<int>
  {
    if locals == [] then []
    else
      var last := locals[|locals| - 1];
      SlotOffsets(locals[..|locals| - 1]) + (if last.InFrame? then [last.offset] else [])
  }

  /**
   * The frame-slot locals are exactly `local_count` slots at -12, -16, ...
   * in allocation order (below the return address and saved frame pointer).
   */
  ghost predicate LocalsInv(f: Frame)
  {
    var offs := SlotOffsets(f.locals);
    |offs| == f.localCount && forall j :: 0 <= j < |offs| ==> offs[j] == WordSize * (-3 - j)
  }

  /**
   * `fr_alloc_local`: an escaping local takes the next slot down, at
   * `4 * (-2 - local_count)` after the count is bumped; any other local gets
   * a fresh register and leaves the count alone. Either way the access is
   * appended to the locals.
   */
  function AllocLocal(f: Frame, g: Temp.Gen, escape: bool): (r: (Frame, Temp.Gen, Access))
    requires Temp.Valid(g)
    ensures Temp.Valid(r.1) && r.1.interner == g.interner && r.1.labels == g.labels
    ensures r.0.name == f.name && r.0.formals == f.formals
    ensures r.0.locals == f.locals + [r.2]
    ensures escape ==> r.2 == InFrame(WordSize * (-2 - (f.localCount + 1))) && r.0.localCount == f.localCount + 1
    ensures escape ==> r.1 == g
    ensures !escape ==> r.2.InReg? && r.2.reg.num == g.temps && r.0.localCount == f.localCount
    ensures !escape ==> r.1.temps == g.temps + 1
    ensures LocalsInv(f) ==> LocalsInv(r.0)
  {
    if escape then
      var count := f.localCount + 1;
      var a := InFrame(WordSize * (-2 - count));
      var f' := f.(locals := f.locals + [a], localCount := count);
      assert f'.locals[..|f'.locals| - 1] == f.locals;
      (f', g, a)
    else
      var (g1, t) := Temp.NewTemp(g);
      var a := InReg(t);
      var f' := f.(locals := f.locals + [a]);
      assert f'.locals[..|f'.locals| - 1] == f.locals;
      (f', g1, a)
  }

  /** Frame-slot locals sit at strictly decreasing offsets, the first at -12. */
  lemma SlotOffsetsDecrease(f: Frame, i: nat, j: nat)
    requires LocalsInv(f) && i < j < f.localCount
    ensures SlotOffsets(f.locals)[0] == -12
    ensures SlotOffsets(f.locals)[i] > SlotOffsets(f.locals)[j]
  {
  }

  /**
   * `fr_offset`: defined only on frame slots (the source asserts it); the
   * offset is the one `fr_expr` adds to the frame pointer.
   */
  function Offset(a: Access): (r: int)
    requires a.InFrame?
    ensures forall fp :: Expr(a, fp) == Ir.Mem(Ir.Binop(Ir.Plus, Ir.Const(r), fp))
  {
    a.offset
  }

  /**
   * `fr_expr`: a frame slot is the memory word at `offset + frame_ptr`; a
   * register is the temporary itself.
   */
  function Expr(a: Access, framePtr: Ir.Expr): (r: Ir.Expr)
    ensures r.Mem? <==> a.InFrame?
    ensures r.Tmp? <==> a.InReg?
  {
    match a
    case InFrame(off) => Ir.Mem(Ir.Binop(Ir.Plus, Ir.Const(off), framePtr))
    case InReg(t) => Ir.Tmp(t)
  }

  /**
   * The expression of formal `i` of a new frame: the word at `4*i` from the
   * frame pointer when it is placed in the frame, otherwise one of the
   * temporaries the frame made.
   */
  lemma FormalExpr(g: Temp.Gen, name: Temp.Label, escapes: seq<bool>, i: nat, framePtr: Ir.Expr)
    requires Temp.Valid(g) && i < |escapes|
    ensures var (g', f) := NewFrame(g, name, escapes);
            var e := Expr(Formals(f)[i], framePtr);
            if FormalInFrame(escapes[i], i) then e == Ir.Mem(Ir.Binop(Ir.Plus, Ir.Const(WordSize * i), framePtr))
            else e.Tmp? && g.temps <= e.temp.num < g'.temps
  {
  }

  /**
   * The expression of a new local: the word at `4 * (-2 - local_count)`
   * from the frame pointer, after the count is bumped, when it escapes;
   * otherwise the temporary numbered by the counter.
   */
  lemma LocalExpr(f: Frame, g: Temp.Gen, escape: bool, framePtr: Ir.Expr)
    requires Temp.Valid(g)
    ensures var (f', g', a) := AllocLocal(f, g, escape);
            Expr(a, framePtr) ==
              if escape then Ir.Mem(Ir.Binop(Ir.Plus, Ir.Const(WordSize * (-2 - f'.localCount)), framePtr))
              else Ir.Tmp(Temp.Temp(g.temps))
  {
  }

  /**
   * `fr_name` and `fr_formals` read back what `frame` stored, and
   * `fr_alloc_local` changes neither.
   */
  lemma FrameAccessors(g: Temp.Gen, name: Temp.Label, escapes: seq<bool>, g1: Temp.Gen, escape: bool)
    requires Temp.Valid(g) && Temp.Valid(g1)
    ensures var f := NewFrame(g, name, escapes).1;
            && Name(f) == name && |Formals(f)| == |escapes|
            && (forall i :: 0 <= i < |escapes| ==> (Formals(f)[i].InFrame? <==> FormalInFrame(escapes[i], i)))
            && Name(AllocLocal(f, g1, escape).0) == name
            && Formals(AllocLocal(f, g1, escape).0) == Formals(f)
  {
  }

  /** `fr_frag_t`: a string literal, or a procedure body with its frame. */
  datatype Frag = StringFrag(mark: Temp.Label, text: string) | ProcFrag(body: Ir.Stmt, frame: Frame)

  /** The two fragment lists `_string_frags` and `_proc_frags`. */
  datatype Frags = Frags(strings: seq<Frag>, procs: seq<Frag>)

  /**
   * `fr_add_frag`: appends a string fragment to the string list and a
   * procedure fragment to the procedure list; the other list is untouched.
   */
  function AddFrag(fs: Frags, f: Frag): (r: Frags)
    ensures f.StringFrag? ==> r.strings == fs.strings + [f] && r.procs == fs.procs
    ensures f.ProcFrag? ==> r.procs == fs.procs + [f] && r.strings == fs.strings
  {
    match f
    case StringFrag(_, _) => fs.(strings := fs.strings + [f])
    case ProcFrag(_, _) => fs.(procs := fs.procs + [f])
  }

  /** Adds fragments in call order. */
  function AddFrags(fs: Frags, added: seq<Frag>): Frags
    decreases |added|
  {
    if added == [] then fs else AddFrags(AddFrag(fs, added[0]), added[1..])
  }

  function StringsOf(fs: seq<Frag>): seq<Frag>
  {
    if fs == [] then [] else (if fs[0].StringFrag? then [fs[0]] else []) + StringsOf(fs[1..])
  }

  function ProcsOf(fs: seq<Frag>): seq<Frag>
  {
    if fs == [] then [] else (if fs[0].ProcFrag? then [fs[0]] else []) + ProcsOf(fs[1..])
  }

  /**
   * After any series of `fr_add_frag` calls, each list holds exactly the
   * fragments of its kind, in call order.
   */
  lemma {:induction false} AddFragsSplits(fs: Frags, added: seq<Frag>)
    ensures AddFrags(fs, added) == Frags(fs.strings + StringsOf(added), fs.procs + ProcsOf(added))
    decreases |added|
  {
    if added != [] {
      var f, rest := added[0], added[1..];
      var fs1 := AddFrag(fs, f);
      AddFragsSplits(fs1, rest);
      assert StringsOf(added) == (if f.StringFrag? then [f] else []) + StringsOf(rest);
      assert ProcsOf(added) == (if f.ProcFrag? then [f] else []) + ProcsOf(rest);
      assert fs1.strings == fs.strings + (if f.StringFrag? then [f] else []);
      assert fs1.procs == fs.procs + (if f.ProcFrag? then [f] else []);
    }
  }

  /** The lazily created frame-pointer and return-value temporaries. */
  datatype Regs = Regs(fp: Option<Temp.Temp>, rv: Option<Temp.Temp>)

  /** `fr_fp`: the temporary made on the first call, returned unchanged ever after. */
  function Fp(g: Temp.Gen, regs: Regs): (r: (Temp.Gen, Regs, Temp.Temp))
    requires Temp.Valid(g)
    ensures Temp.Valid(r.0) && r.1.fp == Some(r.2) && r.1.rv == regs.rv
    ensures regs.fp.Some? ==> r == (g, regs, regs.fp.value)
    ensures regs.fp.None? ==> r.2.num == g.temps && r.0.temps == g.temps + 1
  {
    match regs.fp
    case Some(t) => (g, regs, t)
    case None => var (g1, t) := Temp.NewTemp(g); (g1, regs.(fp := Some(t)), t)
  }

  /** `fr_rv`: like `fr_fp`, for the return-value register. */
  function Rv(g: Temp.Gen, regs: Regs): (r: (Temp.Gen, Regs, Temp.Temp))
    requires Temp.Valid(g)
    ensures Temp.Valid(r.0) && r.1.rv == Some(r.2) && r.1.fp == regs.fp
    ensures regs.rv.Some? ==> r == (g, regs, regs.rv.value)
    ensures regs.rv.None? ==> r.2.num == g.temps && r.0.temps == g.temps + 1
  {
    match regs.rv
    case Some(t) => (g, regs, t)
    case None => var (g1, t) := Temp.NewTemp(g); (g1, regs.(rv := Some(t)), t)
  }

  /** Repeated `fr_fp` calls return the same temporary and change nothing. */
  lemma FpStable(g: Temp.Gen, regs: Regs)
    requires Temp.Valid(g)
    ensures var (g1, regs1, t) := Fp(g, regs); Fp(g1, regs1) == (g1, regs1, t)
  {
  }
}

=== FILE: ir.dfy ===
/**
 * The intermediate representation of ir.h / ir.c: expression and statement
 * trees. The constructors of ir.c are the datatype constructors.
 */
module Ir {
  import Temp

  datatype BinOp = Plus | Minus | Mul | Div | And | Or | Xor | LShift | RShift | ARShift

  datatype RelOp = Eq | Ne | Lt | Le | Gt | Ge | Ult | Ule | Ugt | Uge

  datatype Stmt =
    | SeqStmt(stmts: seq<Stmt>)
    | LabelStmt(mark: Temp.Label)
    | Jump(dest: Expr, labels: seq<Temp.Label>)
    | CJump(op: RelOp, left: Expr, right: Expr, t: Temp.Label, f: Temp.Label)
    | Move(dst: Expr, src: Expr)
    | ExprStmt(expr: Expr)

  datatype Expr =
    | Binop(op: BinOp, left: Expr, right: Expr)
    | Mem(addr: Expr)
    | Tmp(temp: Temp.Temp)
    | ESeq(stmt: Stmt, expr: Expr)
    | Name(target: Temp.Label)
    | Const(value: int)
    | Call(func: Expr, args: seq<Expr>)
}

=== FILE: semantic.dfy ===
/**
 * semantic.c: the checker's traversal. The globals `_venv` and `_tenv`, the
 * type store, the translation state (levels and generator) and the list of
 * reported errors form one state `Sem` that every `trans_*` function takes
 * and returns. Each function applies the node rule of module SemanticRules
 * to the results of its parts, translated in the source's order.
 *
 * The `escape` flags of the tree are the set `esc` of flagged declaration
 * ids. Scopes are the stubs of symbol.c, so the environments only grow.
 */
module Semantic {
  import opened Wrappers
  import Table
  import Types
  import Temp
  import Translate
  import Env
  import opened Ast
  import opened SemanticRules

  datatype Sem = Sem(store: Types.Store, venv: Chain<Env.Entry>, tenv: Chain<TypeId>,
                     tr: Translate.TrState, errors: seq<Diag>)

  /** The state can translate at level `lvl`. */
  ghost predicate Ok(s: Sem, lvl: Translate.LevelId)
  {
    Translate.Valid(s.tr) && lvl < |s.tr.levels|
  }

  /** What every step keeps: a valid translation state and every level made so far. */
  ghost predicate Keeps(s: Sem, r: Sem)
  {
    Translate.Valid(r.tr) && |s.tr.levels| <= |r.tr.levels|
  }

  /** `em_error` for each diagnostic, in order. */
  function Report(s: Sem, ds: seq<Diag>): Sem
  {
    s.(errors := s.errors + ds)
  }

  /** `sym_enter(_venv, name, entry)`. */
  function EnterVar(s: Sem, name: Sym, e: Env.Entry): Sem
  {
    s.(venv := [Table.Binder(name, e)] + s.venv)
  }

  /** `trans_expr`. */
  function TransExpr(s: Sem, lvl: Translate.LevelId, esc: set<DeclId>, e: Expr): (r: (Sem, ExprTy))
    requires Ok(s, lvl)
    ensures Keeps(s, r.0)
    decreases e, 1
  {
    match e
    case NilExpr(_) => (s, ExprTy(Translate.TrNum(0), Types.NilId))
    case VarExpr(_, v) => TransVar(s, lvl, esc, v)
    case NumExpr(_, n) => (s, ExprTy(Translate.TrNum(n), Types.IntId))
    case StringExpr(_, str) => (s, ExprTy(Translate.TrString(str), Types.StringId))
    case CallExpr(_, _, _) => TransCall(s, lvl, esc, e)
    case OpExpr(_, _, _, _) => TransOp(s, lvl, esc, e)
    case RecordExpr(_, _, _) => TransRecord(s, lvl, esc, e)
    case ArrayExpr(_, _, _, _) => TransArray(s, lvl, esc, e)
    case SeqExpr(_, es) =>
      var (s1, ets) := TransExprList(s, lvl, esc, es);
      if ets == [] then (s1, ExprTy(Translate.TrNum(0), Types.VoidId))
      else (s1, ExprTy(Translate.TrSeq(Exprs(ets)), ets[|ets| - 1].ty))
    case IfExpr(_, _, _, _) => TransIf(s, lvl, esc, e)
    case WhileExpr(_, _, _) => TransWhile(s, lvl, esc, e)
    case ForExpr(_, _, _, _, _, _) => TransFor(s, lvl, esc, e)
    case BreakExpr(_) => (s, ExprTy(Translate.TrNone, Types.VoidId))
    case LetExpr(_, _, _) => TransLet(s, lvl, esc, e)
    case AssignExpr(_, _, _) => TransAssign(s, lvl, esc, e)
  }

  /*
   * One step of `TransExpr` per kind of expression: the case function it
   * dispatches to. Kept apart so that no proof about a case has to unfold
   * the whole dispatch.
   */
  lemma StepCall(s: Sem, lvl: Translate.LevelId, esc: set<DeclId>, e: Expr)
    requires Ok(s, lvl) && e.CallExpr?
    ensures TransExpr(s, lvl, esc, e) == TransCall(s, lvl, esc, e)
  {
  }

  lemma StepOp(s: Sem, lvl: Translate.LevelId, esc: set<DeclId>, e: Expr)
    requires Ok(s, lvl) && e.OpExpr?
    ensures TransExpr(s, lvl, esc, e) == TransOp(s, lvl, esc, e)
  {
  }

  lemma StepRecord(s: Sem, lvl: Translate.LevelId, esc: set<DeclId>, e: Expr)
    requires Ok(s, lvl) && e.RecordExpr?
    ensures TransExpr(s, lvl, esc, e) == TransRecord(s, lvl, esc, e)
  {
  }

  lemma StepArray(s: Sem, lvl: Translate.LevelId, esc: set<DeclId>, e: Expr)
    requires Ok(s, lvl) && e.ArrayExpr?
    ensures TransExpr(s, lvl, esc, e) == TransArray(s, lvl, esc, e)
  {
  }

  lemma StepIf(s: Sem, lvl: Translate.LevelId, esc: set<DeclId>, e: Expr)
    requires Ok(s, lvl) && e.IfExpr?
    ensures TransExpr(s, lvl, esc, e) == TransIf(s, lvl, esc, e)
  {
  }

  lemma StepWhile(s: Sem, lvl: Translate.LevelId, esc: set<DeclId>, e: Expr)
    requires Ok(s, lvl) && e.WhileExpr?
    ensures TransExpr(s, lvl, esc, e) == TransWhile(s, lvl, esc, e)
  {
  }

  lemma StepFor(s: Sem, lvl: Translate.LevelId, esc: set<DeclId>, e: Expr)
    requires Ok(s, lvl) && e.ForExpr?
    ensures TransExpr(s, lvl, esc, e) == TransFor(s, lvl, esc, e)
  {
  }

  lemma StepLet(s: Sem, lvl: Translate.LevelId, esc: set<DeclId>, e: Expr)
    requires Ok(s, lvl) && e.LetExpr?
    ensures TransExpr(s, lvl, esc, e) == TransLet(s, lvl, esc, e)
  {
  }

  lemma StepAssign(s: Sem, lvl: Translate.LevelId, esc: set<DeclId>, e: Expr)
    requires Ok(s, lvl) && e.AssignExpr?
    ensures TransExpr(s, lvl, esc, e) == TransAssign(s, lvl, esc, e)
  {
  }

  /** The terms of a list of translated expressions. */
  function Exprs(ets: seq<ExprTy>): (r: seq<Translate.TrExpr>)
    ensures |r| == |ets| && forall k :: 0 <= k < |ets| ==> r[k] == ets[k].expr
  {
    seq(|ets|, k requires 0 <= k < |ets| => ets[k].expr)
  }

  /** The loop of `trans_seq_expr`: each expression in order. */
  function TransExprList(s: Sem, lvl: Translate.LevelId, esc: set<DeclId>, es: seq<Expr>): (r: (Sem, seq<ExprTy>))
    requires Ok(s, lvl)
    ensures Keeps(s, r.0) && |r.1| == |es|
    decreases es, 1
  {
    if es == [] then (s, [])
    else
      var (s1, et) := TransExpr(s, lvl, esc, es[0]);
      var (s2, ets) := TransExprList(s1, lvl, esc, es[1..]);
      (s2, [et] + ets)
  }

  /**
   * `trans_call_expr`: the callee must be a function. Only the arguments
   * paired with a formal are translated and checked; then the counts.
   */
  function TransCall(s: Sem, lvl: Translate.LevelId, esc: set<DeclId>, e: Expr): (r: (Sem, ExprTy))
    requires Ok(s, lvl) && e.CallExpr?
    ensures Keeps(s, r.0)
    decreases e, 0
  {
    var found: Option<Env.Entry> := Table.Find(s.venv, e.func);
    match found
    case None => (Report(s, [Diag(e.pos, UndefinedFunction(e.func))]), ExprTy(Translate.TrNone, Types.IntId))
    case Some(VarEntry(_, _, _)) => (Report(s, [Diag(e.pos, NotAFunction(e.func))]), ExprTy(Translate.TrNone, Types.IntId))
    case Some(FuncEntry(flvl, mark, formals, result)) =>
      var (s1, args) := TransArgs(s, lvl, esc, e.pos, e.func, formals, e.args, 1);
      var s2 := Report(s1, ArityDiags(e.pos, |formals|, |e.args|));
      (s2, ExprTy(Translate.TrCall(flvl, mark, args), Types.Actual(s2.store, result)))
  }

  /** The pairwise loop of `trans_call_expr`; `i` is the 1-based argument index. */
  function TransArgs(s: Sem, lvl: Translate.LevelId, esc: set<DeclId>, pos: Pos, func: Sym,
                     formals: seq<TypeId>, args: seq<Expr>, i: nat): (r: (Sem, seq<Translate.TrExpr>))
    requires Ok(s, lvl)
    ensures Keeps(s, r.0)
    ensures |r.1| == if |formals| < |args| then |formals| else |args|
    decreases args, 1
  {
    if formals == [] || args == [] then (s, [])
    else
      var (s1, et) := TransExpr(s, lvl, esc, args[0]);
      var s2 := Report(s1, MatchDiag(s1.store, formals[0], et.ty, pos, WrongArgType(i, func)));
      var (s3, rest) := TransArgs(s2, lvl, esc, pos, func, formals[1..], args[1..], i + 1);
      (s3, [et.expr] + rest)
  }

  /** `trans_op_expr`: both operands, left first, then the operator's rule. */
  function TransOp(s: Sem, lvl: Translate.LevelId, esc: set<DeclId>, e: Expr): (r: (Sem, ExprTy))
    requires Ok(s, lvl) && e.OpExpr?
    ensures Keeps(s, r.0)
    decreases e, 0
  {
    var (s1, l) := TransExpr(s, lvl, esc, e.left);
    var (s2, rt) := TransExpr(s1, lvl, esc, e.right);
    var (ds, et) := OpRule(s2.store, e.op, e.pos, e.left.pos, l, e.right.pos, rt);
    (Report(s2, ds), et)
  }

  /**
   * `trans_record_expr`: an undefined type gives nil and nothing else is
   * translated. Otherwise the field initializers are checked by position
   * against the type's fields, then the counts.
   */
  function TransRecord(s: Sem, lvl: Translate.LevelId, esc: set<DeclId>, e: Expr): (r: (Sem, ExprTy))
    requires Ok(s, lvl) && e.RecordExpr?
    ensures Keeps(s, r.0)
    decreases e, 0
  {
    var (t, ds) := LookupType(s.store, s.tenv, e.ty, e.pos);
    var s1 := Report(s, ds);
    if t.None? then (s1, ExprTy(Translate.TrNone, Types.NilId))
    else
      var s2 := Report(s1, KindDiag(s1.store, t.value, Types.Record, e.pos, NotRecordType(e.ty)));
      var fields := RecordFields(s2.store, t.value);
      var (s3, exprs) := TransEFields(s2, lvl, esc, fields, e.efields);
      var s4 := Report(s3, if |fields| != |e.efields| then [Diag(e.pos, WrongFieldNumber)] else []);
      (s4, ExprTy(Translate.TrRecord(exprs, |exprs|), t.value))
  }

  /** The pairwise loop of `trans_record_expr`: each initializer against its field. */
  function TransEFields(s: Sem, lvl: Translate.LevelId, esc: set<DeclId>, fields: seq<Types.Field>, efs: seq<EField>)
    : (r: (Sem, seq<Translate.TrExpr>))
    requires Ok(s, lvl)
    ensures Keeps(s, r.0)
    ensures |r.1| == if |fields| < |efs| then |fields| else |efs|
    decreases efs, 1
  {
    if fields == [] || efs == [] then (s, [])
    else
      assert efs[0].expr < efs[0];
      var (s1, et) := TransExpr(s, lvl, esc, efs[0].expr);
      var s2 := Report(s1, MatchDiag(s1.store, fields[0].ty, et.ty, efs[0].pos, WrongFieldType));
      var (s3, rest) := TransEFields(s2, lvl, esc, fields[1..], efs[1..]);
      (s3, [et.expr] + rest)
  }

  /**
   * `trans_array_expr`: the type is looked up first, then the size and the
   * initializer are translated; an undefined type gives int.
   */
  function TransArray(s: Sem, lvl: Translate.LevelId, esc: set<DeclId>, e: Expr): (r: (Sem, ExprTy))
    requires Ok(s, lvl) && e.ArrayExpr?
    ensures Keeps(s, r.0)
    decreases e, 0
  {
    var (t, ds) := LookupType(s.store, s.tenv, e.ty, e.pos);
    var s1 := Report(s, ds);
    var (s2, size) := TransExpr(s1, lvl, esc, e.size);
    var (s3, init) := TransExpr(s2, lvl, esc, e.init);
    if t.None? then (s3, ExprTy(Translate.TrNone, Types.IntId))
    else
      var (ds2, et) := ArrayRule(s3.store, e.pos, e.ty, t.value, size, init);
      (Report(s3, ds2), et)
  }

  /** `trans_if_expr`: condition and then arm, the condition check, then the else arm. */
  function TransIf(s: Sem, lvl: Translate.LevelId, esc: set<DeclId>, e: Expr): (r: (Sem, ExprTy))
    requires Ok(s, lvl) && e.IfExpr?
    ensures Keeps(s, r.0)
    decreases e, 0
  {
    var (s1, c) := TransExpr(s, lvl, esc, e.cond);
    var (s2, th) := TransExpr(s1, lvl, esc, e.thn);
    var s3 := Report(s2, KindDiag(s2.store, c.ty, Types.Int, e.pos, CondNotInt));
    match e.els
    case SomeExpr(x) =>
      assert x < e.els;
      var (s4, el) := TransExpr(s3, lvl, esc, x);
      var (ds, et) := IfArmsRule(s4.store, e.pos, c, th, Some(el));
      (Report(s4, ds), et)
    case NoExpr =>
      var (ds, et) := IfArmsRule(s3.store, e.pos, c, th, None);
      (Report(s3, ds), et)
  }

  /** `trans_while_expr`. */
  function TransWhile(s: Sem, lvl: Translate.LevelId, esc: set<DeclId>, e: Expr): (r: (Sem, ExprTy))
    requires Ok(s, lvl) && e.WhileExpr?
    ensures Keeps(s, r.0)
    decreases e, 0
  {
    var (s1, c) := TransExpr(s, lvl, esc, e.cond);
    var (s2, b) := TransExpr(s1, lvl, esc, e.body);
    var (ds, et) := WhileRule(s2.store, e.pos, c, b);
    (Report(s2, ds), et)
  }

  /** `trans_for_expr`: the bounds, then the rest in `TransForBody`. */
  function TransFor(s: Sem, lvl: Translate.LevelId, esc: set<DeclId>, e: Expr): (r: (Sem, ExprTy))
    requires Ok(s, lvl) && e.ForExpr?
    ensures Keeps(s, r.0)
    decreases e, 0
  {
    var (s1, lo) := TransExpr(s, lvl, esc, e.lo);
    var (s2, hi) := TransExpr(s1, lvl, esc, e.hi);
    TransForBody(s2, lvl, esc, e, lo, hi)
  }

  /**
   * The rest of `trans_for_expr`, after the bounds `lo` and `hi`: one local
   * with the index's escape flag, the bound checks, the index bound as a
   * `for` variable of type int, and the body, which must be void.
   */
  function TransForBody(s: Sem, lvl: Translate.LevelId, esc: set<DeclId>, e: Expr, lo: ExprTy, hi: ExprTy): (r: (Sem, ExprTy))
    requires Ok(s, lvl) && e.ForExpr?
    ensures Keeps(s, r.0)
    decreases e.body, 2
  {
    var (tr1, acc) := Translate.AllocLocal(s.tr, lvl, e.esc in esc);
    var s1 := s.(tr := tr1);
    var s2 := Report(s1, ForBoundsDiags(s1.store, e.pos, lo, hi));
    var s3 := EnterVar(s2, e.index, Env.VarEntry(acc, Types.IntId, true));
    var (s4, b) := TransExpr(s3, lvl, esc, e.body);
    var s5 := Report(s4, KindDiag(s4.store, b.ty, Types.Void, e.pos, ForValue));
    (s5, ExprTy(Translate.TrFor(acc, lo.expr, hi.expr, b.expr), Types.VoidId))
  }

  /**
   * `trans_let_expr`: the declarations in order, then the body; the terms
   * of the declarations that produced one, followed by the body's term,
   * form a sequence of the body's type.
   */
  function TransLet(s: Sem, lvl: Translate.LevelId, esc: set<DeclId>, e: Expr): (r: (Sem, ExprTy))
    requires Ok(s, lvl) && e.LetExpr?
    ensures Keeps(s, r.0)
    decreases e, 0
  {
    var (s1, xs) := TransDecls(s, lvl, esc, e.decls);
    var (s2, b) := TransExpr(s1, lvl, esc, e.body);
    (s2, ExprTy(Translate.TrSeq(xs + [b.expr]), b.ty))
  }

  /** `trans_assign_expr`: the target, the value, then the assignment rule. */
  function TransAssign(s: Sem, lvl: Translate.LevelId, esc: set<DeclId>, e: Expr): (r: (Sem, ExprTy))
    requires Ok(s, lvl) && e.AssignExpr?
    ensures Keeps(s, r.0)
    decreases e, 0
  {
    var (s1, v) := TransVar(s, lvl, esc, e.target);
    var (s2, x) := TransExpr(s1, lvl, esc, e.expr);
    var (ds, et) := AssignRule(s2.store, s2.venv, e.pos, e.target, v, x);
    (Report(s2, ds), et)
  }

  /** `trans_var`. */
  function TransVar(s: Sem, lvl: Translate.LevelId, esc: set<DeclId>, v: Var): (r: (Sem, ExprTy))
    requires Ok(s, lvl)
    ensures Keeps(s, r.0)
    decreases v, 1
  {
    match v
    case SimpleVar(pos, name) =>
      var (ds, et) := SimpleVarRule(s.store, lvl, pos, name, Table.Find(s.venv, name));
      (Report(s, ds), et)
    case FieldVar(pos, base, field) =>
      var (s1, b) := TransVar(s, lvl, esc, base);
      var (ds, et) := FieldVarRule(s1.store, pos, b, field);
      (Report(s1, ds), et)
    case SubVar(pos, base, sub) =>
      var (s1, b) := TransVar(s, lvl, esc, base);
      var (s2, x) := TransExpr(s1, lvl, esc, sub);
      var (ds, et) := SubVarRule(s2.store, pos, b, x);
      (Report(s2, ds), et)
  }

  /** The declaration loop of `trans_let_expr`: only non-NULL terms are kept. */
  function TransDecls(s: Sem, lvl: Translate.LevelId, esc: set<DeclId>, ds: seq<Decl>): (r: (Sem, seq<Translate.TrExpr>))
    requires Ok(s, lvl)
    ensures Keeps(s, r.0)
    decreases ds, 1
  {
    if ds == [] then (s, [])
    else
      var (s1, x) := TransDecl(s, lvl, esc, ds[0]);
      var (s2, xs) := TransDecls(s1, lvl, esc, ds[1..]);
      (s2, (if x == Translate.TrNone then [] else [x]) + xs)
  }

  /** `trans_decl`. */
  function TransDecl(s: Sem, lvl: Translate.LevelId, esc: set<DeclId>, d: Decl): (r: (Sem, Translate.TrExpr))
    requires Ok(s, lvl)
    ensures Keeps(s, r.0)
    decreases d, 1
  {
    match d
    case FuncsDecl(_, _) => TransFuncsDecl(s, lvl, esc, d)
    case TypesDecl(_, _) => (TransTypesDecl(s, d), Translate.TrNone)
    case VarDecl(_, _, _, _, _) => TransVarDecl(s, lvl, esc, d)
  }

  /**
   * `trans_var_decl`: the initializer, then one local with the
   * declaration's escape flag, then the annotation and the checks; the
   * variable is entered at the type `VarDeclRule` chooses.
   */
  function TransVarDecl(s: Sem, lvl: Translate.LevelId, esc: set<DeclId>, d: Decl): (r: (Sem, Translate.TrExpr))
    requires Ok(s, lvl) && d.VarDecl?
    ensures Keeps(s, r.0)
    decreases d, 0
  {
    var (s1, init) := TransExpr(s, lvl, esc, d.init);
    var (tr2, acc) := Translate.AllocLocal(s1.tr, lvl, d.esc in esc);
    var s2 := s1.(tr := tr2);
    var (s3, declared) :=
      if d.ty.Some? then
        var (t, ds) := LookupOrInt(s2.store, s2.tenv, d.ty.value, d.pos);
        (Report(s2, ds), Some(t))
      else (s2, None);
    var (ds2, bound) := VarDeclRule(s3.store, d.pos, declared, init.ty);
    var s4 := Report(s3, ds2);
    (EnterVar(s4, d.name, Env.VarEntry(acc, bound, false)), Translate.TrAssign(Translate.TrSimpleVar(acc, lvl), init.expr))
  }

  /** The batch members of a function batch, for the redefinition check. */
  function FuncNames(fs: seq<FuncDec>): (r: seq<Named>)
    ensures |r| == |fs| && forall k :: 0 <= k < |fs| ==> r[k] == Named(fs[k].name, fs[k].pos)
  {
    seq(|fs|, k requires 0 <= k < |fs| => Named(fs[k].name, fs[k].pos))
  }

  /** The batch members of a type batch: all reported at the batch's position. */
  function TypeNames(nts: seq<NameType>, pos: Pos): (r: seq<Named>)
    ensures |r| == |nts| && forall k :: 0 <= k < |nts| ==> r[k] == Named(nts[k].name, pos)
  {
    seq(|nts|, k requires 0 <= k < |nts| => Named(nts[k].name, pos))
  }

  /** `formal_escape_list`: each parameter's escape flag, in order. */
  function EscapeFlags(ps: seq<Param>, esc: set<DeclId>): (r: seq<bool>)
    ensures |r| == |ps| && forall k :: 0 <= k < |ps| ==> (r[k] <==> ps[k].esc in esc)
  {
    seq(|ps|, k requires 0 <= k < |ps| => ps[k].esc in esc)
  }

  /**
   * One prototype of `trans_funcs_decl`: the formal types (errors at the
   * batch's position), a fresh label, the result type (void without an
   * annotation, int for an unbound one) and a new level whose parent is the
   * current level, entered as a function entry.
   */
  function EnterPrototype(s: Sem, lvl: Translate.LevelId, esc: set<DeclId>, pos: Pos, f: FuncDec): (r: (Sem, Env.Entry))
    requires Ok(s, lvl)
    ensures Keeps(s, r.0) && |r.0.tr.levels| == |s.tr.levels| + 1 && r.0.tr.levels[..|s.tr.levels|] == s.tr.levels
    ensures r.0.venv == [Table.Binder(f.name, r.1)] + s.venv && r.0.tenv == s.tenv && r.0.store == s.store
    ensures r.1.FuncEntry? && r.1.level == |s.tr.levels| && |r.1.formals| == |f.params|
    ensures r.0.tr.levels[r.1.level].parent == Some(lvl) && r.0.tr.levels[r.1.level].frame.name == r.1.mark
    ensures |r.0.tr.levels[r.1.level].formals| == |f.params| + 1
    ensures f.result.None? ==> r.1.result == Types.VoidId
  {
    var (formals, ds) := FormalTypes(s.store, s.tenv, f.params, pos);
    var s1 := Report(s, ds);
    var escapes := EscapeFlags(f.params, esc);
    var (g, mark) := Temp.NewLabel(s1.tr.gen);
    var s2 := s1.(tr := s1.tr.(gen := g));
    var (s3, result) :=
      if f.result.Some? then
        var (t, ds2) := LookupOrInt(s2.store, s2.tenv, f.result.value, pos);
        (Report(s2, ds2), t)
      else (s2, Types.VoidId);
    var (tr4, flvl) := Translate.NewLevel(s3.tr, Some(lvl), mark, escapes);
    var entry := Env.FuncEntry(flvl, mark, formals, result);
    (EnterVar(s3.(tr := tr4), f.name, entry), entry)
  }

  /** The prototype loop of `trans_funcs_decl`: one entry per function, in order. */
  function EnterPrototypes(s: Sem, lvl: Translate.LevelId, esc: set<DeclId>, pos: Pos, fs: seq<FuncDec>)
    : (r: (Sem, seq<Env.Entry>))
    requires Ok(s, lvl)
    ensures Keeps(s, r.0) && |r.1| == |fs|
    decreases |fs|
  {
    if fs == [] then (s, [])
    else
      var (s1, entry) := EnterPrototype(s, lvl, esc, pos, fs[0]);
      var (s2, entries) := EnterPrototypes(s1, lvl, esc, pos, fs[1..]);
      (s2, [entry] + entries)
  }

  /**
   * The parameter loop of `trans_funcs_decl`: parameter k is bound to a
   * variable entry with formal type k and level formal k+1 (the static link
   * is skipped), walking the three lists together.
   */
  function BindParams(venv: Chain<Env.Entry>, ps: seq<Param>, tys: seq<TypeId>, accs: seq<Translate.TrAccess>)
    : (r: Chain<Env.Entry>)
    decreases |ps|
  {
    if ps == [] || tys == [] || accs == [] then venv
    else BindParams([Table.Binder(ps[0].name, Env.VarEntry(accs[0], tys[0], false))] + venv, ps[1..], tys[1..], accs[1..])
  }

  /**
   * The body loop of `trans_funcs_decl`, corrected: each body is checked
   * against the prototype entered for its own function (`protos`), at that
   * prototype's level, and must match its result type. The prototypes are
   * the function entries `EnterPrototypes` made, one per function, at levels
   * that exist (`PrototypesLive`); the guard only keeps this function total.
   */
  function TransBodies(s: Sem, esc: set<DeclId>, fs: seq<FuncDec>, protos: seq<Env.Entry>): (r: Sem)
    requires Translate.Valid(s.tr)
    ensures Keeps(s, r)
    decreases fs, 1
  {
    if fs == [] || protos == [] then s
    else
      var p := protos[0];
      var s3 := if p.FuncEntry? && p.level < |s.tr.levels| then BodyStep(s, esc, fs[0], p) else s;
      TransBodies(s3, esc, fs[1..], protos[1..])
  }

  /**
   * One body of `trans_funcs_decl`: the parameters bound to the prototype's
   * formal types and accesses, the body checked at the prototype's level,
   * and its type matched against the prototype's result.
   */
  function BodyStep(s: Sem, esc: set<DeclId>, f: FuncDec, p: Env.Entry): (r: Sem)
    requires Translate.Valid(s.tr) && p.FuncEntry? && p.level < |s.tr.levels|
    ensures Keeps(s, r)
    decreases f, 2
  {
    assert f.body < f;
    var s1 := s.(venv := BindParams(s.venv, f.params, p.formals, Translate.Formals(s.tr, p.level)[1..]));
    var (s2, b) := TransExpr(s1, p.level, esc, f.body);
    Report(s2, MatchDiag(s2.store, b.ty, p.result, f.pos, FuncBodyType))
  }

  /**
   * `trans_funcs_decl`: the redefinition check, every prototype, then every
   * body. The batch yields no term (its fragment is not modelled).
   */
  function TransFuncsDecl(s: Sem, lvl: Translate.LevelId, esc: set<DeclId>, d: Decl): (r: (Sem, Translate.TrExpr))
    requires Ok(s, lvl) && d.FuncsDecl?
    ensures Keeps(s, r.0) && r.1 == Translate.TrNone
    decreases d, 0
  {
    var s1 := Report(s, RedefinitionDiags(FuncNames(d.funcs), false));
    var (s2, protos) := EnterPrototypes(s1, lvl, esc, d.pos, d.funcs);
    (TransBodies(s2, esc, d.funcs, protos), Translate.TrNone)
  }

  /** A type annotation looked up without resolving it, or int with an error at `pos`. */
  function RawLookup(tenv: Chain<TypeId>, name: Sym, pos: Pos): (r: (TypeId, seq<Diag>))
    ensures Table.Find(tenv, name).Some? ==> r == (Table.Find(tenv, name).value, [])
    ensures Table.Find(tenv, name).None? ==> r == (Types.IntId, [Diag(pos, UndefinedType(name))])
  {
    match Table.Find(tenv, name)
    case Some(t) => (t, [])
    case None => (Types.IntId, [Diag(pos, UndefinedType(name))])
  }

  /** The field loop of `trans_record_type`: unresolved field types, errors at `pos`. */
  function FieldTypes(tenv: Chain<TypeId>, ps: seq<Param>, pos: Pos): (r: (seq<Types.Field>, seq<Diag>))
    ensures |r.0| == |ps|
    ensures forall k :: 0 <= k < |ps| ==> r.0[k].name == ps[k].name && r.0[k].ty == RawLookup(tenv, ps[k].ty, pos).0
    decreases |ps|
  {
    if ps == [] then ([], [])
    else
      var (t, ds) := RawLookup(tenv, ps[0].ty, pos);
      var (fs, dss) := FieldTypes(tenv, ps[1..], pos);
      ([Types.Field(ps[0].name, t)] + fs, ds + dss)
  }

  /**
   * `trans_type`: a name is looked up without resolving it; a record or an
   * array type is a new type in the store.
   */
  function TransTy(store: Types.Store, tenv: Chain<TypeId>, t: Ast.Ty): (r: (Types.Store, TypeId, seq<Diag>))
    ensures |store| <= |r.0|
    ensures t.NameTy? ==> r.0 == store && (r.1, r.2) == RawLookup(tenv, t.name, t.pos)
    ensures t.RecordTy? ==> r.1 == |store| && Types.KindOf(r.0, r.1) == Types.Record
    ensures t.ArrayTy? ==> (r.1 == |store| && Types.KindOf(r.0, r.1) == Types.Array
              && r.0[r.1].elem == RawLookup(tenv, t.elem, t.pos).0)
  {
    match t
    case NameTy(pos, n) =>
      var (u, ds) := RawLookup(tenv, n, pos);
      (store, u, ds)
    case RecordTy(pos, ps) =>
      var (fields, ds) := FieldTypes(tenv, ps, pos);
      var (store', id) := Types.NewRecord(store, fields);
      (store', id, ds)
    case ArrayTy(pos, n) =>
      var (u, ds) := RawLookup(tenv, n, pos);
      var (store', id) := Types.NewArray(store, u);
      (store', id, ds)
  }

  /** The placeholder loop of `trans_types_decl`: a fresh unlinked Name per member. */
  function EnterPlaceholders(s: Sem, nts: seq<NameType>): (r: Sem)
    ensures r.tr == s.tr && r.venv == s.venv && r.errors == s.errors
    ensures |r.store| == |s.store| + |nts| && r.store[..|s.store|] == s.store
    decreases |nts|
  {
    if nts == [] then s
    else
      var (store', id) := Types.NewName(s.store, nts[0].name, None);
      var s1 := s.(store := store', tenv := [Table.Binder(nts[0].name, id)] + s.tenv);
      var r := EnterPlaceholders(s1, nts[1..]);
      assert r.store[..|s.store|] == r.store[..|s1.store|][..|s.store|];
      r
  }

  /**
   * The right-hand-side loop of `trans_types_decl`: the member's current
   * binding (its placeholder) is linked to the translated type.
   */
  function LinkTypes(s: Sem, nts: seq<NameType>): (r: Sem)
    ensures r.tr == s.tr && r.venv == s.venv && r.tenv == s.tenv
    decreases |nts|
  {
    if nts == [] then s
    else
      var s1 :=
        match Table.Find(s.tenv, nts[0].name)
        case Some(t) =>
          var (store', u, ds) := TransTy(s.store, s.tenv, nts[0].ty);
          Report(s.(store := Types.SetLink(store', t, u)), ds)
        case None => s;
      LinkTypes(s1, nts[1..])
  }

  /** The cycle loop of `trans_types_decl`: each member whose binding resolves to itself. */
  function CycleDiags(store: Types.Store, tenv: Chain<TypeId>, pos: Pos, nts: seq<NameType>): (r: seq<Diag>)
    ensures forall d :: d in r ==> d.pos == pos && d.msg.InfiniteType?
    ensures r == [] <==> forall k :: 0 <= k < |nts| ==>
              !(Table.Find(tenv, nts[k].name).Some? && Types.Actual(store, Table.Find(tenv, nts[k].name).value) == Table.Find(tenv, nts[k].name).value)
    decreases |nts|
  {
    if nts == [] then []
    else
      var own := Table.Find(tenv, nts[0].name);
      var d := if own.Some? && Types.Actual(store, own.value) == own.value then [Diag(pos, InfiniteType(nts[0].name))] else [];
      var rest := CycleDiags(store, tenv, pos, nts[1..]);
      assert forall k :: 1 <= k < |nts| ==> nts[k] == nts[1..][k - 1];
      d + rest
  }

  /**
   * `trans_types_decl`: the redefinition check, every placeholder, every
   * right-hand side, then the cycle check. The batch yields no term.
   */
  function TransTypesDecl(s: Sem, d: Decl): (r: Sem)
    requires d.TypesDecl?
    ensures r.tr == s.tr && r.venv == s.venv
  {
    var s1 := Report(s, RedefinitionDiags(TypeNames(d.types, d.pos), true));
    var s2 := EnterPlaceholders(s1, d.types);
    var s3 := LinkTypes(s2, d.types);
    Report(s3, CycleDiags(s3.store, s3.tenv, d.pos, d.types))
  }

  /**
   * The state `sem_trans_prog` checks a program in: a fresh type store, no
   * error yet, `int` and `string` the only type names, the four built-in
   * functions the only values, all at the outermost level `out`.
   */
  ghost predicate BaseEnv(s: Sem, out: Translate.LevelId)
  {
    && Ok(s, out) && s.tr.outermost == Some(out) && s.tr.levels[out].parent.None?
    && s.store == Types.InitStore() && s.errors == []
    && (forall k: nat :: Table.Find(s.tenv, k) == Env.BaseType(Env.Names(s.tr), k))
    && Env.BaseBinders(Env.Names(s.tr), s.venv, out)
  }

  /**
   * `sem_trans_prog` without its printing and `exit`: the base environments,
   * then the program at the outermost level. The errors returned are
   * exactly the ones reported while checking the program in that state.
   */
  method TransProg(g: Temp.Gen, esc: set<DeclId>, prog: Expr) returns (errors: seq<Diag>, result: ExprTy, out: Translate.LevelId)
    requires Temp.Valid(g)
    ensures exists s: Sem :: BaseEnv(s, out)
              && TransExpr(s, out, esc, prog) == (TransExpr(s, out, esc, prog).0.(errors := errors), result)
  {
    var s, lvl := BaseState(g);
    var (r, et) := TransExpr(s, lvl, esc, prog);
    errors, result, out := r.errors, et, lvl;
  }

  /** The base environments `sem_trans_prog` builds before checking the program. */
  method BaseState(g: Temp.Gen) returns (s: Sem, out: Translate.LevelId)
    requires Temp.Valid(g)
    ensures BaseEnv(s, out)
  {
    var st0 := Translate.InitState(g);
    var st1, venv := Env.BaseVenv(st0);
    var (st2, tenv) := Env.BaseTenv(st1);
    var (st3, lvl) := Translate.Outermost(st2);
    Env.BaseBindersKept(Env.Names(st1), Env.Names(st2), venv.stack, st1.outermost.value);
    s, out := Sem(Types.InitStore(), venv.stack, tenv.stack, st3, []), lvl;
  }
}

=== FILE: semantic_facts.dfy ===
/**
 * Properties of the checker's traversal (module Semantic) that relate
 * several steps: every step only adds bindings, errors and types
 * (`Grows`), proved over the whole tree by one lemma per `trans_*` function.
 */
module SemanticFacts {
  import opened Wrappers
  import Table
  import Types
  import Translate
  import Env
  import opened Ast
  import opened SemanticRules
  import opened Semantic

  /**
   * What a step does to the environments, the errors and the type store:
   * bindings are only ever added in front (the scopes are stubs), errors
   * are only appended and types only allocated.
   */
  ghost predicate Grows(s: Sem, r: Sem)
  {
    && Table.Extends(r.venv, s.venv)
    && Table.Extends(r.tenv, s.tenv)
    && s.errors <= r.errors
    && |s.store| <= |r.store|
  }

  lemma GrowsRefl(s: Sem)
    ensures Grows(s, s)
  {
  }

  lemma GrowsTrans(a: Sem, b: Sem, c: Sem)
    requires Grows(a, b) && Grows(b, c)
    ensures Grows(a, c)
  {
    Table.ExtendsTrans(a.venv, b.venv, c.venv);
    Table.ExtendsTrans(a.tenv, b.tenv, c.tenv);
  }

  lemma ReportGrows(s: Sem, ds: seq<Diag>)
    ensures Grows(s, Report(s, ds))
  {
  }

  lemma EnterVarGrows(s: Sem, name: Sym, e: Env.Entry)
    ensures Grows(s, EnterVar(s, name, e))
  {
    assert EnterVar(s, name, e).venv[1..] == s.venv;
  }

  lemma {:induction false} BindParamsExtends(venv: Chain<Env.Entry>, ps: seq<Param>, tys: seq<TypeId>, accs: seq<Translate.TrAccess>)
    ensures Table.Extends(BindParams(venv, ps, tys, accs), venv)
    decreases |ps|
  {
    if !(ps == [] || tys == [] || accs == []) {
      var venv' := [Table.Binder(ps[0].name, Env.VarEntry(accs[0], tys[0], false))] + venv;
      assert venv'[1..] == venv;
      BindParamsExtends(venv', ps[1..], tys[1..], accs[1..]);
      Table.ExtendsTrans(venv, venv', BindParams(venv', ps[1..], tys[1..], accs[1..]));
    }
  }

  lemma {:induction false} ExprGrows(s: Sem, lvl: Translate.LevelId, esc: set<DeclId>, e: Expr)
    requires Ok(s, lvl)
    ensures Grows(s, TransExpr(s, lvl, esc, e).0)
    decreases e, 2
  {
    match e
    case NilExpr(_) => GrowsRefl(s);
    case VarExpr(_, v) => VarGrows(s, lvl, esc, v);
    case NumExpr(_, _) => GrowsRefl(s);
    case StringExpr(_, _) => GrowsRefl(s);
    case CallExpr(_, _, _) => CallGrows(s, lvl, esc, e); StepCall(s, lvl, esc, e);
    case OpExpr(_, _, _, _) => OpGrows(s, lvl, esc, e); StepOp(s, lvl, esc, e);
    case RecordExpr(_, _, _) => RecordGrows(s, lvl, esc, e); StepRecord(s, lvl, esc, e);
    case ArrayExpr(_, _, _, _) => ArrayGrows(s, lvl, esc, e); StepArray(s, lvl, esc, e);
    case SeqExpr(_, es) => ExprListGrows(s, lvl, esc, es);
    case IfExpr(_, _, _, _) => IfGrows(s, lvl, esc, e); StepIf(s, lvl, esc, e);
    case WhileExpr(_, _, _) => WhileGrows(s, lvl, esc, e); StepWhile(s, lvl, esc, e);
    case ForExpr(_, _, _, _, _, _) => ForGrows(s, lvl, esc, e); StepFor(s, lvl, esc, e);
    case BreakExpr(_) => GrowsRefl(s);
    case LetExpr(_, _, _) => LetGrows(s, lvl, esc, e); StepLet(s, lvl, esc, e);
    case AssignExpr(_, _, _) => AssignGrows(s, lvl, esc, e); StepAssign(s, lvl, esc, e);
  }

  lemma {:induction false} ExprListGrows(s: Sem, lvl: Translate.LevelId, esc: set<DeclId>, es: seq<Expr>)
    requires Ok(s, lvl)
    ensures Grows(s, TransExprList(s, lvl, esc, es).0)
    decreases es, 1
  {
    if es == [] {
      GrowsRefl(s);
    } else {
      var s1 := TransExpr(s, lvl, esc, es[0]).0;
      ExprGrows(s, lvl, esc, es[0]);
      ExprListGrows(s1, lvl, esc, es[1..]);
      GrowsTrans(s, s1, TransExprList(s1, lvl, esc, es[1..]).0);
    }
  }

  lemma {:induction false} CallGrows(s: Sem, lvl: Translate.LevelId, esc: set<DeclId>, e: Expr)
    requires Ok(s, lvl) && e.CallExpr?
    ensures Grows(s, TransCall(s, lvl, esc, e).0)
    decreases e, 1
  {
    var found: Option<Env.Entry> := Table.Find(s.venv, e.func);
    match found
    case None => ReportGrows(s, [Diag(e.pos, UndefinedFunction(e.func))]);
    case Some(VarEntry(_, _, _)) => ReportGrows(s, [Diag(e.pos, NotAFunction(e.func))]);
    case Some(FuncEntry(_, _, formals, _)) =>
      var s1 := TransArgs(s, lvl, esc, e.pos, e.func, formals, e.args, 1).0;
      ArgsGrow(s, lvl, esc, e.pos, e.func, formals, e.args, 1);
      ReportGrows(s1, ArityDiags(e.pos, |formals|, |e.args|));
      GrowsTrans(s, s1, Report(s1, ArityDiags(e.pos, |formals|, |e.args|)));
  }

  lemma {:induction false} ArgsGrow(s: Sem, lvl: Translate.LevelId, esc: set<DeclId>, pos: Pos, func: Sym,
                                    formals: seq<TypeId>, args: seq<Expr>, i: nat)
    requires Ok(s, lvl)
    ensures Grows(s, TransArgs(s, lvl, esc, pos, func, formals, args, i).0)
    decreases args, 1
  {
    if formals == [] || args == [] {
      GrowsRefl(s);
    } else {
      var (s1, et) := TransExpr(s, lvl, esc, args[0]);
      var s2 := Report(s1, MatchDiag(s1.store, formals[0], et.ty, pos, WrongArgType(i, func)));
      ExprGrows(s, lvl, esc, args[0]);
      ReportGrows(s1, MatchDiag(s1.store, formals[0], et.ty, pos, WrongArgType(i, func)));
      GrowsTrans(s, s1, s2);
      ArgsGrow(s2, lvl, esc, pos, func, formals[1..], args[1..], i + 1);
      GrowsTrans(s, s2, TransArgs(s2, lvl, esc, pos, func, formals[1..], args[1..], i + 1).0);
    }
  }

  /** Two expressions translated one after the other. */
  lemma {:induction false} PairGrows(s: Sem, lvl: Translate.LevelId, esc: set<DeclId>, a: Expr, b: Expr, e: Expr)
    requires Ok(s, lvl) && a < e && b < e
    ensures Grows(s, TransExpr(TransExpr(s, lvl, esc, a).0, lvl, esc, b).0)
    decreases e, 0
  {
    var s1 := TransExpr(s, lvl, esc, a).0;
    ExprGrows(s, lvl, esc, a);
    ExprGrows(s1, lvl, esc, b);
    GrowsTrans(s, s1, TransExpr(s1, lvl, esc, b).0);
  }

  lemma {:induction false} OpGrows(s: Sem, lvl: Translate.LevelId, esc: set<DeclId>, e: Expr)
    requires Ok(s, lvl) && e.OpExpr?
    ensures Grows(s, TransOp(s, lvl, esc, e).0)
    decreases e, 1
  {
    var (s1, l) := TransExpr(s, lvl, esc, e.left);
    var (s2, rt) := TransExpr(s1, lvl, esc, e.right);
    var (ds, _) := OpRule(s2.store, e.op, e.pos, e.left.pos, l, e.right.pos, rt);
    PairGrows(s, lvl, esc, e.left, e.right, e);
    ReportGrows(s2, ds);
    GrowsTrans(s, s2, Report(s2, ds));
  }

  lemma {:induction false} RecordGrows(s: Sem, lvl: Translate.LevelId, esc: set<DeclId>, e: Expr)
    requires Ok(s, lvl) && e.RecordExpr?
    ensures Grows(s, TransRecord(s, lvl, esc, e).0)
    decreases e, 1
  {
    var (t, ds) := LookupType(s.store, s.tenv, e.ty, e.pos);
    var s1 := Report(s, ds);
    ReportGrows(s, ds);
    if t.Some? {
      var s2 := Report(s1, KindDiag(s1.store, t.value, Types.Record, e.pos, NotRecordType(e.ty)));
      var fields := RecordFields(s2.store, t.value);
      var s3 := TransEFields(s2, lvl, esc, fields, e.efields).0;
      var s4 := Report(s3, if |fields| != |e.efields| then [Diag(e.pos, WrongFieldNumber)] else []);
      EFieldsGrow(s2, lvl, esc, fields, e.efields);
      GrowsTrans(s, s1, s2);
      GrowsTrans(s, s2, s3);
      GrowsTrans(s, s3, s4);
    }
  }

  lemma {:induction false} EFieldsGrow(s: Sem, lvl: Translate.LevelId, esc: set<DeclId>, fields: seq<Types.Field>, efs: seq<EField>)
    requires Ok(s, lvl)
    ensures Grows(s, TransEFields(s, lvl, esc, fields, efs).0)
    decreases efs, 1
  {
    if fields == [] || efs == [] {
      GrowsRefl(s);
    } else {
      assert efs[0].expr < efs[0];
      var (s1, et) := TransExpr(s, lvl, esc, efs[0].expr);
      var s2 := Report(s1, MatchDiag(s1.store, fields[0].ty, et.ty, efs[0].pos, WrongFieldType));
      ExprGrows(s, lvl, esc, efs[0].expr);
      GrowsTrans(s, s1, s2);
      EFieldsGrow(s2, lvl, esc, fields[1..], efs[1..]);
      GrowsTrans(s, s2, TransEFields(s2, lvl, esc, fields[1..], efs[1..]).0);
    }
  }

  lemma {:induction false} ArrayGrows(s: Sem, lvl: Translate.LevelId, esc: set<DeclId>, e: Expr)
    requires Ok(s, lvl) && e.ArrayExpr?
    ensures Grows(s, TransArray(s, lvl, esc, e).0)
    decreases e, 1
  {
    var (t, ds) := LookupType(s.store, s.tenv, e.ty, e.pos);
    var s1 := Report(s, ds);
    var (s2, size) := TransExpr(s1, lvl, esc, e.size);
    var (s3, init) := TransExpr(s2, lvl, esc, e.init);
    PairGrows(s1, lvl, esc, e.size, e.init, e);
    GrowsTrans(s, s1, s3);
    if t.Some? {
      var (ds2, _) := ArrayRule(s3.store, e.pos, e.ty, t.value, size, init);
      GrowsTrans(s, s3, Report(s3, ds2));
    }
  }

  lemma {:induction false} IfGrows(s: Sem, lvl: Translate.LevelId, esc: set<DeclId>, e: Expr)
    requires Ok(s, lvl) && e.IfExpr?
    ensures Grows(s, TransIf(s, lvl, esc, e).0)
    decreases e, 1
  {
    var (s1, c) := TransExpr(s, lvl, esc, e.cond);
    var (s2, th) := TransExpr(s1, lvl, esc, e.thn);
    var s3 := Report(s2, KindDiag(s2.store, c.ty, Types.Int, e.pos, CondNotInt));
    PairGrows(s, lvl, esc, e.cond, e.thn, e);
    GrowsTrans(s, s2, s3);
    match e.els
    case SomeExpr(x) =>
      assert x < e.els;
      var (s4, el) := TransExpr(s3, lvl, esc, x);
      var (ds, _) := IfArmsRule(s4.store, e.pos, c, th, Some(el));
      ExprGrows(s3, lvl, esc, x);
      GrowsTrans(s, s3, s4);
      GrowsTrans(s, s4, Report(s4, ds));
    case NoExpr =>
      var (ds, _) := IfArmsRule(s3.store, e.pos, c, th, None);
      GrowsTrans(s, s3, Report(s3, ds));
  }

  lemma {:induction false} WhileGrows(s: Sem, lvl: Translate.LevelId, esc: set<DeclId>, e: Expr)
    requires Ok(s, lvl) && e.WhileExpr?
    ensures Grows(s, TransWhile(s, lvl, esc, e).0)
    decreases e, 1
  {
    var (s1, c) := TransExpr(s, lvl, esc, e.cond);
    var (s2, b) := TransExpr(s1, lvl, esc, e.body);
    var (ds, _) := WhileRule(s2.store, e.pos, c, b);
    PairGrows(s, lvl, esc, e.cond, e.body, e);
    GrowsTrans(s, s2, Report(s2, ds));
  }

  lemma {:induction false} ForGrows(s: Sem, lvl: Translate.LevelId, esc: set<DeclId>, e: Expr)
    requires Ok(s, lvl) && e.ForExpr?
    ensures Grows(s, TransFor(s, lvl, esc, e).0)
    decreases e, 1
  {
    var (s1, lo) := TransExpr(s, lvl, esc, e.lo);
    var (s2, hi) := TransExpr(s1, lvl, esc, e.hi);
    PairGrows(s, lvl, esc, e.lo, e.hi, e);
    ForBodyGrows(s2, lvl, esc, e, lo, hi);
    GrowsTrans(s, s2, TransForBody(s2, lvl, esc, e, lo, hi).0);
  }

  lemma {:induction false} ForBodyGrows(s: Sem, lvl: Translate.LevelId, esc: set<DeclId>, e: Expr, lo: ExprTy, hi: ExprTy)
    requires Ok(s, lvl) && e.ForExpr?
    ensures Grows(s, TransForBody(s, lvl, esc, e, lo, hi).0)
    decreases e.body, 3
  {
    var (tr1, acc) := Translate.AllocLocal(s.tr, lvl, e.esc in esc);
    var s2 := Report(s.(tr := tr1), ForBoundsDiags(s.store, e.pos, lo, hi));
    var s3 := EnterVar(s2, e.index, Env.VarEntry(acc, Types.IntId, true));
    var s4 := TransExpr(s3, lvl, esc, e.body).0;
    EnterVarGrows(s2, e.index, Env.VarEntry(acc, Types.IntId, true));
    GrowsTrans(s, s2, s3);
    ExprGrows(s3, lvl, esc, e.body);
    GrowsTrans(s, s3, s4);
  }

  lemma {:induction false} LetGrows(s: Sem, lvl: Translate.LevelId, esc: set<DeclId>, e: Expr)
    requires Ok(s, lvl) && e.LetExpr?
    ensures Grows(s, TransLet(s, lvl, esc, e).0)
    decreases e, 1
  {
    var s1 := TransDecls(s, lvl, esc, e.decls).0;
    DeclsGrow(s, lvl, esc, e.decls);
    ExprGrows(s1, lvl, esc, e.body);
    GrowsTrans(s, s1, TransExpr(s1, lvl, esc, e.body).0);
  }

  lemma {:induction false} AssignGrows(s: Sem, lvl: Translate.LevelId, esc: set<DeclId>, e: Expr)
    requires Ok(s, lvl) && e.AssignExpr?
    ensures Grows(s, TransAssign(s, lvl, esc, e).0)
    decreases e, 1
  {
    var (s1, v) := TransVar(s, lvl, esc, e.target);
    var (s2, x) := TransExpr(s1, lvl, esc, e.expr);
    var (ds, _) := AssignRule(s2.store, s2.venv, e.pos, e.target, v, x);
    VarGrows(s, lvl, esc, e.target);
    ExprGrows(s1, lvl, esc, e.expr);
    GrowsTrans(s, s1, s2);
    GrowsTrans(s, s2, Report(s2, ds));
  }

  lemma {:induction false} VarGrows(s: Sem, lvl: Translate.LevelId, esc: set<DeclId>, v: Var)
    requires Ok(s, lvl)
    ensures Grows(s, TransVar(s, lvl, esc, v).0)
    decreases v, 1
  {
    match v
    case SimpleVar(pos, name) =>
      var (ds, _) := SimpleVarRule(s.store, lvl, pos, name, Table.Find(s.venv, name));
      ReportGrows(s, ds);
    case FieldVar(pos, base, field) =>
      var (s1, b) := TransVar(s, lvl, esc, base);
      var (ds, _) := FieldVarRule(s1.store, pos, b, field);
      VarGrows(s, lvl, esc, base);
      GrowsTrans(s, s1, Report(s1, ds));
    case SubVar(pos, base, sub) =>
      var (s1, b) := TransVar(s, lvl, esc, base);
      var (s2, x) := TransExpr(s1, lvl, esc, sub);
      var (ds, _) := SubVarRule(s2.store, pos, b, x);
      VarGrows(s, lvl, esc, base);
      ExprGrows(s1, lvl, esc, sub);
      GrowsTrans(s, s1, s2);
      GrowsTrans(s, s2, Report(s2, ds));
  }

  lemma {:induction false} DeclsGrow(s: Sem, lvl: Translate.LevelId, esc: set<DeclId>, ds: seq<Decl>)
    requires Ok(s, lvl)
    ensures Grows(s, TransDecls(s, lvl, esc, ds).0)
    decreases ds, 1
  {
    if ds == [] {
      GrowsRefl(s);
    } else {
      var s1 := TransDecl(s, lvl, esc, ds[0]).0;
      DeclGrows(s, lvl, esc, ds[0]);
      DeclsGrow(s1, lvl, esc, ds[1..]);
      GrowsTrans(s, s1, TransDecls(s1, lvl, esc, ds[1..]).0);
    }
  }

  lemma {:induction false} DeclGrows(s: Sem, lvl: Translate.LevelId, esc: set<DeclId>, d: Decl)
    requires Ok(s, lvl)
    ensures Grows(s, TransDecl(s, lvl, esc, d).0)
    decreases d, 1
  {
    match d
    case FuncsDecl(_, _) => FuncsDeclGrows(s, lvl, esc, d);
    case TypesDecl(_, _) => TypesDeclGrows(s, d);
    case VarDecl(_, _, _, _, _) => VarDeclGrows(s, lvl, esc, d);
  }

  lemma {:induction false} VarDeclGrows(s: Sem, lvl: Translate.LevelId, esc: set<DeclId>, d: Decl)
    requires Ok(s, lvl) && d.VarDecl?
    ensures Grows(s, TransVarDecl(s, lvl, esc, d).0)
    decreases d, 0
  {
    var (s1, init) := TransExpr(s, lvl, esc, d.init);
    var (tr2, acc) := Translate.AllocLocal(s1.tr, lvl, d.esc in esc);
    var s2 := s1.(tr := tr2);
    var (s3, declared) :=
      if d.ty.Some? then
        var (t, ds) := LookupOrInt(s2.store, s2.tenv, d.ty.value, d.pos);
        (Report(s2, ds), Some(t))
      else (s2, None);
    var (ds2, bound) := VarDeclRule(s3.store, d.pos, declared, init.ty);
    var s4 := Report(s3, ds2);
    ExprGrows(s, lvl, esc, d.init);
    GrowsTrans(s, s1, s3);
    GrowsTrans(s, s3, s4);
    EnterVarGrows(s4, d.name, Env.VarEntry(acc, bound, false));
    GrowsTrans(s, s4, EnterVar(s4, d.name, Env.VarEntry(acc, bound, false)));
  }

  lemma {:induction false} FuncsDeclGrows(s: Sem, lvl: Translate.LevelId, esc: set<DeclId>, d: Decl)
    requires Ok(s, lvl) && d.FuncsDecl?
    ensures Grows(s, TransFuncsDecl(s, lvl, esc, d).0)
    decreases d, 0
  {
    var s1 := Report(s, RedefinitionDiags(FuncNames(d.funcs), false));
    var (s2, protos) := EnterPrototypes(s1, lvl, esc, d.pos, d.funcs);
    PrototypesGrow(s1, lvl, esc, d.pos, d.funcs);
    GrowsTrans(s, s1, s2);
    BodiesGrow(s2, esc, d.funcs, protos);
    GrowsTrans(s, s2, TransBodies(s2, esc, d.funcs, protos));
  }

  lemma PrototypeGrows(s: Sem, lvl: Translate.LevelId, esc: set<DeclId>, pos: Pos, f: FuncDec)
    requires Ok(s, lvl)
    ensures Grows(s, EnterPrototype(s, lvl, esc, pos, f).0)
  {
    var r := EnterPrototype(s, lvl, esc, pos, f).0;
    assert r.venv[1..] == s.venv;
  }

  lemma {:induction false} PrototypesGrow(s: Sem, lvl: Translate.LevelId, esc: set<DeclId>, pos: Pos, fs: seq<FuncDec>)
    requires Ok(s, lvl)
    ensures Grows(s, EnterPrototypes(s, lvl, esc, pos, fs).0)
    decreases |fs|
  {
    if fs == [] {
      GrowsRefl(s);
    } else {
      var s1 := EnterPrototype(s, lvl, esc, pos, fs[0]).0;
      PrototypeGrows(s, lvl, esc, pos, fs[0]);
      PrototypesGrow(s1, lvl, esc, pos, fs[1..]);
      GrowsTrans(s, s1, EnterPrototypes(s1, lvl, esc, pos, fs[1..]).0);
    }
  }

  lemma {:induction false} BodyStepGrows(s: Sem, esc: set<DeclId>, f: FuncDec, p: Env.Entry)
    requires Translate.Valid(s.tr) && p.FuncEntry? && p.level < |s.tr.levels|
    ensures Grows(s, BodyStep(s, esc, f, p))
    decreases f, 1
  {
    var s1 := s.(venv := BindParams(s.venv, f.params, p.formals, Translate.Formals(s.tr, p.level)[1..]));
    BindParamsExtends(s.venv, f.params, p.formals, Translate.Formals(s.tr, p.level)[1..]);
    var (s2, b) := TransExpr(s1, p.level, esc, f.body);
    ExprGrows(s1, p.level, esc, f.body);
    GrowsTrans(s, s1, s2);
    ReportGrows(s2, MatchDiag(s2.store, b.ty, p.result, f.pos, FuncBodyType));
    GrowsTrans(s, s2, BodyStep(s, esc, f, p));
  }

  lemma {:induction false} BodiesGrow(s: Sem, esc: set<DeclId>, fs: seq<FuncDec>, protos: seq<Env.Entry>)
    requires Translate.Valid(s.tr)
    ensures Grows(s, TransBodies(s, esc, fs, protos))
    decreases fs, 1
  {
    if fs == [] || protos == [] {
      GrowsRefl(s);
    } else {
      var p := protos[0];
      var s3 := if p.FuncEntry? && p.level < |s.tr.levels| then BodyStep(s, esc, fs[0], p) else s;
      if p.FuncEntry? && p.level < |s.tr.levels| {
        BodyStepGrows(s, esc, fs[0], p);
      } else {
        GrowsRefl(s);
      }
      BodiesGrow(s3, esc, fs[1..], protos[1..]);
      GrowsTrans(s, s3, TransBodies(s3, esc, fs[1..], protos[1..]));
    }
  }

  lemma {:induction false} PlaceholdersGrow(s: Sem, nts: seq<NameType>)
    ensures Grows(s, EnterPlaceholders(s, nts))
    decreases |nts|
  {
    if nts == [] {
      GrowsRefl(s);
    } else {
      var (store', id) := Types.NewName(s.store, nts[0].name, None);
      var s1 := s.(store := store', tenv := [Table.Binder(nts[0].name, id)] + s.tenv);
      assert s1.tenv[1..] == s.tenv;
      PlaceholdersGrow(s1, nts[1..]);
      GrowsTrans(s, s1, EnterPlaceholders(s1, nts[1..]));
    }
  }

  lemma {:induction false} LinkTypesGrow(s: Sem, nts: seq<NameType>)
    ensures Grows(s, LinkTypes(s, nts))
    decreases |nts|
  {
    if nts == [] {
      GrowsRefl(s);
    } else {
      var s1 :=
        match Table.Find(s.tenv, nts[0].name)
        case Some(t) =>
          var (store', u, ds) := TransTy(s.store, s.tenv, nts[0].ty);
          Report(s.(store := Types.SetLink(store', t, u)), ds)
        case None => s;
      assert Grows(s, s1);
      LinkTypesGrow(s1, nts[1..]);
      GrowsTrans(s, s1, LinkTypes(s1, nts[1..]));
    }
  }

  lemma TypesDeclGrows(s: Sem, d: Decl)
    requires d.TypesDecl?
    ensures Grows(s, TransTypesDecl(s, d))
  {
    var s1 := Report(s, RedefinitionDiags(TypeNames(d.types, d.pos), true));
    var s2 := EnterPlaceholders(s1, d.types);
    var s3 := LinkTypes(s2, d.types);
    PlaceholdersGrow(s1, d.types);
    LinkTypesGrow(s2, d.types);
    GrowsTrans(s, s1, s2);
    GrowsTrans(s, s2, s3);
    GrowsTrans(s, s3, TransTypesDecl(s, d));
  }
}

=== FILE: semantic_pairs.dfy ===
/**
 * The pairwise loops of `trans_call_expr` and `trans_record_expr`: which
 * diagnostics the traversal of Semantic reports for the arguments of a call
 * and the initializers of a record literal, stated against a reference list
 * of the mismatched positions.
 */
module SemanticPairs {
  import opened Wrappers
  import Table
  import Types
  import Translate
  import Env
  import opened Ast
  import opened SemanticRules
  import opened Semantic

  /**
   * The positions, in increasing order, at which a type of `got` does not
   * match the type of `want` it is paired with; pairing stops at the end of
   * the shorter sequence.
   */
  function Mismatched(store: Types.Store, want: seq<TypeId>, got: seq<TypeId>): (r: seq<nat>)
    ensures forall j :: 0 <= j < |r| ==> r[j] < |want| && r[j] < |got|
  {
    if want == [] || got == [] then []
    else (if Types.Match(store, want[0], got[0]) then [] else [0]) + Inc(Mismatched(store, want[1..], got[1..]))
  }

  /** Strictly increasing positions. */
  ghost predicate Increasing(ks: seq<nat>)
  {
    forall a, b :: 0 <= a < b < |ks| ==> ks[a] < ks[b]
  }

  /** Putting position 0 or nothing in front of the positions one further on keeps them increasing. */
  lemma ConsIncreasing(ok: bool, rest: seq<nat>)
    requires Increasing(rest)
    ensures Increasing((if ok then [] else [0]) + Inc(rest))
  {
    var first: seq<nat> := if ok then [] else [0];
    var r := first + Inc(rest);
    assert forall j :: 0 <= j < |r| ==> r[j] == if j < |first| then 0 else rest[j - |first|] + 1;
  }

  /** `Mismatched` lists its positions in increasing order. */
  lemma {:induction false} MismatchedSorted(store: Types.Store, want: seq<TypeId>, got: seq<TypeId>)
    ensures Increasing(Mismatched(store, want, got))
    decreases |want|
  {
    if want != [] && got != [] {
      MismatchedSorted(store, want[1..], got[1..]);
      ConsIncreasing(Types.Match(store, want[0], got[0]), Mismatched(store, want[1..], got[1..]));
    }
  }

  /** Position 0 is in front exactly when not `ok`; every later position is one further on from `rest`. */
  lemma ConsMembers(ok: bool, rest: seq<nat>)
    ensures var r := (if ok then [] else [0]) + Inc(rest);
            && (0 in r <==> !ok)
            && forall j: nat :: j + 1 in r <==> j in rest
  {
    var first: seq<nat> := if ok then [] else [0];
    var r := first + Inc(rest);
    assert forall j :: 0 <= j < |r| ==> r[j] == if j < |first| then 0 else rest[j - |first|] + 1;
    forall j: nat
      ensures j + 1 in r <==> j in rest
    {
      if j in rest {
        var n :| 0 <= n < |rest| && rest[n] == j;
        assert r[n + |first|] == j + 1;
      }
    }
  }

  /** `Mismatched` lists exactly the paired positions whose types do not match. */
  lemma {:induction false} MismatchedExact(store: Types.Store, want: seq<TypeId>, got: seq<TypeId>)
    ensures var r := Mismatched(store, want, got);
            forall j :: 0 <= j < |want| && j < |got| ==> (j in r <==> !Types.Match(store, want[j], got[j]))
    decreases |want|
  {
    if want != [] && got != [] {
      var rest := Mismatched(store, want[1..], got[1..]);
      MismatchedExact(store, want[1..], got[1..]);
      ConsMembers(Types.Match(store, want[0], got[0]), rest);
      assert forall j :: 1 <= j < |want| && j < |got| ==> want[j] == want[1..][j - 1] && got[j] == got[1..][j - 1];
    }
  }

  /** Each position one further on. */
  function Inc(ks: seq<nat>): (r: seq<nat>)
    ensures |r| == |ks| && forall j :: 0 <= j < |r| ==> r[j] == ks[j] + 1
  {
    seq(|ks|, j requires 0 <= j < |ks| => ks[j] + 1)
  }

  /** The declared types of a record type's fields, in order. */
  function FieldTypes(fields: seq<Types.Field>): (r: seq<TypeId>)
    ensures |r| == |fields| && forall j :: 0 <= j < |r| ==> r[j] == fields[j].ty
  {
    seq(|fields|, j requires 0 <= j < |fields| => fields[j].ty)
  }

  /** "passing argument `i + k` of `f` with wrong type" at the call for each position `k` of `ks`. */
  function ArgDiags(pos: Pos, f: Sym, i: nat, ks: seq<nat>): seq<Diag>
  {
    if ks == [] then [] else [Diag(pos, WrongArgType(i + ks[0], f))] + ArgDiags(pos, f, i, ks[1..])
  }

  /** "wrong field type" at the initializer of each position of `ks`. */
  function FieldDiags(efs: seq<EField>, ks: seq<nat>): seq<Diag>
    requires forall j :: 0 <= j < |ks| ==> ks[j] < |efs|
  {
    if ks == [] then [] else [Diag(efs[ks[0]].pos, WrongFieldType)] + FieldDiags(efs, ks[1..])
  }

  /**
   * From every state with this store and these environments, `e` reports
   * nothing, keeps the store and both environments, and has type `t`.
   */
  ghost predicate Quiet(lvl: Translate.LevelId, esc: set<DeclId>, e: Expr,
                        store: Types.Store, venv: Chain<Env.Entry>, tenv: Chain<TypeId>, t: TypeId)
  {
    forall s: Sem {:trigger TransExpr(s, lvl, esc, e)} :: Ok(s, lvl) && s.store == store && s.venv == venv && s.tenv == tenv ==>
      var r := TransExpr(s, lvl, esc, e);
      r.0.errors == s.errors && r.0.store == store && r.0.venv == venv && r.0.tenv == tenv && r.1.ty == t
  }

  /** `nil`, a number and a string literal are quiet, with types nil, int and string. */
  lemma LiteralsQuiet(lvl: Translate.LevelId, esc: set<DeclId>, p: Pos, n: int, str: string,
                      store: Types.Store, venv: Chain<Env.Entry>, tenv: Chain<TypeId>)
    ensures Quiet(lvl, esc, NilExpr(p), store, venv, tenv, Types.NilId)
    ensures Quiet(lvl, esc, NumExpr(p, n), store, venv, tenv, Types.IntId)
    ensures Quiet(lvl, esc, StringExpr(p, str), store, venv, tenv, Types.StringId)
  {
  }

  /** Counting the arguments from `i + 1` is counting the positions one further on from `i`. */
  lemma {:induction false} ArgDiagsInc(pos: Pos, f: Sym, i: nat, ks: seq<nat>)
    ensures ArgDiags(pos, f, i, Inc(ks)) == ArgDiags(pos, f, i + 1, ks)
    decreases |ks|
  {
    if ks != [] {
      assert Inc(ks)[1..] == Inc(ks[1..]);
      ArgDiagsInc(pos, f, i, ks[1..]);
    }
  }

  /** The diagnostic of a first pair that matches or not, then those of the rest counted from `i + 1`. */
  lemma ArgDiagsCons(pos: Pos, f: Sym, i: nat, ok: bool, rest: seq<nat>)
    ensures ArgDiags(pos, f, i, (if ok then [] else [0]) + Inc(rest))
            == (if ok then [] else [Diag(pos, WrongArgType(i, f))]) + ArgDiags(pos, f, i + 1, rest)
  {
    ArgDiagsInc(pos, f, i, rest);
    if !ok {
      assert ([0] + Inc(rest))[1..] == Inc(rest);
    } else {
      assert [] + Inc(rest) == Inc(rest);
    }
  }

  /** The diagnostics of the first pair, then those of the rest counted from `i + 1`. */
  lemma ArgDiagsStep(store: Types.Store, pos: Pos, f: Sym, i: nat, want: seq<TypeId>, got: seq<TypeId>)
    requires want != [] && got != []
    ensures ArgDiags(pos, f, i, Mismatched(store, want, got))
            == MatchDiag(store, want[0], got[0], pos, WrongArgType(i, f)) + ArgDiags(pos, f, i + 1, Mismatched(store, want[1..], got[1..]))
  {
    ArgDiagsCons(pos, f, i, Types.Match(store, want[0], got[0]), Mismatched(store, want[1..], got[1..]));
  }

  /**
   * One turn of the argument loop on a quiet first argument of type `t`: the
   * rest of the loop runs on a state with the same store and environments
   * and with the first pair's diagnostic added.
   */
  lemma ArgsQuietStep(s: Sem, lvl: Translate.LevelId, esc: set<DeclId>, pos: Pos, f: Sym,
                      formals: seq<TypeId>, args: seq<Expr>, t: TypeId, i: nat)
    requires Ok(s, lvl) && formals != [] && args != [] && Quiet(lvl, esc, args[0], s.store, s.venv, s.tenv, t)
    ensures var s1 := TransExpr(s, lvl, esc, args[0]).0;
            var s2 := s1.(errors := s.errors + MatchDiag(s.store, formals[0], t, pos, WrongArgType(i, f)));
            && Ok(s2, lvl) && s2.store == s.store && s2.venv == s.venv && s2.tenv == s.tenv
            && TransArgs(s, lvl, esc, pos, f, formals, args, i).0 == TransArgs(s2, lvl, esc, pos, f, formals[1..], args[1..], i + 1).0
  {
  }

  /** The errors of two steps, one after the other. */
  lemma ErrorsChain(s: Sem, s2: Sem, r: Sem, first: seq<Diag>, rest: seq<Diag>)
    requires s2.errors == s.errors + first && r.errors == s2.errors + rest
    ensures r.errors == s.errors + (first + rest)
  {
  }

  /**
   * The argument loop with quiet arguments: exactly the `WrongArgType`
   * diagnostics of the mismatched pairs, in order, each with its 1-based
   * index; nothing else changes but the translation state.
   */
  lemma {:induction false} QuietArgs(s: Sem, lvl: Translate.LevelId, esc: set<DeclId>, pos: Pos, f: Sym,
                                     formals: seq<TypeId>, args: seq<Expr>, tys: seq<TypeId>, i: nat)
    requires Ok(s, lvl) && |tys| == |args|
    requires forall j :: 0 <= j < |args| ==> Quiet(lvl, esc, args[j], s.store, s.venv, s.tenv, tys[j])
    ensures var r := TransArgs(s, lvl, esc, pos, f, formals, args, i).0;
            && r.errors == s.errors + ArgDiags(pos, f, i, Mismatched(s.store, formals, tys))
            && r.store == s.store && r.venv == s.venv && r.tenv == s.tenv
    decreases args
  {
    if formals == [] || args == [] {
      assert s.errors + [] == s.errors;
    } else {
      ArgsQuietStep(s, lvl, esc, pos, f, formals, args, tys[0], i);
      var md := MatchDiag(s.store, formals[0], tys[0], pos, WrongArgType(i, f));
      var s2 := TransExpr(s, lvl, esc, args[0]).0.(errors := s.errors + md);
      assert forall j :: 0 <= j < |args[1..]| ==> args[1..][j] == args[j + 1] && tys[1..][j] == tys[j + 1];
      QuietArgs(s2, lvl, esc, pos, f, formals[1..], args[1..], tys[1..], i + 1);
      ArgDiagsStep(s.store, pos, f, i, formals, tys);
      ErrorsChain(s, s2, TransArgs(s2, lvl, esc, pos, f, formals[1..], args[1..], i + 1).0,
                  md, ArgDiags(pos, f, i + 1, Mismatched(s.store, formals[1..], tys[1..])));
    }
  }

  /**
   * A call of a function entry whose arguments are all quiet: its errors are
   * exactly the `WrongArgType(i, f)` diagnostics of the mismatched pairs in
   * argument order, then the arity error when the counts differ.
   */
  lemma CallArgTypes(s: Sem, lvl: Translate.LevelId, esc: set<DeclId>, p: Pos, f: Sym, args: seq<Expr>, tys: seq<TypeId>)
    requires Ok(s, lvl) && Table.Find(s.venv, f).Some? && Table.Find(s.venv, f).value.FuncEntry?
    requires |tys| == |args| && forall j :: 0 <= j < |args| ==> Quiet(lvl, esc, args[j], s.store, s.venv, s.tenv, tys[j])
    ensures var formals := Table.Find(s.venv, f).value.formals;
            TransExpr(s, lvl, esc, CallExpr(p, f, args)).0.errors
              == s.errors + ArgDiags(p, f, 1, Mismatched(s.store, formals, tys)) + ArityDiags(p, |formals|, |args|)
  {
    var formals := Table.Find(s.venv, f).value.formals;
    var r := TransArgs(s, lvl, esc, p, f, formals, args, 1).0;
    CallErrors(s, lvl, esc, p, f, args);
    QuietArgs(s, lvl, esc, p, f, formals, args, tys, 1);
    ErrorsChain(s, r, Report(r, ArityDiags(p, |formals|, |args|)),
                ArgDiags(p, f, 1, Mismatched(s.store, formals, tys)), ArityDiags(p, |formals|, |args|));
  }

  /** A call of a function entry: the errors of its argument loop, then the arity check. */
  lemma CallErrors(s: Sem, lvl: Translate.LevelId, esc: set<DeclId>, p: Pos, f: Sym, args: seq<Expr>)
    requires Ok(s, lvl) && Table.Find(s.venv, f).Some? && Table.Find(s.venv, f).value.FuncEntry?
    ensures var formals := Table.Find(s.venv, f).value.formals;
            TransExpr(s, lvl, esc, CallExpr(p, f, args)).0.errors
              == Report(TransArgs(s, lvl, esc, p, f, formals, args, 1).0, ArityDiags(p, |formals|, |args|)).errors
  {
  }

  /** Dropping the first initializer is counting the positions one further on. */
  lemma {:induction false} FieldDiagsInc(efs: seq<EField>, ks: seq<nat>)
    requires efs != [] && forall j :: 0 <= j < |ks| ==> ks[j] < |efs| - 1
    ensures FieldDiags(efs, Inc(ks)) == FieldDiags(efs[1..], ks)
    decreases |ks|
  {
    if ks != [] {
      assert Inc(ks)[1..] == Inc(ks[1..]);
      FieldDiagsInc(efs, ks[1..]);
    }
  }

  /** The diagnostic of a first initializer that matches or not, then those of the rest. */
  lemma FieldDiagsCons(efs: seq<EField>, ok: bool, rest: seq<nat>)
    requires efs != [] && forall j :: 0 <= j < |rest| ==> rest[j] < |efs| - 1
    ensures var ks := (if ok then [] else [0]) + Inc(rest);
            (forall j :: 0 <= j < |ks| ==> ks[j] < |efs|)
            && FieldDiags(efs, ks) == (if ok then [] else [Diag(efs[0].pos, WrongFieldType)]) + FieldDiags(efs[1..], rest)
  {
    FieldDiagsInc(efs, rest);
    if !ok {
      assert ([0] + Inc(rest))[1..] == Inc(rest);
    } else {
      assert [] + Inc(rest) == Inc(rest);
    }
  }

  /** The diagnostic of the first initializer, then those of the rest. */
  lemma FieldDiagsStep(store: Types.Store, fields: seq<Types.Field>, efs: seq<EField>, tys: seq<TypeId>)
    requires fields != [] && efs != [] && |tys| == |efs|
    ensures FieldDiags(efs, Mismatched(store, FieldTypes(fields), tys))
            == MatchDiag(store, fields[0].ty, tys[0], efs[0].pos, WrongFieldType)
               + FieldDiags(efs[1..], Mismatched(store, FieldTypes(fields[1..]), tys[1..]))
  {
    assert FieldTypes(fields)[1..] == FieldTypes(fields[1..]);
    FieldDiagsCons(efs, Types.Match(store, fields[0].ty, tys[0]), Mismatched(store, FieldTypes(fields[1..]), tys[1..]));
  }

  /**
   * One turn of the initializer loop on a quiet first initializer of type
   * `t`: the rest of the loop runs on a state with the same store and
   * environments and with the first pair's diagnostic added.
   */
  lemma EFieldsQuietStep(s: Sem, lvl: Translate.LevelId, esc: set<DeclId>,
                         fields: seq<Types.Field>, efs: seq<EField>, t: TypeId)
    requires Ok(s, lvl) && fields != [] && efs != [] && Quiet(lvl, esc, efs[0].expr, s.store, s.venv, s.tenv, t)
    ensures var s1 := TransExpr(s, lvl, esc, efs[0].expr).0;
            var s2 := s1.(errors := s.errors + MatchDiag(s.store, fields[0].ty, t, efs[0].pos, WrongFieldType));
            && Ok(s2, lvl) && s2.store == s.store && s2.venv == s.venv && s2.tenv == s.tenv
            && TransEFields(s, lvl, esc, fields, efs).0 == TransEFields(s2, lvl, esc, fields[1..], efs[1..]).0
  {
  }

  /**
   * The initializer loop with quiet initializers: exactly one "wrong field
   * type" per mismatched pair, at that initializer's position, in order;
   * nothing else changes but the translation state.
   */
  lemma {:induction false} QuietEFields(s: Sem, lvl: Translate.LevelId, esc: set<DeclId>,
                                        fields: seq<Types.Field>, efs: seq<EField>, tys: seq<TypeId>)
    requires Ok(s, lvl) && |tys| == |efs|
    requires forall j :: 0 <= j < |efs| ==> Quiet(lvl, esc, efs[j].expr, s.store, s.venv, s.tenv, tys[j])
    ensures var r := TransEFields(s, lvl, esc, fields, efs).0;
            && r.errors == s.errors + FieldDiags(efs, Mismatched(s.store, FieldTypes(fields), tys))
            && r.store == s.store && r.venv == s.venv && r.tenv == s.tenv
    decreases efs
  {
    if fields == [] || efs == [] {
      assert s.errors + [] == s.errors;
    } else {
      EFieldsQuietStep(s, lvl, esc, fields, efs, tys[0]);
      var md := MatchDiag(s.store, fields[0].ty, tys[0], efs[0].pos, WrongFieldType);
      var s2 := TransExpr(s, lvl, esc, efs[0].expr).0.(errors := s.errors + md);
      assert forall j :: 0 <= j < |efs[1..]| ==> efs[1..][j] == efs[j + 1] && tys[1..][j] == tys[j + 1];
      QuietEFields(s2, lvl, esc, fields[1..], efs[1..], tys[1..]);
      FieldDiagsStep(s.store, fields, efs, tys);
      ErrorsChain(s, s2, TransEFields(s2, lvl, esc, fields[1..], efs[1..]).0,
                  md, FieldDiags(efs[1..], Mismatched(s.store, FieldTypes(fields[1..]), tys[1..])));
    }
  }

  /**
   * A record literal of a bound type: it has the looked-up type, it builds
   * one term per pair of a field and an initializer, and its last error is
   * "wrong field number" when the counts differ.
   */
  lemma RecordLiteral(s: Sem, lvl: Translate.LevelId, esc: set<DeclId>, p: Pos, t: Sym, efs: seq<EField>)
    requires Ok(s, lvl) && Table.Find(s.tenv, t).Some?
    ensures var rt := Types.Actual(s.store, Table.Find(s.tenv, t).value);
            var fields := RecordFields(s.store, rt);
            var n := if |fields| < |efs| then |fields| else |efs|;
            var r := TransExpr(s, lvl, esc, RecordExpr(p, t, efs));
            && r.1.ty == rt && r.1.expr.TrRecord? && r.1.expr.size == n && |r.1.expr.fields| == n
            && (|fields| != |efs| ==> |r.0.errors| > 0 && r.0.errors[|r.0.errors| - 1] == Diag(p, WrongFieldNumber))
  {
  }

  /**
   * A record literal of a bound type whose initializers are all quiet: its
   * errors are exactly "not a record type" when the type is not a record,
   * then one "wrong field type" per mismatched pair in order, then "wrong
   * field number" exactly when the counts differ.
   */
  lemma QuietRecord(s: Sem, lvl: Translate.LevelId, esc: set<DeclId>, p: Pos, t: Sym, efs: seq<EField>, tys: seq<TypeId>)
    requires Ok(s, lvl) && Table.Find(s.tenv, t).Some?
    requires |tys| == |efs| && forall j :: 0 <= j < |efs| ==> Quiet(lvl, esc, efs[j].expr, s.store, s.venv, s.tenv, tys[j])
    ensures var rt := Types.Actual(s.store, Table.Find(s.tenv, t).value);
            var fields := RecordFields(s.store, rt);
            TransExpr(s, lvl, esc, RecordExpr(p, t, efs)).0.errors
              == s.errors + KindDiag(s.store, rt, Types.Record, p, NotRecordType(t))
                 + FieldDiags(efs, Mismatched(s.store, FieldTypes(fields), tys))
                 + (if |fields| != |efs| then [Diag(p, WrongFieldNumber)] else [])
  {
    var (ty, ds) := LookupType(s.store, s.tenv, t, p);
    var s1 := Report(s, ds);
    assert s1 == s by {
      assert s.errors + [] == s.errors;
    }
    var s2 := Report(s1, KindDiag(s1.store, ty.value, Types.Record, p, NotRecordType(t)));
    QuietEFields(s2, lvl, esc, RecordFields(s2.store, ty.value), efs, tys);
  }

  /** `b` is `a` with only the field names changed. */
  predicate Renamed(a: seq<EField>, b: seq<EField>)
  {
    |a| == |b| && forall j :: 0 <= j < |a| ==> a[j].pos == b[j].pos && a[j].expr == b[j].expr
  }

  /** The initializer loop never reads a field name. */
  lemma {:induction false} EFieldsIgnoreNames(s: Sem, lvl: Translate.LevelId, esc: set<DeclId>,
                                              fields: seq<Types.Field>, a: seq<EField>, b: seq<EField>)
    requires Ok(s, lvl) && Renamed(a, b)
    ensures TransEFields(s, lvl, esc, fields, a) == TransEFields(s, lvl, esc, fields, b)
    decreases |a|
  {
    if fields != [] && a != [] {
      var (s1, et) := TransExpr(s, lvl, esc, a[0].expr);
      var s2 := Report(s1, MatchDiag(s1.store, fields[0].ty, et.ty, a[0].pos, WrongFieldType));
      assert Renamed(a[1..], b[1..]);
      EFieldsIgnoreNames(s2, lvl, esc, fields[1..], a[1..], b[1..]);
    }
  }

  /**
   * A record literal is checked by position: renaming its initializers
   * changes neither its errors, nor its type, nor its term.
   */
  lemma RecordIgnoresNames(s: Sem, lvl: Translate.LevelId, esc: set<DeclId>, p: Pos, t: Sym, a: seq<EField>, b: seq<EField>)
    requires Ok(s, lvl) && Renamed(a, b)
    ensures TransExpr(s, lvl, esc, RecordExpr(p, t, a)) == TransExpr(s, lvl, esc, RecordExpr(p, t, b))
  {
    var (ty, ds) := LookupType(s.store, s.tenv, t, p);
    if ty.Some? {
      var s1 := Report(s, ds);
      var s2 := Report(s1, KindDiag(s1.store, ty.value, Types.Record, p, NotRecordType(t)));
      EFieldsIgnoreNames(s2, lvl, esc, RecordFields(s2.store, ty.value), a, b);
    }
  }
}

=== FILE: semantic_props.dfy ===
/**
 * What the checker of semantic.c reports on particular program shapes, on
 * any state: the node rules of SemanticRules put together by the
 * traversal of Semantic. Also the body loop of `trans_funcs_decl` as
 * written, which looks each function up again by name.
 */
module SemanticProps {
  import opened Wrappers
  import Table
  import Types
  import Translate
  import Env
  import opened Ast
  import opened SemanticRules
  import opened Semantic

  /** `()`: the empty sequence is a void zero and changes nothing. */
  lemma EmptySequence(s: Sem, lvl: Translate.LevelId, esc: set<DeclId>, p: Pos)
    requires Ok(s, lvl)
    ensures TransExpr(s, lvl, esc, SeqExpr(p, [])) == (s, ExprTy(Translate.TrNum(0), Types.VoidId))
  {
    assert TransExprList(s, lvl, esc, []) == (s, []);
  }

  /** `"a" < "b"`: no error, and an int. */
  lemma StringComparison(s: Sem, lvl: Translate.LevelId, esc: set<DeclId>, p: Pos, op: Oper, a: string, b: string)
    requires Ok(s, lvl) && Types.Valid(s.store) && IsOrder(op)
    ensures var r := TransExpr(s, lvl, esc, OpExpr(p, StringExpr(p, a), op, StringExpr(p, b)));
            r.0 == s && r.1.ty == Types.IntId
  {
    var l := ExprTy(Translate.TrString(a), Types.StringId);
    var rt := ExprTy(Translate.TrString(b), Types.StringId);
    StringComparisonType(s.store, op, p, l, rt);
    StepOp(s, lvl, esc, OpExpr(p, StringExpr(p, a), op, StringExpr(p, b)));
    assert TransExpr(s, lvl, esc, StringExpr(p, a)) == (s, l);
    assert TransExpr(s, lvl, esc, StringExpr(p, b)) == (s, rt);
    assert Report(s, []) == s;
  }

  /**
   * `if "a" < "b" then ()`: with the corrected comparison rule a string
   * comparison is an int, so the condition is accepted and nothing is
   * reported (as written, its string type draws the error that a condition's
   * type must be integer).
   */
  lemma StringComparisonCondition(s: Sem, lvl: Translate.LevelId, esc: set<DeclId>, p: Pos, op: Oper, a: string, b: string)
    requires Ok(s, lvl) && Types.Valid(s.store) && IsOrder(op)
    ensures var c := OpExpr(p, StringExpr(p, a), op, StringExpr(p, b));
            var r := TransExpr(s, lvl, esc, IfExpr(p, c, SeqExpr(p, []), NoExpr));
            r.0.errors == s.errors && r.1.ty == Types.VoidId
  {
    var c := OpExpr(p, StringExpr(p, a), op, StringExpr(p, b));
    StepIf(s, lvl, esc, IfExpr(p, c, SeqExpr(p, []), NoExpr));
    Types.BuiltinKinds(s.store);
    StringComparison(s, lvl, esc, p, op, a, b);
    EmptySequence(s, lvl, esc, p);
    assert Report(s, []) == s;
  }

  /**
   * A call whose name is unbound, or bound to a variable, is one error and
   * an int; no argument is translated, so nothing else changes.
   */
  lemma CallOfNonFunction(s: Sem, lvl: Translate.LevelId, esc: set<DeclId>, p: Pos, f: Sym, args: seq<Expr>)
    requires Ok(s, lvl)
    ensures Table.Find(s.venv, f).None? ==>
              TransExpr(s, lvl, esc, CallExpr(p, f, args))
              == (s.(errors := s.errors + [Diag(p, UndefinedFunction(f))]), ExprTy(Translate.TrNone, Types.IntId))
    ensures Table.Find(s.venv, f).Some? && Table.Find(s.venv, f).value.VarEntry? ==>
              TransExpr(s, lvl, esc, CallExpr(p, f, args))
              == (s.(errors := s.errors + [Diag(p, NotAFunction(f))]), ExprTy(Translate.TrNone, Types.IntId))
  {
  }

  /**
   * A call of a function: only the arguments paired with a formal are
   * translated; a count mismatch is reported last, after every argument's
   * errors; and the call has the function's resolved result type.
   */
  lemma CallArity(s: Sem, lvl: Translate.LevelId, esc: set<DeclId>, p: Pos, f: Sym, args: seq<Expr>)
    requires Ok(s, lvl) && Table.Find(s.venv, f).Some? && Table.Find(s.venv, f).value.FuncEntry?
    ensures var entry := Table.Find(s.venv, f).value;
            var r := TransExpr(s, lvl, esc, CallExpr(p, f, args));
            && r.1.expr.TrCall? && r.1.expr.level == entry.level && r.1.expr.func == entry.mark
            && |r.1.expr.args| == (if |entry.formals| < |args| then |entry.formals| else |args|)
            && Resolved(r.0.store, r.1.ty) && Types.Actual(r.0.store, r.1.ty) == Types.Actual(r.0.store, entry.result)
            && (|entry.formals| < |args| ==> |r.0.errors| > 0 && r.0.errors[|r.0.errors| - 1] == Diag(p, ExpectLess))
            && (|entry.formals| > |args| ==> |r.0.errors| > 0 && r.0.errors[|r.0.errors| - 1] == Diag(p, ExpectMore))
  {
    var entry := Table.Find(s.venv, f).value;
    var s1 := TransArgs(s, lvl, esc, p, f, entry.formals, args, 1).0;
    var s2 := Report(s1, ArityDiags(p, |entry.formals|, |args|));
    Types.ActualIdempotent(s2.store, entry.result);
  }

  /**
   * A record literal of an unbound type: one error, type nil, and the field
   * initializers are not translated.
   */
  lemma RecordOfUndefinedType(s: Sem, lvl: Translate.LevelId, esc: set<DeclId>, p: Pos, t: Sym, efs: seq<EField>)
    requires Ok(s, lvl) && Table.Find(s.tenv, t).None?
    ensures TransExpr(s, lvl, esc, RecordExpr(p, t, efs))
            == (s.(errors := s.errors + [Diag(p, UndefinedType(t))]), ExprTy(Translate.TrNone, Types.NilId))
  {
  }

  /**
   * `var x := init`: after the initializer, exactly one local is allocated
   * at the current level, in the frame exactly when the declaration
   * escapes; `x` is bound, newest, to a variable entry with that access that
   * is not a `for` index; the declaration's term assigns the initializer to
   * it. Without an annotation the variable has the initializer's type.
   */
  lemma VarDeclBinding(s: Sem, lvl: Translate.LevelId, esc: set<DeclId>, d: Decl)
    requires Ok(s, lvl) && d.VarDecl?
    ensures var (s1, init) := TransExpr(s, lvl, esc, d.init);
            var r := TransDecl(s, lvl, esc, d);
            && |r.0.venv| > 0 && r.0.venv[0].key == d.name && r.0.venv[0].value.VarEntry? && !r.0.venv[0].value.isFor
            && var acc := r.0.venv[0].value.access;
            && acc.level == lvl && (acc.access.InFrame? <==> d.esc in esc)
            && r.0.tr.levels[lvl].locals == s1.tr.levels[lvl].locals + [acc]
            && r.1 == Translate.TrAssign(Translate.TrSimpleVar(acc, lvl), init.expr)
            && (d.ty.None? ==> r.0.venv[0].value.ty == init.ty)
  {
  }

  /** The body `i := 1` where `i` is bound as a `for` index. */
  lemma AssignIndexBody(s: Sem, lvl: Translate.LevelId, esc: set<DeclId>, q: Pos, i: Sym, acc: Translate.TrAccess)
    requires Ok(s, lvl) && Types.Valid(s.store) && Table.Find(s.venv, i) == Some(Env.VarEntry(acc, Types.IntId, true))
    ensures var r := TransExpr(s, lvl, esc, AssignExpr(q, SimpleVar(q, i), NumExpr(q, 1)));
            r.0 == Report(s, [Diag(q, AssignToFor)]) && r.1.ty == Types.VoidId
  {
    Types.BuiltinKinds(s.store);
    var v := ExprTy(Translate.TrSimpleVar(acc, lvl), Types.IntId);
    assert Report(s, []) == s;
    assert TransVar(s, lvl, esc, SimpleVar(q, i)) == (s, v);
    assert TransExpr(s, lvl, esc, NumExpr(q, 1)) == (s, ExprTy(Translate.TrNum(1), Types.IntId));
    assert MatchDiag(s.store, Types.IntId, Types.IntId, q, TypeMismatch) == [];
  }

  /** The part of `for i := 0 to n do i := 1` after its (int) bounds. */
  lemma AssignIndexLoop(s: Sem, lvl: Translate.LevelId, esc: set<DeclId>, e: Expr, q: Pos, n: int)
    requires Ok(s, lvl) && Types.Valid(s.store)
    requires e.ForExpr? && e.body == AssignExpr(q, SimpleVar(q, e.index), NumExpr(q, 1))
    ensures var r := TransForBody(s, lvl, esc, e, ExprTy(Translate.TrNum(0), Types.IntId), ExprTy(Translate.TrNum(n), Types.IntId));
            r.0.errors == s.errors + [Diag(q, AssignToFor)] && r.1.ty == Types.VoidId
  {
    Types.BuiltinKinds(s.store);
    var (tr1, acc) := Translate.AllocLocal(s.tr, lvl, e.esc in esc);
    var s1 := s.(tr := tr1);
    assert Report(s1, []) == s1;
    var s3 := EnterVar(s1, e.index, Env.VarEntry(acc, Types.IntId, true));
    assert Table.Find(s3.venv, e.index) == Some(Env.VarEntry(acc, Types.IntId, true));
    AssignIndexBody(s3, lvl, esc, q, e.index, acc);
    var s4 := TransExpr(s3, lvl, esc, e.body).0;
    assert s4.store == s.store;
  }

  /**
   * `for i := 0 to n do i := 1`: the index is bound as a `for` variable
   * inside the body, so assigning it is reported, and nothing else is.
   */
  lemma AssignToForIndex(s: Sem, lvl: Translate.LevelId, esc: set<DeclId>, p: Pos, q: Pos, i: Sym, n: int, id: DeclId)
    requires Ok(s, lvl) && Types.Valid(s.store)
    ensures var body := AssignExpr(q, SimpleVar(q, i), NumExpr(q, 1));
            var r := TransExpr(s, lvl, esc, ForExpr(p, i, NumExpr(p, 0), NumExpr(p, n), body, id));
            r.0.errors == s.errors + [Diag(q, AssignToFor)] && r.1.ty == Types.VoidId
  {
    var body := AssignExpr(q, SimpleVar(q, i), NumExpr(q, 1));
    var e := ForExpr(p, i, NumExpr(p, 0), NumExpr(p, n), body, id);
    var lo := ExprTy(Translate.TrNum(0), Types.IntId);
    var hi := ExprTy(Translate.TrNum(n), Types.IntId);
    assert TransExpr(s, lvl, esc, NumExpr(p, 0)) == (s, lo);
    assert TransExpr(s, lvl, esc, NumExpr(p, n)) == (s, hi);
    assert TransFor(s, lvl, esc, e) == TransForBody(s, lvl, esc, e, lo, hi);
    AssignIndexLoop(s, lvl, esc, e, q, n);
  }

  /** The placeholder and link steps of a one-member type batch `type a = t`. */
  lemma OneTypeBatch(s: Sem, p: Pos, a: Sym, t: Ty)
    ensures var s2 := EnterPlaceholders(s, [NameType(a, t)]);
            var id := |s.store|;
            && s2.store == s.store + [Types.NameTy(a, None)]
            && s2.tenv == [Table.Binder(a, id)] + s.tenv
            && s2.errors == s.errors
            && Table.Find(s2.tenv, a) == Some(id)
            && LinkTypes(s2, [NameType(a, t)])
               == var (store', u, ds) := TransTy(s2.store, s2.tenv, t);
                  s2.(store := Types.SetLink(store', id, u), errors := s2.errors + ds)
  {
    var nts := [NameType(a, t)];
    var (store', id) := Types.NewName(s.store, a, None);
    var s1 := s.(store := store', tenv := [Table.Binder(a, id)] + s.tenv);
    assert nts[1..] == [];
    assert EnterPlaceholders(s, nts) == s1;
    assert store' == s.store + [Types.NameTy(a, None)];
    var (store'', u, ds) := TransTy(s1.store, s1.tenv, t);
    assert LinkTypes(s1, nts) == LinkTypes(Report(s1.(store := Types.SetLink(store'', id, u)), ds), []);
  }

  /** A one-member batch reports no redefinition. */
  lemma SingleBatchNoRedefinition(n: Named, types: bool)
    ensures RedefinitionDiags([n], types) == []
  {
    RedefinitionsEmpty([n]);
  }

  /**
   * `type a = a`: the placeholder is linked to itself, so `a` resolves to
   * itself and the batch reports it as an infinite type, and nothing else.
   */
  lemma SelfCycleReported(s: Sem, p: Pos, q: Pos, a: Sym)
    ensures TransTypesDecl(s, TypesDecl(p, [NameType(a, NameTy(q, a))])).errors == s.errors + [Diag(p, InfiniteType(a))]
  {
    var nts := [NameType(a, NameTy(q, a))];
    SingleBatchNoRedefinition(Named(a, p), true);
    assert TypeNames(nts, p) == [Named(a, p)];
    var s1 := Report(s, []);
    OneTypeBatch(s1, p, a, NameTy(q, a));
    var id := |s.store|;
    var s2 := EnterPlaceholders(s1, nts);
    var s3 := LinkTypes(s2, nts);
    assert Types.KindOf(s2.store, id) == Types.Name;
    assert s3.store[id] == Types.NameTy(a, Some(id));
    Types.SelfLoopResolvesToSelf(s3.store, id);
    assert CycleDiags(s3.store, s3.tenv, p, nts) == [Diag(p, InfiniteType(a))] + CycleDiags(s3.store, s3.tenv, p, []);
  }

  /**
   * `type list = {hd: int, tl: list}`: the placeholder for `list` is bound
   * before the record is translated, so the field `tl` refers to it, and
   * the batch is accepted: `list` resolves to the new record type.
   */
  lemma RecursiveRecordAccepted(s: Sem, p: Pos, q: Pos, list: Sym, hd: Sym, tl: Sym, intName: Sym, x: DeclId, y: DeclId)
    requires Table.Find(s.tenv, intName) == Some(Types.IntId) && list != intName
    ensures var r := TransTypesDecl(s, TypesDecl(p, [NameType(list, RecordTy(q, [Param(hd, intName, x), Param(tl, list, y)]))]));
            var id := |s.store|;
            && r.errors == s.errors
            && Table.Find(r.tenv, list) == Some(id)
            && Types.KindOf(r.store, Types.Actual(r.store, id)) == Types.Record
            && r.store[Types.Actual(r.store, id)].fields == [Types.Field(hd, Types.IntId), Types.Field(tl, id)]
  {
    var rec := RecordTy(q, [Param(hd, intName, x), Param(tl, list, y)]);
    var nts := [NameType(list, rec)];
    SingleBatchNoRedefinition(Named(list, p), true);
    assert TypeNames(nts, p) == [Named(list, p)];
    var s1 := Report(s, []);
    OneTypeBatch(s1, p, list, rec);
    var id := |s.store|;
    var s2 := EnterPlaceholders(s1, nts);
    assert Table.Find(s2.tenv, intName) == Some(Types.IntId);
    var fields := [Types.Field(hd, Types.IntId), Types.Field(tl, id)];
    var (ft, fds) := FieldTypes(s2.tenv, rec.fields, q);
    assert ft == fields;
    assert fds == [] by {
      assert rec.fields[1..][1..] == [];
      assert FieldTypes(s2.tenv, rec.fields[1..][1..], q) == ([], []);
      assert RawLookup(s2.tenv, intName, q).1 == [] && RawLookup(s2.tenv, list, q).1 == [];
      assert FieldTypes(s2.tenv, rec.fields[1..], q).1 == [];
    }
    var (store', rid) := Types.NewRecord(s2.store, fields);
    assert rid == id + 1;
    var s3 := LinkTypes(s2, nts);
    assert s3.store == Types.SetLink(store', id, rid) && s3.errors == s2.errors;
    assert s3.store[id] == Types.NameTy(list, Some(rid)) && s3.store[rid] == store'[rid];
    assert Types.ActualFrom(s3.store, rid, 1) == Some(rid);
    assert Types.Actual(s3.store, id) == rid;
    assert CycleDiags(s3.store, s3.tenv, p, nts) == [] + CycleDiags(s3.store, s3.tenv, p, []);
  }

  /** The placeholders and links of `type a = b  type b = a`. */
  lemma TwoCycleStore(s: Sem, q: Pos, a: Sym, b: Sym)
    requires a != b
    ensures var nts := [NameType(a, NameTy(q, b)), NameType(b, NameTy(q, a))];
            var r := LinkTypes(EnterPlaceholders(s, nts), nts);
            var ia, ib := |s.store|, |s.store| + 1;
            && r.errors == s.errors
            && Table.Find(r.tenv, a) == Some(ia) && Table.Find(r.tenv, b) == Some(ib)
            && |r.store| == |s.store| + 2
            && r.store[ia] == Types.NameTy(a, Some(ib)) && r.store[ib] == Types.NameTy(b, Some(ia))
  {
    var nts := [NameType(a, NameTy(q, b)), NameType(b, NameTy(q, a))];
    var ia, ib := |s.store|, |s.store| + 1;
    var sa := s.(store := s.store + [Types.NameTy(a, None)], tenv := [Table.Binder(a, ia)] + s.tenv);
    var sb := sa.(store := sa.store + [Types.NameTy(b, None)], tenv := [Table.Binder(b, ib)] + sa.tenv);
    assert nts[1..][1..] == [];
    assert EnterPlaceholders(sb, nts[1..][1..]) == sb;
    assert EnterPlaceholders(sa, nts[1..]) == sb;
    assert EnterPlaceholders(s, nts) == sb;
    assert Table.Find(sb.tenv, a) == Some(ia) && Table.Find(sb.tenv, b) == Some(ib);
    var la := sb.(store := Types.SetLink(sb.store, ia, ib));
    var lb := la.(store := Types.SetLink(la.store, ib, ia));
    assert TransTy(sb.store, sb.tenv, NameTy(q, b)) == (sb.store, ib, []);
    assert TransTy(la.store, la.tenv, NameTy(q, a)) == (la.store, ia, []);
    assert Report(la, []) == la && Report(lb, []) == lb;
    assert LinkTypes(lb, nts[1..][1..]) == lb;
    assert LinkTypes(la, nts[1..]) == lb;
    assert LinkTypes(sb, nts) == lb;
  }

  /**
   * `type a = b  type b = a` in one batch: each placeholder is linked to
   * the other, so both resolve to themselves and both are reported.
   */
  lemma TwoCycleReported(s: Sem, p: Pos, q: Pos, a: Sym, b: Sym)
    requires a != b
    ensures TransTypesDecl(s, TypesDecl(p, [NameType(a, NameTy(q, b)), NameType(b, NameTy(q, a))])).errors
            == s.errors + [Diag(p, InfiniteType(a)), Diag(p, InfiniteType(b))]
  {
    var nts := [NameType(a, NameTy(q, b)), NameType(b, NameTy(q, a))];
    RedefinitionsEmpty(TypeNames(nts, p));
    var s1 := Report(s, []);
    TwoCycleStore(s1, q, a, b);
    var r := LinkTypes(EnterPlaceholders(s1, nts), nts);
    var ia, ib := |s.store|, |s.store| + 1;
    Types.TwoCycleResolvesToSelf(r.store, ia, ib);
    assert nts[1..][1..] == [];
    assert CycleDiags(r.store, r.tenv, p, nts[1..]) == [Diag(p, InfiniteType(b))] + CycleDiags(r.store, r.tenv, p, nts[1..][1..]);
  }

  /**
   * The body loop of `trans_funcs_decl` as written: each body's entry is
   * looked up again by its function's name in the environment as it is
   * when the body is reached. None when that lookup finds no function
   * entry at a level that exists: the source then reads a variable entry's
   * fields as a function entry's.
   */
  function TransBodiesAsWritten(s: Sem, esc: set<DeclId>, fs: seq<FuncDec>): (r: Option<Sem>)
    requires Translate.Valid(s.tr)
    ensures r.Some? ==> Keeps(s, r.value)
    ensures fs != [] && !(Table.Find(s.venv, fs[0].name).Some? && Table.Find(s.venv, fs[0].name).value.FuncEntry?) ==> r.None?
    decreases fs
  {
    if fs == [] then Some(s)
    else
      var found: Option<Env.Entry> := Table.Find(s.venv, fs[0].name);
      match found
      case Some(p) =>
        if p.FuncEntry? && p.level < |s.tr.levels| then TransBodiesAsWritten(BodyStep(s, esc, fs[0], p), esc, fs[1..])
        else None
      case None => None
  }

  /**
   * Prototype `p` was entered for `f` as level `id`, a level that exists in
   * `tr`, with one formal type per parameter.
   */
  ghost predicate ProtoOk(tr: Translate.TrState, f: FuncDec, p: Env.Entry, id: Translate.LevelId)
  {
    p.FuncEntry? && p.level == id && id < |tr.levels| && |p.formals| == |f.params|
  }

  /**
   * `EnterPrototypes` makes one new level per function, in order, and the
   * prototype of each function is a function entry at its own new level:
   * so the body loop's guard always holds and every body is checked.
   */
  lemma {:induction false} PrototypesLive(s: Sem, lvl: Translate.LevelId, esc: set<DeclId>, pos: Pos, fs: seq<FuncDec>)
    requires Ok(s, lvl)
    ensures var (r, protos) := EnterPrototypes(s, lvl, esc, pos, fs);
            && |r.tr.levels| == |s.tr.levels| + |fs|
            && AllProtoOk(r.tr, fs, protos, |s.tr.levels|)
    decreases |fs|
  {
    if fs != [] {
      var (s1, e0) := EnterPrototype(s, lvl, esc, pos, fs[0]);
      var (r, rest) := EnterPrototypes(s1, lvl, esc, pos, fs[1..]);
      PrototypesStep(s, lvl, esc, pos, fs);
      PrototypesLive(s1, lvl, esc, pos, fs[1..]);
      ProtosShift(r.tr, fs, e0, rest, |s.tr.levels|);
    }
  }

  /** Prototype `k` of `protos` is `ProtoOk` for function `k` of `fs` at level `n + k`. */
  ghost predicate AllProtoOk(tr: Translate.TrState, fs: seq<FuncDec>, protos: seq<Env.Entry>, n: nat)
  {
    |protos| == |fs| && forall k :: 0 <= k < |fs| ==> ProtoOk(tr, fs[k], protos[k], n + k)
  }

  /** One step of `EnterPrototypes`: the first prototype, then the rest. */
  lemma PrototypesStep(s: Sem, lvl: Translate.LevelId, esc: set<DeclId>, pos: Pos, fs: seq<FuncDec>)
    requires Ok(s, lvl) && fs != []
    ensures var (s1, e0) := EnterPrototype(s, lvl, esc, pos, fs[0]);
            var (r, rest) := EnterPrototypes(s1, lvl, esc, pos, fs[1..]);
            EnterPrototypes(s, lvl, esc, pos, fs) == (r, [e0] + rest)
  {
  }

  lemma ProtosShift(tr: Translate.TrState, fs: seq<FuncDec>, e0: Env.Entry, rest: seq<Env.Entry>, n: nat)
    requires |fs| >= 1 && ProtoOk(tr, fs[0], e0, n) && AllProtoOk(tr, fs[1..], rest, n + 1)
    ensures AllProtoOk(tr, fs, [e0] + rest, n)
  {
    forall k | 1 <= k < |fs|
      ensures ProtoOk(tr, fs[k], ([e0] + rest)[k], n + k)
    {
      assert fs[k] == fs[1..][k - 1] && ([e0] + rest)[k] == rest[k - 1];
    }
  }

  /** `function f(g: t) = ()  function g() = ()`: a batch whose first parameter is named like its second function. */
  function ShadowBatch(p: Pos, f: Sym, g: Sym, t: Sym, x: DeclId): seq<FuncDec>
  {
    [FuncDec(p, f, [Param(g, t, x)], None, SeqExpr(p, [])), FuncDec(p, g, [], None, SeqExpr(p, []))]
  }

  /** Entering a two-function batch enters the first prototype, then the second. */
  lemma TwoPrototypes(s: Sem, lvl: Translate.LevelId, esc: set<DeclId>, p: Pos, fs: seq<FuncDec>)
    requires Ok(s, lvl) && |fs| == 2
    ensures var (s1, e0) := EnterPrototype(s, lvl, esc, p, fs[0]);
            var (s2, e1) := EnterPrototype(s1, lvl, esc, p, fs[1]);
            EnterPrototypes(s, lvl, esc, p, fs) == (s2, [e0, e1])
  {
    var (s1, e0) := EnterPrototype(s, lvl, esc, p, fs[0]);
    var (s2, e1) := EnterPrototype(s1, lvl, esc, p, fs[1]);
    var t := fs[1..];
    assert t != [] && t[1..] == [] && t[0] == fs[1];
    assert EnterPrototypes(s2, lvl, esc, p, t[1..]) == (s2, []);
    var u := EnterPrototypes(s2, lvl, esc, p, t[1..]);
    assert EnterPrototypes(s1, lvl, esc, p, t) == (u.0, [e1] + u.1);
    assert [e1] + u.1 == [e1];
    var w := EnterPrototypes(s1, lvl, esc, p, t);
    assert fs != [] && EnterPrototypes(s, lvl, esc, p, fs) == (w.0, [e0] + w.1);
    assert [e0] + [e1] == [e0, e1];
  }

  /** The prototypes of `ShadowBatch`: `g` newest, then `f`, each at its own new level. */
  lemma ShadowBatchPrototypes(s: Sem, lvl: Translate.LevelId, esc: set<DeclId>, p: Pos, f: Sym, g: Sym, t: Sym, x: DeclId)
    requires Ok(s, lvl)
    ensures var (r, protos) := EnterPrototypes(s, lvl, esc, p, ShadowBatch(p, f, g, t, x));
            && protos == [protos[0], protos[1]] && ShadowReady(r, f, g, protos[0], protos[1], s.venv)
            && r.store == s.store && |r.tr.levels| == |s.tr.levels| + 2
            && protos[0].level == |s.tr.levels| && protos[1].level == |s.tr.levels| + 1
  {
    var fs := ShadowBatch(p, f, g, t, x);
    TwoPrototypes(s, lvl, esc, p, fs);
    var (s1, e0) := EnterPrototype(s, lvl, esc, p, fs[0]);
    var n := |s.tr.levels|;
    var (s2, e1) := EnterPrototype(s1, lvl, esc, p, fs[1]);
    assert s2.tr.levels[n] == s1.tr.levels[n] by {
      assert s2.tr.levels[..n + 1][n] == s1.tr.levels[n];
    }
    assert fs[0].name == f && fs[1].name == g;
    assert s2.venv == [Table.Binder(g, e1)] + ([Table.Binder(f, e0)] + s.venv);
  }

  /** A body `()` checked against a prototype returning no value only binds the parameters. */
  lemma VoidBodyClean(s: Sem, esc: set<DeclId>, f: FuncDec, e: Env.Entry)
    requires Translate.Valid(s.tr) && e.FuncEntry? && e.level < |s.tr.levels| && e.result == Types.VoidId
    requires f.body == SeqExpr(f.pos, [])
    ensures BodyStep(s, esc, f, e) == s.(venv := BindParams(s.venv, f.params, e.formals, Translate.Formals(s.tr, e.level)[1..]))
  {
    var s1 := s.(venv := BindParams(s.venv, f.params, e.formals, Translate.Formals(s.tr, e.level)[1..]));
    EmptySequence(s1, e.level, esc, f.pos);
    assert MatchDiag(s1.store, Types.VoidId, Types.VoidId, f.pos, FuncBodyType) == [];
    assert Report(s1, []) == s1;
  }

  /** Binding the single parameter of `f(g: t)` puts `g`, a variable, first. */
  lemma BindOneParam(venv: Chain<Env.Entry>, g: Sym, t: Sym, x: DeclId, tys: seq<TypeId>, accs: seq<Translate.TrAccess>)
    requires |tys| == 1 && |accs| == 1
    ensures BindParams(venv, [Param(g, t, x)], tys, accs) == [Table.Binder(g, Env.VarEntry(accs[0], tys[0], false))] + venv
  {
    var ps := [Param(g, t, x)];
    assert ps[1..] == [];
    var v := [Table.Binder(g, Env.VarEntry(accs[0], tys[0], false))] + venv;
    assert BindParams(v, ps[1..], tys[1..], accs[1..]) == v;
  }

  /**
   * What `ShadowBatchPrototypes` leaves for the body loop: `g` newest, then
   * `f`, a prototype of one parameter returning no value at a level with two
   * formals (static link and `g`), and one of no parameter.
   */
  ghost predicate ShadowReady(s2: Sem, f: Sym, g: Sym, e0: Env.Entry, e1: Env.Entry, venv: Chain<Env.Entry>)
  {
    && Translate.Valid(s2.tr) && s2.venv == [Table.Binder(g, e1)] + ([Table.Binder(f, e0)] + venv)
    && e0.FuncEntry? && e0.level < |s2.tr.levels| && |e0.formals| == 1 && e0.result == Types.VoidId
    && |s2.tr.levels[e0.level].formals| == 2
    && e1.FuncEntry? && e1.level < |s2.tr.levels| && e1.formals == [] && e1.result == Types.VoidId
  }

  /** As written, `g`'s body is looked up after `f`'s parameter `g` was bound: no function entry. */
  lemma ShadowAsWritten(s2: Sem, esc: set<DeclId>, p: Pos, f: Sym, g: Sym, t: Sym, x: DeclId, e0: Env.Entry, e1: Env.Entry, venv: Chain<Env.Entry>)
    requires f != g && ShadowReady(s2, f, g, e0, e1, venv)
    ensures TransBodiesAsWritten(s2, esc, ShadowBatch(p, f, g, t, x)).None?
  {
    var fs := ShadowBatch(p, f, g, t, x);
    var accs := Translate.Formals(s2.tr, e0.level)[1..];
    BindOneParam(s2.venv, g, t, x, e0.formals, accs);
    var s3 := s2.(venv := [Table.Binder(g, Env.VarEntry(accs[0], e0.formals[0], false))] + s2.venv);
    VoidBodyClean(s2, esc, fs[0], e0);
    assert Table.Find(s2.venv, f) == Some(e0) by {
      assert s2.venv[1..] == [Table.Binder(f, e0)] + venv;
    }
    assert Table.Find(s3.venv, g).value.VarEntry?;
    assert fs[1..][0].name == g;
  }

  /** Corrected, each body is checked against its own prototype: no error. */
  lemma ShadowCorrected(s2: Sem, esc: set<DeclId>, p: Pos, f: Sym, g: Sym, t: Sym, x: DeclId, e0: Env.Entry, e1: Env.Entry, venv: Chain<Env.Entry>)
    requires ShadowReady(s2, f, g, e0, e1, venv)
    ensures TransBodies(s2, esc, ShadowBatch(p, f, g, t, x), [e0, e1]).errors == s2.errors
  {
    var fs := ShadowBatch(p, f, g, t, x);
    var protos := [e0, e1];
    var accs := Translate.Formals(s2.tr, e0.level)[1..];
    BindOneParam(s2.venv, g, t, x, e0.formals, accs);
    var s3 := s2.(venv := [Table.Binder(g, Env.VarEntry(accs[0], e0.formals[0], false))] + s2.venv);
    VoidBodyClean(s2, esc, fs[0], e0);
    assert BindParams(s3.venv, fs[1].params, e1.formals, Translate.Formals(s3.tr, e1.level)[1..]) == s3.venv;
    VoidBodyClean(s3, esc, fs[1], e1);
    assert fs[1..][0] == fs[1] && protos[1..][0] == e1;
    assert fs[1..][1..] == [] && protos[1..][1..] == [];
    assert TransBodies(s3, esc, fs[1..][1..], protos[1..][1..]) == s3;
  }

  /**
   * Counterexample to the body loop as written: in `function f(g: int) = ()
   * function g() = ()`, checking `f`'s body leaves `f`'s parameter `g` bound
   * in the environment, so the lookup of `g`'s own prototype finds that
   * variable and the source reads it as a function entry. The corrected loop,
   * which keeps the prototypes it entered, checks both bodies with no error.
   */
  lemma ParamShadowsLaterFunction(s: Sem, lvl: Translate.LevelId, esc: set<DeclId>, p: Pos, f: Sym, g: Sym, t: Sym, x: DeclId)
    requires Ok(s, lvl) && f != g
    ensures var fs := ShadowBatch(p, f, g, t, x);
            var (s2, protos) := EnterPrototypes(s, lvl, esc, p, fs);
            && TransBodiesAsWritten(s2, esc, fs).None?
            && TransBodies(s2, esc, fs, protos).errors == s2.errors
  {
    var fs := ShadowBatch(p, f, g, t, x);
    ShadowBatchPrototypes(s, lvl, esc, p, f, g, t, x);
    var (s2, protos) := EnterPrototypes(s, lvl, esc, p, fs);
    ShadowAsWritten(s2, esc, p, f, g, t, x, protos[0], protos[1], s.venv);
    ShadowCorrected(s2, esc, p, f, g, t, x, protos[0], protos[1], s.venv);
  }
}

=== FILE: semantic_rules.dfy ===
/**
 * The node rules of semantic.c: what each `trans_*` function checks once the
 * types of its parts are known, which errors it reports (in order, each at
 * its position) and which type and IR term it yields. The traversal in
 * module Semantic applies these rules; the environments are binder chains,
 * newest first, on which `sym_lookup` is `Table.Find` (symbol tables keep
 * `Table.Inv`).
 */
module SemanticRules {
  import opened Wrappers
  import Table
  import Types
  import Ir
  import Translate
  import Env
  import opened Ast

  type TypeId = Types.TypeId
  type Chain<V> = seq<Table.Binder<V>>

  /** The messages `em_error` is called with, one constructor per format. */
  datatype Msg =
    | UndefinedType(name: Sym)
    | TypeRedefined(name: Sym)
    | FunctionRedefined(name: Sym)
    | InfiniteType(name: Sym)
    | InitializerIncorrect
    | UnknownRecordType
    | VoidInitializer
    | FuncBodyType
    | UndefinedFunction(name: Sym)
    | NotAFunction(name: Sym)
    | WrongArgType(index: nat, name: Sym)
    | ExpectMore
    | ExpectLess
    | IntegerRequired
    | OperandsDiffer
    | ComparisonOperand
    | NotRecordType(name: Sym)
    | WrongFieldType
    | WrongFieldNumber
    | NotArrayType(name: Sym)
    | ArraySizeNotInt
    | CondNotInt
    | ArmsDiffer
    | IfThenValue
    | WhileValue
    | LoNotInt
    | HiNotInt
    | ForValue
    | TypeMismatch
    | AssignToFor
    | UndefinedVariable(name: Sym)
    | NotAVariable(name: Sym)
    | NotRecordVar
    | NoSuchField(name: Sym)
    | NotArrayVar
    | SubscriptNotInt

  /** One `em_error(pos, …)` call. */
  datatype Diag = Diag(pos: Pos, msg: Msg)

  /** `expr_type_t`: the translated term and the type of an expression. */
  datatype ExprTy = ExprTy(expr: Translate.TrExpr, ty: TypeId)

  /** The result `ty_actual` gives is already resolved. */
  predicate Resolved(store: Types.Store, t: TypeId)
  {
    Types.Actual(store, t) == t
  }

  /**
   * `lookup_type`: a bound name yields its resolved type, which has the same
   * actual type as the binding; an unbound one yields None and one
   * "undefined type" error at `pos`.
   */
  function LookupType(store: Types.Store, tenv: Chain<TypeId>, name: Sym, pos: Pos): (r: (Option<TypeId>, seq<Diag>))
    ensures r.0.Some? <==> Table.Find(tenv, name).Some?
    ensures r.0.None? ==> r.1 == [Diag(pos, UndefinedType(name))]
    ensures r.0.Some? ==> (r.1 == [] && Resolved(store, r.0.value)
              && Types.Actual(store, r.0.value) == Types.Actual(store, Table.Find(tenv, name).value))
  {
    match Table.Find(tenv, name)
    case Some(t) =>
      Types.ActualIdempotent(store, t);
      (Some(Types.Actual(store, t)), [])
    case None => (None, [Diag(pos, UndefinedType(name))])
  }

  /** `lookup_type` with the callers' fallback to `int` for an unbound name. */
  function LookupOrInt(store: Types.Store, tenv: Chain<TypeId>, name: Sym, pos: Pos): (r: (TypeId, seq<Diag>))
    ensures Table.Find(tenv, name).None? ==> r == (Types.IntId, [Diag(pos, UndefinedType(name))])
    ensures Table.Find(tenv, name).Some? ==> (r.1 == [] && Resolved(store, r.0)
              && Types.Actual(store, r.0) == Types.Actual(store, Table.Find(tenv, name).value))
  {
    var (t, ds) := LookupType(store, tenv, name, pos);
    (if t.Some? then t.value else Types.IntId, ds)
  }

  /**
   * `formal_type_list`: one type per parameter, in order, each the resolved
   * type of its annotation or `int` when that is unbound; every unbound
   * annotation is reported at `pos`, the position of the declaration.
   */
  function FormalTypes(store: Types.Store, tenv: Chain<TypeId>, ps: seq<Param>, pos: Pos): (r: (seq<TypeId>, seq<Diag>))
    ensures |r.0| == |ps|
    ensures forall k :: 0 <= k < |ps| && Table.Find(tenv, ps[k].ty).None? ==> r.0[k] == Types.IntId
    ensures forall k :: 0 <= k < |ps| && Table.Find(tenv, ps[k].ty).Some? ==>
              Resolved(store, r.0[k]) && Types.Actual(store, r.0[k]) == Types.Actual(store, Table.Find(tenv, ps[k].ty).value)
    ensures forall d :: d in r.1 ==> d.pos == pos && d.msg.UndefinedType?
    ensures r.1 == [] <==> forall k :: 0 <= k < |ps| ==> Table.Find(tenv, ps[k].ty).Some?
    decreases |ps|
  {
    if ps == [] then ([], [])
    else
      var (t, ds) := LookupOrInt(store, tenv, ps[0].ty, pos);
      var (ts, dss) := FormalTypes(store, tenv, ps[1..], pos);
      assert forall k :: 1 <= k < |ps| ==> ps[k] == ps[1..][k - 1];
      ([t] + ts, ds + dss)
  }

  /** A batch member for the redefinition check: its name and where to report it. */
  datatype Named = Named(name: Sym, pos: Pos)

  /** The inner loop of a redefinition check: the later members named `n`. */
  function SameNamed(n: Sym, rest: seq<Named>): (r: seq<Named>)
    ensures forall x :: x in r ==> x in rest && x.name == n
    ensures forall j :: 0 <= j < |rest| && rest[j].name == n ==> rest[j] in r
    ensures |r| <= |rest|
    decreases |rest|
  {
    if rest == [] then []
    else (if rest[0].name == n then [rest[0]] else []) + SameNamed(n, rest[1..])
  }

  /**
   * The nested loops of the redefinition checks of `trans_funcs_decl` and
   * `trans_types_decl`: for every pair `p` before `q` with the same name,
   * `q` is reported, in loop order.
   */
  function Redefinitions(ns: seq<Named>): (r: seq<Named>)
    decreases |ns|
  {
    if |ns| <= 1 then [] else SameNamed(ns[0].name, ns[1..]) + Redefinitions(ns[1..])
  }

  /** Every member named like an earlier one is reported. */
  lemma {:induction false} RedefinitionsComplete(ns: seq<Named>, i: nat, j: nat)
    requires i < j < |ns| && ns[i].name == ns[j].name
    ensures ns[j] in Redefinitions(ns)
    decreases |ns|
  {
    if i == 0 {
      RedefinitionOfFirst(ns, j);
    } else {
      var rest := ns[1..];
      assert rest[i - 1] == ns[i] && rest[j - 1] == ns[j];
      RedefinitionsComplete(rest, i - 1, j - 1);
      RedefinitionsOfRest(ns, ns[j]);
    }
  }

  /** A later member named like the first one is reported by the first pass. */
  lemma RedefinitionOfFirst(ns: seq<Named>, j: nat)
    requires 0 < j < |ns| && ns[0].name == ns[j].name
    ensures ns[j] in Redefinitions(ns)
  {
    var rest := ns[1..];
    assert rest[j - 1] == ns[j];
    assert ns[j] in SameNamed(ns[0].name, rest);
    assert Redefinitions(ns) == SameNamed(ns[0].name, rest) + Redefinitions(rest);
  }

  /** What the later passes report is reported. */
  lemma RedefinitionsOfRest(ns: seq<Named>, x: Named)
    requires |ns| > 0 && x in Redefinitions(ns[1..])
    ensures x in Redefinitions(ns)
  {
    var rest := ns[1..];
    assert Redefinitions(ns) == SameNamed(ns[0].name, rest) + Redefinitions(rest);
  }

  /** Only members named like an earlier one are reported. */
  lemma {:induction false} RedefinitionsSound(ns: seq<Named>, x: Named)
    requires x in Redefinitions(ns)
    ensures exists i, j :: 0 <= i < j < |ns| && ns[i].name == ns[j].name && ns[j] == x
    decreases |ns|
  {
    var rest := ns[1..];
    if x in SameNamed(ns[0].name, rest) {
      var j :| 0 <= j < |rest| && rest[j] == x;
      assert ns[j + 1] == x && ns[0].name == x.name;
    } else {
      RedefinitionsSound(rest, x);
      var i, j :| 0 <= i < j < |rest| && rest[i].name == rest[j].name && rest[j] == x;
      assert ns[i + 1] == rest[i] && ns[j + 1] == rest[j];
    }
  }

  /** A batch passes the redefinition check exactly when its names are distinct. */
  lemma RedefinitionsEmpty(ns: seq<Named>)
    ensures Redefinitions(ns) == [] <==> forall i, j :: 0 <= i < j < |ns| ==> ns[i].name != ns[j].name
  {
    if Redefinitions(ns) != [] {
      RedefinitionsSound(ns, Redefinitions(ns)[0]);
    }
    forall i, j | 0 <= i < j < |ns| && ns[i].name == ns[j].name
      ensures Redefinitions(ns) != []
    {
      RedefinitionsComplete(ns, i, j);
    }
  }

  /**
   * Three members with one name form three pairs, so three reports: every
   * pair counts, not only adjacent ones.
   */
  lemma RedefinitionsThree(n: Sym, p: Pos, q: Pos, s: Pos)
    ensures Redefinitions([Named(n, p), Named(n, q), Named(n, s)]) == [Named(n, q), Named(n, s), Named(n, s)]
  {
    var ns := [Named(n, p), Named(n, q), Named(n, s)];
    assert ns[1..] == [Named(n, q), Named(n, s)];
    assert ns[1..][1..] == [Named(n, s)];
    assert SameNamed(n, [Named(n, s)]) == [Named(n, s)] by {
      assert [Named(n, s)][1..] == [];
    }
    assert SameNamed(n, ns[1..]) == [Named(n, q), Named(n, s)];
    assert Redefinitions(ns[1..][1..]) == [];
    assert Redefinitions(ns[1..]) == [Named(n, s)];
  }

  /** The reports of one redefinition check, with message constructor `types`. */
  function RedefinitionDiags(ns: seq<Named>, types: bool): (r: seq<Diag>)
    ensures |r| == |Redefinitions(ns)|
    ensures forall k :: 0 <= k < |r| ==>
              r[k] == Diag(Redefinitions(ns)[k].pos,
                           if types then TypeRedefined(Redefinitions(ns)[k].name) else FunctionRedefined(Redefinitions(ns)[k].name))
  {
    var rs := Redefinitions(ns);
    seq(|rs|, k requires 0 <= k < |rs| =>
      Diag(rs[k].pos, if types then TypeRedefined(rs[k].name) else FunctionRedefined(rs[k].name)))
  }

  // Operators. semantic.c maps an AST operator to an IR operator by
  // enumerator arithmetic (`op - AST_PLUS + IR_PLUS`, `op - AST_EQ + IR_EQ`,
  // `op - AST_LT + IR_LT`); the enumerators are those of ir.h.

  function BinOpCode(b: Ir.BinOp): nat
  {
    match b
    case Plus => 0 case Minus => 1 case Mul => 2 case Div => 3 case And => 4
    case Or => 5 case Xor => 6 case LShift => 7 case RShift => 8 case ARShift => 9
  }

  function RelOpCode(r: Ir.RelOp): nat
  {
    match r
    case Eq => 0 case Ne => 1 case Lt => 2 case Le => 3 case Gt => 4
    case Ge => 5 case Ult => 6 case Ule => 7 case Ugt => 8 case Uge => 9
  }

  /** The IR binary operator with enumerator value `c`. */
  function BinOpOfCode(c: int): (r: Ir.BinOp)
    requires 0 <= c < 10
    ensures BinOpCode(r) == c
  {
    if c == 0 then Ir.Plus else if c == 1 then Ir.Minus else if c == 2 then Ir.Mul
    else if c == 3 then Ir.Div else if c == 4 then Ir.And else if c == 5 then Ir.Or
    else if c == 6 then Ir.Xor else if c == 7 then Ir.LShift else if c == 8 then Ir.RShift
    else Ir.ARShift
  }

  /** The IR relational operator with enumerator value `c`. */
  function RelOpOfCode(c: int): (r: Ir.RelOp)
    requires 0 <= c < 10
    ensures RelOpCode(r) == c
  {
    if c == 0 then Ir.Eq else if c == 1 then Ir.Ne else if c == 2 then Ir.Lt
    else if c == 3 then Ir.Le else if c == 4 then Ir.Gt else if c == 5 then Ir.Ge
    else if c == 6 then Ir.Ult else if c == 7 then Ir.Ule else if c == 8 then Ir.Ugt
    else Ir.Uge
  }

  predicate IsArith(op: Oper) { op in {Plus, Minus, Times, Divide} }
  predicate IsEquality(op: Oper) { op in {Eq, Neq} }
  predicate IsOrder(op: Oper) { op in {Lt, Le, Gt, Ge} }

  /** `op - AST_PLUS + IR_PLUS`. */
  function ArithOp(op: Oper): Ir.BinOp
    requires IsArith(op)
  {
    BinOpOfCode(OperCode(op) - OperCode(Plus) + BinOpCode(Ir.Plus))
  }

  /** `op - AST_EQ + IR_EQ` and `op - AST_LT + IR_LT`. */
  function RelOp(op: Oper): Ir.RelOp
    requires IsEquality(op) || IsOrder(op)
  {
    if IsEquality(op) then RelOpOfCode(OperCode(op) - OperCode(Eq) + RelOpCode(Ir.Eq))
    else RelOpOfCode(OperCode(op) - OperCode(Lt) + RelOpCode(Ir.Lt))
  }

  /**
   * The enumerator arithmetic maps each operator to the IR operator of the
   * same meaning: the two enums list them in the same order.
   */
  lemma OperatorMapping()
    ensures ArithOp(Plus) == Ir.Plus && ArithOp(Minus) == Ir.Minus
    ensures ArithOp(Times) == Ir.Mul && ArithOp(Divide) == Ir.Div
    ensures RelOp(Eq) == Ir.Eq && RelOp(Neq) == Ir.Ne && RelOp(Lt) == Ir.Lt
    ensures RelOp(Le) == Ir.Le && RelOp(Gt) == Ir.Gt && RelOp(Ge) == Ir.Ge
  {
  }

  /** An error at `pos` unless the type has kind `k`. */
  function KindDiag(store: Types.Store, t: TypeId, k: Types.Kind, pos: Pos, m: Msg): (r: seq<Diag>)
    ensures r == [] <==> Types.KindOf(store, t) == k
    ensures r != [] ==> r == [Diag(pos, m)]
  {
    if Types.KindOf(store, t) == k then [] else [Diag(pos, m)]
  }

  /** An error at `pos` unless the two types match. */
  function MatchDiag(store: Types.Store, a: TypeId, b: TypeId, pos: Pos, m: Msg): (r: seq<Diag>)
    ensures r == [] <==> Types.Match(store, a, b)
    ensures r != [] ==> r == [Diag(pos, m)]
  {
    if Types.Match(store, a, b) then [] else [Diag(pos, m)]
  }

  /**
   * `+ - * /`: each operand whose type is not of kind int is reported at its
   * own position, the left one first; the result is an int operation.
   */
  function ArithRule(store: Types.Store, op: Oper, lpos: Pos, l: ExprTy, rpos: Pos, r: ExprTy): (o: (seq<Diag>, ExprTy))
    requires IsArith(op)
    ensures o.1 == ExprTy(Translate.TrOp(ArithOp(op), l.expr, r.expr), Types.IntId)
    ensures o.0 == [] <==> Types.KindOf(store, l.ty) == Types.Int && Types.KindOf(store, r.ty) == Types.Int
    ensures forall d :: d in o.0 ==> d.msg == IntegerRequired && (d.pos == lpos || d.pos == rpos)
    ensures Types.KindOf(store, l.ty) != Types.Int ==> o.0[0] == Diag(lpos, IntegerRequired)
    ensures Types.KindOf(store, r.ty) != Types.Int ==> o.0[|o.0| - 1] == Diag(rpos, IntegerRequired)
    ensures |o.0| <= 2
  {
    (KindDiag(store, l.ty, Types.Int, lpos, IntegerRequired) + KindDiag(store, r.ty, Types.Int, rpos, IntegerRequired),
     ExprTy(Translate.TrOp(ArithOp(op), l.expr, r.expr), Types.IntId))
  }

  /**
   * `= <>`: operands that do not match are reported and give no term;
   * matching string operands compare as strings, others as values. The type
   * is int either way.
   */
  function EqualityRule(store: Types.Store, op: Oper, pos: Pos, l: ExprTy, r: ExprTy): (o: (seq<Diag>, ExprTy))
    requires IsEquality(op)
    ensures o.1.ty == Types.IntId
    ensures o.0 == [] <==> Types.Match(store, l.ty, r.ty)
    ensures o.0 != [] ==> o.0 == [Diag(pos, OperandsDiffer)] && o.1.expr == Translate.TrNone
    ensures o.0 == [] ==> o.1.expr.TrStringRel? == (Types.KindOf(store, l.ty) == Types.String)
    ensures o.0 == [] ==> ((o.1.expr.TrStringRel? || o.1.expr.TrRel?)
              && o.1.expr.rel == RelOp(op) && o.1.expr.left == l.expr && o.1.expr.right == r.expr)
  {
    if !Types.Match(store, l.ty, r.ty) then ([Diag(pos, OperandsDiffer)], ExprTy(Translate.TrNone, Types.IntId))
    else if Types.KindOf(store, l.ty) == Types.String then
      ([], ExprTy(Translate.TrStringRel(RelOp(op), l.expr, r.expr), Types.IntId))
    else ([], ExprTy(Translate.TrRel(RelOp(op), l.expr, r.expr), Types.IntId))
  }

  /** The errors of `< <= > >=`: a mismatch, then a left operand that is neither int nor string. */
  function OrderDiags(store: Types.Store, pos: Pos, l: ExprTy, r: ExprTy): (o: seq<Diag>)
    ensures o == [] <==> Types.Match(store, l.ty, r.ty) && Types.KindOf(store, l.ty) in {Types.Int, Types.String}
    ensures Diag(pos, OperandsDiffer) in o <==> !Types.Match(store, l.ty, r.ty)
    ensures Diag(pos, ComparisonOperand) in o <==> Types.KindOf(store, l.ty) !in {Types.Int, Types.String}
    ensures |o| <= 2
  {
    MatchDiag(store, l.ty, r.ty, pos, OperandsDiffer)
    + (if Types.KindOf(store, l.ty) != Types.Int && Types.KindOf(store, l.ty) != Types.String
       then [Diag(pos, ComparisonOperand)] else [])
  }

  /** The term of `< <= > >=`: a string comparison when the left operand is a string. */
  function OrderTerm(store: Types.Store, op: Oper, l: ExprTy, r: ExprTy): (t: Translate.TrExpr)
    requires IsOrder(op)
    ensures (t.TrStringRel? || t.TrRel?) && t.rel == RelOp(op) && t.left == l.expr && t.right == r.expr
    ensures t.TrStringRel? <==> Types.KindOf(store, l.ty) == Types.String
  {
    if Types.KindOf(store, l.ty) == Types.String then Translate.TrStringRel(RelOp(op), l.expr, r.expr)
    else Translate.TrRel(RelOp(op), l.expr, r.expr)
  }

  /**
   * `< <= > >=` as written: the result has the LEFT operand's type, so
   * comparing two strings yields a string.
   */
  function OrderRuleAsWritten(store: Types.Store, op: Oper, pos: Pos, l: ExprTy, r: ExprTy): (o: (seq<Diag>, ExprTy))
    requires IsOrder(op)
    ensures o.0 == OrderDiags(store, pos, l, r) && o.1.expr == OrderTerm(store, op, l, r)
    ensures o.1.ty == l.ty
  {
    (OrderDiags(store, pos, l, r), ExprTy(OrderTerm(store, op, l, r), l.ty))
  }

  /**
   * `< <= > >=` corrected: a comparison is an int, like `= <>`, whatever the
   * operands' type. The rest of the model uses this rule.
   */
  function OrderRule(store: Types.Store, op: Oper, pos: Pos, l: ExprTy, r: ExprTy): (o: (seq<Diag>, ExprTy))
    requires IsOrder(op)
    ensures o.0 == OrderDiags(store, pos, l, r) && o.1.expr == OrderTerm(store, op, l, r)
    ensures o.1.ty == Types.IntId
  {
    (OrderDiags(store, pos, l, r), ExprTy(OrderTerm(store, op, l, r), Types.IntId))
  }

  /**
   * Accepted string comparisons are typed string as written, so such a
   * comparison cannot be an `if` condition; corrected, it is an int.
   */
  lemma StringComparisonType(store: Types.Store, op: Oper, pos: Pos, l: ExprTy, r: ExprTy)
    requires Types.Valid(store) && IsOrder(op) && l.ty == Types.StringId && r.ty == Types.StringId
    ensures OrderRuleAsWritten(store, op, pos, l, r).0 == []
    ensures Types.KindOf(store, OrderRuleAsWritten(store, op, pos, l, r).1.ty) == Types.String
    ensures KindDiag(store, OrderRuleAsWritten(store, op, pos, l, r).1.ty, Types.Int, pos, CondNotInt) == [Diag(pos, CondNotInt)]
    ensures OrderRule(store, op, pos, l, r).0 == []
    ensures KindDiag(store, OrderRule(store, op, pos, l, r).1.ty, Types.Int, pos, CondNotInt) == []
  {
    assert store[..4] == Types.InitStore();
    assert store[Types.StringId] == Types.StringTy && store[Types.IntId] == Types.IntTy;
  }

  /** The rule of `trans_op_expr` for each operator. */
  function OpRule(store: Types.Store, op: Oper, pos: Pos, lpos: Pos, l: ExprTy, rpos: Pos, r: ExprTy): (o: (seq<Diag>, ExprTy))
    ensures IsArith(op) ==> o == ArithRule(store, op, lpos, l, rpos, r)
    ensures IsEquality(op) ==> o == EqualityRule(store, op, pos, l, r)
    ensures IsOrder(op) ==> o == OrderRule(store, op, pos, l, r)
  {
    match op
    case Plus => ArithRule(store, op, lpos, l, rpos, r)
    case Minus => ArithRule(store, op, lpos, l, rpos, r)
    case Times => ArithRule(store, op, lpos, l, rpos, r)
    case Divide => ArithRule(store, op, lpos, l, rpos, r)
    case Eq => EqualityRule(store, op, pos, l, r)
    case Neq => EqualityRule(store, op, pos, l, r)
    case _ => OrderRule(store, op, pos, l, r)
  }

  /** The arity check after the pairwise loop of `trans_call_expr`. */
  function ArityDiags(pos: Pos, formals: nat, args: nat): (r: seq<Diag>)
    ensures r == [] <==> formals == args
    ensures formals > args ==> r == [Diag(pos, ExpectMore)]
    ensures formals < args ==> r == [Diag(pos, ExpectLess)]
  {
    if formals > args then [Diag(pos, ExpectMore)]
    else if args > formals then [Diag(pos, ExpectLess)]
    else []
  }

  /**
   * The fields a record literal is checked against: the record's fields,
   * or none for a type of another kind (the built-ins' union is zero; an
   * array's would be read as a field list, which C leaves undefined).
   */
  function RecordFields(store: Types.Store, t: TypeId): (r: seq<Types.Field>)
    ensures Types.KindOf(store, t) == Types.Record ==> r == store[t].fields
    ensures Types.KindOf(store, t) != Types.Record ==> r == []
  {
    if Types.KindOf(store, t) == Types.Record then store[t].fields else []
  }

  /** The element type of an array type, read only when the type is an array. */
  function ElemOf(store: Types.Store, t: TypeId): TypeId
    requires Types.KindOf(store, t) == Types.Array
  {
    store[t].elem
  }

  /**
   * The initializer check of `trans_array_expr` as written: it reads the
   * type's element even when the type is not an array. For the built-ins
   * that element is NULL and `ty_match` fails the assertion of `ty_actual`;
   * for other kinds it reads another union member. Both are None here.
   */
  function ArrayInitAsWritten(store: Types.Store, t: TypeId, init: TypeId): (r: Option<bool>)
    ensures r.Some? <==> Types.KindOf(store, t) == Types.Array
    ensures r.Some? ==> (r.value <==> Types.Match(store, ElemOf(store, t), init))
  {
    if Types.KindOf(store, t) == Types.Array then Some(Types.Match(store, ElemOf(store, t), init)) else None
  }

  /** `int [3] of 0`: the element of `int` is NULL, so the check aborts. */
  lemma ArrayOfIntAborts(store: Types.Store)
    requires Types.Valid(store)
    ensures ArrayInitAsWritten(store, Types.IntId, Types.IntId).None?
  {
    assert store[..4] == Types.InitStore();
    assert store[Types.IntId] == Types.IntTy;
  }

  /**
   * The checks of `trans_array_expr` for a defined type, corrected: a type
   * that is not an array is reported and its element is not consulted.
   * Otherwise the size must be an int and the initializer match the
   * element. The rest of the model uses this rule.
   */
  function ArrayRule(store: Types.Store, pos: Pos, name: Sym, t: TypeId, size: ExprTy, init: ExprTy): (o: (seq<Diag>, ExprTy))
    ensures o.1 == ExprTy(Translate.TrArray(size.expr, init.expr), t)
    ensures o.0 == [] <==> Types.KindOf(store, t) == Types.Array && Types.KindOf(store, size.ty) == Types.Int
                           && Types.Match(store, ElemOf(store, t), init.ty)
    ensures Diag(pos, NotArrayType(name)) in o.0 <==> Types.KindOf(store, t) != Types.Array
    ensures Diag(pos, ArraySizeNotInt) in o.0 <==> Types.KindOf(store, size.ty) != Types.Int
    ensures |o.0| <= 3
  {
    var d1 := KindDiag(store, t, Types.Array, pos, NotArrayType(name));
    var d2 := KindDiag(store, size.ty, Types.Int, pos, ArraySizeNotInt);
    var d3 := if Types.KindOf(store, t) == Types.Array then MatchDiag(store, ElemOf(store, t), init.ty, pos, InitializerIncorrect) else [];
    (d1 + d2 + d3, ExprTy(Translate.TrArray(size.expr, init.expr), t))
  }

  /** Where the as-written check is defined, the corrected rule reports the same mismatch. */
  lemma ArrayRuleAgrees(store: Types.Store, pos: Pos, name: Sym, t: TypeId, size: ExprTy, init: ExprTy)
    requires ArrayInitAsWritten(store, t, init.ty).Some?
    ensures (Diag(pos, InitializerIncorrect) in ArrayRule(store, pos, name, t, size, init).0)
            == !ArrayInitAsWritten(store, t, init.ty).value
  {
  }

  /**
   * The arms of `trans_if_expr`: with an else arm the arms must match and
   * the then arm's type is the result; without one the then arm must be
   * void and so is the result.
   */
  function IfArmsRule(store: Types.Store, pos: Pos, cond: ExprTy, thn: ExprTy, els: Option<ExprTy>): (o: (seq<Diag>, ExprTy))
    ensures els.Some? ==> o.1 == ExprTy(Translate.TrIf(cond.expr, thn.expr, els.value.expr), thn.ty)
    ensures els.Some? ==> (o.0 == [] <==> Types.Match(store, thn.ty, els.value.ty))
    ensures els.None? ==> o.1 == ExprTy(Translate.TrIf(cond.expr, thn.expr, Translate.TrNone), Types.VoidId)
    ensures els.None? ==> (o.0 == [] <==> Types.KindOf(store, thn.ty) == Types.Void)
    ensures o.0 == [] || o.0 == [Diag(pos, if els.Some? then ArmsDiffer else IfThenValue)]
  {
    match els
    case Some(e) =>
      (MatchDiag(store, thn.ty, e.ty, pos, ArmsDiffer), ExprTy(Translate.TrIf(cond.expr, thn.expr, e.expr), thn.ty))
    case None =>
      (KindDiag(store, thn.ty, Types.Void, pos, IfThenValue), ExprTy(Translate.TrIf(cond.expr, thn.expr, Translate.TrNone), Types.VoidId))
  }

  /** `trans_while_expr`: an int condition and a void body; the loop is void. */
  function WhileRule(store: Types.Store, pos: Pos, cond: ExprTy, body: ExprTy): (o: (seq<Diag>, ExprTy))
    ensures o.1 == ExprTy(Translate.TrWhile(cond.expr, body.expr), Types.VoidId)
    ensures o.0 == [] <==> Types.KindOf(store, cond.ty) == Types.Int && Types.KindOf(store, body.ty) == Types.Void
    ensures Diag(pos, CondNotInt) in o.0 <==> Types.KindOf(store, cond.ty) != Types.Int
    ensures Diag(pos, WhileValue) in o.0 <==> Types.KindOf(store, body.ty) != Types.Void
  {
    (KindDiag(store, cond.ty, Types.Int, pos, CondNotInt) + KindDiag(store, body.ty, Types.Void, pos, WhileValue),
     ExprTy(Translate.TrWhile(cond.expr, body.expr), Types.VoidId))
  }

  /** The bound checks of `trans_for_expr`, `lo` before `hi`. */
  function ForBoundsDiags(store: Types.Store, pos: Pos, lo: ExprTy, hi: ExprTy): (o: seq<Diag>)
    ensures o == [] <==> Types.KindOf(store, lo.ty) == Types.Int && Types.KindOf(store, hi.ty) == Types.Int
    ensures Diag(pos, LoNotInt) in o <==> Types.KindOf(store, lo.ty) != Types.Int
    ensures Diag(pos, HiNotInt) in o <==> Types.KindOf(store, hi.ty) != Types.Int
  {
    KindDiag(store, lo.ty, Types.Int, pos, LoNotInt) + KindDiag(store, hi.ty, Types.Int, pos, HiNotInt)
  }

  /**
   * The checks of `trans_var_decl` once the initializer is typed.
   * `declared` is the annotation's type after the fallback to int, if there
   * is an annotation. Returns the errors and the type the variable is
   * bound at: the annotation's when there is one (so a nil initializer
   * binds the record type), else the initializer's.
   */
  function VarDeclRule(store: Types.Store, pos: Pos, declared: Option<TypeId>, init: TypeId): (o: (seq<Diag>, TypeId))
    ensures declared.Some? ==> o.1 == declared.value && (o.0 == [] <==> Types.Match(store, declared.value, init))
    ensures declared.None? ==> (o.1 == init
              && (o.0 == [] <==> Types.KindOf(store, init) != Types.Nil && Types.KindOf(store, init) != Types.Void))
    ensures declared.None? && Types.KindOf(store, init) == Types.Nil ==> o.0 == [Diag(pos, UnknownRecordType)]
    ensures declared.None? && Types.KindOf(store, init) == Types.Void ==> o.0 == [Diag(pos, VoidInitializer)]
    ensures |o.0| <= 1
  {
    match declared
    case Some(t) => (MatchDiag(store, t, init, pos, InitializerIncorrect), t)
    case None =>
      if Types.KindOf(store, init) == Types.Nil then ([Diag(pos, UnknownRecordType)], init)
      else if Types.KindOf(store, init) == Types.Void then ([Diag(pos, VoidInitializer)], init)
      else ([], init)
  }

  /**
   * The checks of `trans_assign_expr`: the sides must match, and a simple
   * variable of kind int whose current binding is a `for` index may not be
   * assigned. The binding is looked up in `venv` as it is after both sides
   * were translated.
   */
  function AssignRule(store: Types.Store, venv: Chain<Env.Entry>, pos: Pos, target: Var, v: ExprTy, e: ExprTy): (o: (seq<Diag>, ExprTy))
    ensures o.1 == ExprTy(Translate.TrAssign(v.expr, e.expr), Types.VoidId)
    ensures Diag(pos, TypeMismatch) in o.0 <==> !Types.Match(store, v.ty, e.ty)
    ensures Diag(pos, AssignToFor) in o.0 <==>
              target.SimpleVar? && Types.KindOf(store, v.ty) == Types.Int
              && var found := Table.Find(venv, target.name); found.Some? && found.value.VarEntry? && found.value.isFor
    ensures forall d :: d in o.0 ==> d.msg in {TypeMismatch, AssignToFor}
  {
    var forIndex := target.SimpleVar? && Types.KindOf(store, v.ty) == Types.Int
                    && var found := Table.Find(venv, target.name); found.Some? && found.value.VarEntry? && found.value.isFor;
    (MatchDiag(store, v.ty, e.ty, pos, TypeMismatch) + (if forIndex then [Diag(pos, AssignToFor)] else []),
     ExprTy(Translate.TrAssign(v.expr, e.expr), Types.VoidId))
  }

  /**
   * `trans_simple_var`: a variable binding yields its access at the current
   * level and its resolved type; no binding, or a function binding, is one
   * error and an int zero.
   */
  function SimpleVarRule(store: Types.Store, lvl: Translate.LevelId, pos: Pos, name: Sym, found: Option<Env.Entry>): (o: (seq<Diag>, ExprTy))
    ensures o.0 == [] <==> found.Some? && found.value.VarEntry?
    ensures found.None? ==> o == ([Diag(pos, UndefinedVariable(name))], ExprTy(Translate.TrNum(0), Types.IntId))
    ensures found.Some? && found.value.FuncEntry? ==> o == ([Diag(pos, NotAVariable(name))], ExprTy(Translate.TrNum(0), Types.IntId))
    ensures found.Some? && found.value.VarEntry? ==>
              o.1.expr == Translate.TrSimpleVar(found.value.access, lvl) && Resolved(store, o.1.ty)
              && Types.Actual(store, o.1.ty) == Types.Actual(store, found.value.ty)
  {
    match found
    case None => ([Diag(pos, UndefinedVariable(name))], ExprTy(Translate.TrNum(0), Types.IntId))
    case Some(FuncEntry(_, _, _, _)) => ([Diag(pos, NotAVariable(name))], ExprTy(Translate.TrNum(0), Types.IntId))
    case Some(VarEntry(acc, t, _)) =>
      Types.ActualIdempotent(store, t);
      ([], ExprTy(Translate.TrSimpleVar(acc, lvl), Types.Actual(store, t)))
  }

  /** The position of the first field named `name`, if any. */
  function FieldIndex(fields: seq<Types.Field>, name: Sym): (r: Option<nat>)
    ensures r.Some? ==> r.value < |fields| && fields[r.value].name == name
                        && forall k :: 0 <= k < r.value ==> fields[k].name != name
    ensures r.None? ==> forall k :: 0 <= k < |fields| ==> fields[k].name != name
    decreases |fields|
  {
    if fields == [] then None
    else if fields[0].name == name then Some(0)
    else match FieldIndex(fields[1..], name)
      case Some(i) => Some(i + 1)
      case None => None
  }

  /**
   * `trans_field_var`: the base must be a record; the first field of that
   * name gives the field's index and resolved type. Otherwise one error and
   * an int zero.
   */
  function FieldVarRule(store: Types.Store, pos: Pos, base: ExprTy, field: Sym): (o: (seq<Diag>, ExprTy))
    ensures Types.KindOf(store, base.ty) != Types.Record ==> o == ([Diag(pos, NotRecordVar)], ExprTy(Translate.TrNum(0), Types.IntId))
    ensures o.0 == [] <==> Types.KindOf(store, base.ty) == Types.Record
                           && exists k :: 0 <= k < |RecordFields(store, base.ty)| && RecordFields(store, base.ty)[k].name == field
    ensures Types.KindOf(store, base.ty) == Types.Record && o.0 != [] ==>
              o == ([Diag(pos, NoSuchField(field))], ExprTy(Translate.TrNum(0), Types.IntId))
    ensures o.0 == [] ==> var fs := RecordFields(store, base.ty);
              o.1.expr.TrFieldVar? && o.1.expr.rec == base.expr && o.1.expr.index < |fs|
              && fs[o.1.expr.index].name == field
              && (forall k :: 0 <= k < o.1.expr.index ==> fs[k].name != field)
              && Resolved(store, o.1.ty) && Types.Actual(store, o.1.ty) == Types.Actual(store, fs[o.1.expr.index].ty)
  {
    if Types.KindOf(store, base.ty) != Types.Record then ([Diag(pos, NotRecordVar)], ExprTy(Translate.TrNum(0), Types.IntId))
    else
      var fs := RecordFields(store, base.ty);
      match FieldIndex(fs, field)
      case Some(i) =>
        Types.ActualIdempotent(store, fs[i].ty);
        ([], ExprTy(Translate.TrFieldVar(base.expr, i), Types.Actual(store, fs[i].ty)))
      case None => ([Diag(pos, NoSuchField(field))], ExprTy(Translate.TrNum(0), Types.IntId))
  }

  /**
   * `trans_sub_var`: the base must be an array, whose resolved element type
   * is the result; the subscript must be an int. No term is built.
   */
  function SubVarRule(store: Types.Store, pos: Pos, base: ExprTy, sub: ExprTy): (o: (seq<Diag>, ExprTy))
    ensures o.1.expr == Translate.TrNone
    ensures Types.KindOf(store, base.ty) != Types.Array ==> o == ([Diag(pos, NotArrayVar)], ExprTy(Translate.TrNone, Types.IntId))
    ensures o.0 == [] <==> Types.KindOf(store, base.ty) == Types.Array && Types.KindOf(store, sub.ty) == Types.Int
    ensures Types.KindOf(store, base.ty) == Types.Array ==>
              Resolved(store, o.1.ty) && Types.Actual(store, o.1.ty) == Types.Actual(store, ElemOf(store, base.ty))
              && (o.0 == [] || o.0 == [Diag(pos, SubscriptNotInt)])
  {
    if Types.KindOf(store, base.ty) != Types.Array then ([Diag(pos, NotArrayVar)], ExprTy(Translate.TrNone, Types.IntId))
    else
      Types.ActualIdempotent(store, ElemOf(store, base.ty));
      (KindDiag(store, sub.ty, Types.Int, pos, SubscriptNotInt),
       ExprTy(Translate.TrNone, Types.Actual(store, ElemOf(store, base.ty))))
  }
}

=== FILE: symbol.dfy ===
/**
 * symbol.c: string interning and symbol-keyed tables.
 *
 * A symbol is identified by its allocation index (`SymId`); two symbols are
 * the same pointer exactly when their ids are equal. The interning table is
 * 109 bucket chains (symbol.c redefines HT_SIZE), each newest first, keyed by
 * the multiplicative string hash. Symbol-keyed tables are `Table`s with 109
 * buckets whose keys are symbol ids.
 */
module Symbol {
  import opened Wrappers
  import Table

  /** symbol.c's HT_SIZE. */
  const SymSize: nat := 109
  /** `unsigned int` arithmetic wraps modulo 2^32. */
  const HashMod: nat := 0x1_0000_0000
  const HashMul: nat := 65599

  type SymId = nat

  /**
   * One character of a C string read as a plain (signed) `char`: a Dafny
   * character stands for one byte, taken modulo 256.
   */
  function SignedChar(c: char): (r: int)
    ensures -128 <= r < 128
  {
    var b := c as int % 256;
    if b >= 128 then b - 256 else b
  }

  /** The loop of `hash`, continued from the running value `h`. */
  function HashFrom(h: nat, s: string): (r: nat)
    requires h < HashMod
    ensures r < HashMod
    decreases |s|
  {
    if s == [] then h
    else HashFrom((HashMul * h + SignedChar(s[0])) % HashMod, s[1..])
  }

  /** `hash`: a 32-bit unsigned value. */
  function Hash(s: string): (r: nat)
    ensures r < HashMod
  {
    HashFrom(0, s)
  }

  lemma {:induction false} HashFromSnoc(h: nat, s: string, c: char)
    requires h < HashMod
    ensures HashFrom(h, s + [c]) == (HashMul * HashFrom(h, s) + SignedChar(c)) % HashMod
    decreases |s|
  {
    if s == [] {
      assert ([] + [c])[1..] == [];
    } else {
      assert (s + [c])[0] == s[0];
      assert (s + [c])[1..] == s[1..] + [c];
      HashFromSnoc((HashMul * h + SignedChar(s[0])) % HashMod, s[1..], c);
    }
  }

  /**
   * The hash of a string is built one character at a time from the left:
   * `h = 65599 * h + c` with unsigned wrap-around, starting from 0.
   */
  lemma HashStep(s: string, c: char)
    ensures Hash([]) == 0
    ensures Hash(s + [c]) == (HashMul * Hash(s) + SignedChar(c)) % HashMod
  {
    HashFromSnoc(0, s, c);
  }

  /** The interning state: bucket chains of symbol ids, and each id's name. */
  datatype Interner = Interner(buckets: seq<seq<SymId>>, names: seq<string>)

  /**
   * Every chained id names a string hashing to its bucket, every interned
   * string is chained in its bucket, and no string is interned twice.
   */
  ghost predicate Valid(st: Interner)
  {
    && |st.buckets| == SymSize
    && (forall i, j :: 0 <= i < SymSize && 0 <= j < |st.buckets[i]| ==>
          st.buckets[i][j] < |st.names| && Hash(st.names[st.buckets[i][j]]) % SymSize == i)
    && (forall id :: 0 <= id < |st.names| ==> id in st.buckets[Hash(st.names[id]) % SymSize])
    && (forall a, b :: 0 <= a < b < |st.names| ==> st.names[a] != st.names[b])
  }

  /** The interning table before any `symbol` call. */
  function InitInterner(): (st: Interner)
    ensures Valid(st) && st.names == []
  {
    Interner(seq(SymSize, _ => []), [])
  }

  /** The `strcmp` scan of one bucket chain. */
  function Search(names: seq<string>, chain: seq<SymId>, s: string): (r: Option<SymId>)
    requires forall j :: 0 <= j < |chain| ==> chain[j] < |names|
    ensures r.Some? ==> r.value in chain && names[r.value] == s
    ensures r.None? ==> forall j :: 0 <= j < |chain| ==> names[chain[j]] != s
  {
    if chain == [] then None
    else if names[chain[0]] == s then Some(chain[0])
    else Search(names, chain[1..], s)
  }

  /**
   * `symbol`: the symbol already interned for `s`, or a new one chained in
   * front of its bucket. The name of the result is `s`; interning a known
   * string changes nothing; a new string only appends a name.
   */
  function Intern(st: Interner, s: string): (r: (Interner, SymId))
    requires Valid(st)
    ensures Valid(r.0)
    ensures r.1 < |r.0.names| && r.0.names[r.1] == s
    ensures |st.names| <= |r.0.names| && r.0.names[..|st.names|] == st.names
    ensures s in st.names ==> r.0 == st
    ensures s !in st.names ==> r.0.names == st.names + [s] && r.1 == |st.names|
  {
    var i := Hash(s) % SymSize;
    match Search(st.names, st.buckets[i], s)
    case Some(id) => (st, id)
    case None =>
      assert s !in st.names;
      var id := |st.names|;
      var st' := Interner(st.buckets[i := [id] + st.buckets[i]], st.names + [s]);
      InternNewValid(st, s);
      assert st'.names[..|st.names|] == st.names;
      (st', id)
  }

  /** Chaining a new string's symbol in front of its bucket keeps the table valid. */
  lemma InternNewValid(st: Interner, s: string)
    requires Valid(st) && s !in st.names
    ensures var i := Hash(s) % SymSize;
            Valid(Interner(st.buckets[i := [|st.names|] + st.buckets[i]], st.names + [s]))
  {
    var i := Hash(s) % SymSize;
    var id := |st.names|;
    var names := st.names + [s];
    var buckets := st.buckets[i := [id] + st.buckets[i]];
    assert forall k :: 0 <= k < id ==> names[k] == st.names[k];
    forall b, j | 0 <= b < SymSize && 0 <= j < |buckets[b]|
      ensures buckets[b][j] < |names| && Hash(names[buckets[b][j]]) % SymSize == b
    {
      if b == i && j == 0 {
        assert buckets[b][j] == id && names[id] == s;
      } else if b == i {
        assert buckets[b][j] == st.buckets[i][j - 1];
      } else {
        assert buckets[b][j] == st.buckets[b][j];
      }
    }
    forall k | 0 <= k < |names| ensures k in buckets[Hash(names[k]) % SymSize] {
      if k == id {
        assert buckets[i][0] == id;
      } else {
        var b := Hash(st.names[k]) % SymSize;
        assert k in st.buckets[b];
        if b == i {
          assert buckets[b] == [id] + st.buckets[b];
        }
      }
    }
    forall a, b | 0 <= a < b < |names| ensures names[a] != names[b] {
      if b == id {
        assert names[a] == st.names[a] && st.names[a] in st.names;
      }
    }
  }

  /**
   * `sym_name`: the string a symbol was interned from. Interning that string
   * again gives the same symbol and leaves the table alone.
   */
  function SymName(st: Interner, sym: SymId): (r: string)
    requires sym < |st.names|
    ensures Valid(st) ==> Intern(st, r) == (st, sym)
  {
    var r := st.names[sym];
    assert Valid(st) ==> Intern(st, r) == (st, sym) by {
      if Valid(st) {
        assert r in st.names;
        NameUnique(st, Intern(st, r).1, sym);
      }
    }
    r
  }

  /** Interning the same string again returns the same symbol and state. */
  lemma InternIdempotent(st: Interner, s: string)
    requires Valid(st)
    ensures Intern(Intern(st, s).0, s) == Intern(st, s)
  {
    var (st1, id) := Intern(st, s);
    assert s in st1.names by { assert st1.names[id] == s; }
    var (st2, id2) := Intern(st1, s);
    assert st1.names[id2] == s;
  }

  /** In a valid table a name belongs to one symbol only. */
  lemma NameUnique(st: Interner, a: SymId, b: SymId)
    requires Valid(st) && a < |st.names| && b < |st.names| && st.names[a] == st.names[b]
    ensures a == b
  {
  }

  /** Distinct strings, interned one after the other, get distinct symbols. */
  lemma InternDistinct(st: Interner, s: string, t: string)
    requires Valid(st) && s != t
    ensures Intern(Intern(st, s).0, t).1 != Intern(st, s).1
  {
    var (st1, a) := Intern(st, s);
    var (st2, b) := Intern(st1, t);
    assert st2.names[a] == st1.names[a] == s;
  }

  /** `sym_empty`: a symbol-keyed table with no bindings. */
  function SymEmpty<V>(): (t: Table.Table<V>)
    ensures Table.Inv(t) && t.size == SymSize && t.stack == []
    ensures forall k :: Table.Lookup(t, k) == None
  {
    Table.EmptyOf(SymSize)
  }

  /**
   * `sym_enter`: a new binder in front of the symbol's bucket. The symbol now
   * looks up to `value`; every other symbol keeps its result. symbol.c keeps
   * no binder stack, only the last symbol entered; the `stack` clause
   * describes the `Table` representation used for it.
   */
  function SymEnter<V>(t: Table.Table<V>, sym: SymId, value: V): (r: Table.Table<V>)
    requires Table.Valid(t)
    ensures Table.Valid(r) && r.size == t.size
    ensures Table.Lookup(r, sym) == Some(value)
    ensures forall k :: k != sym ==> Table.Lookup(r, k) == Table.Lookup(t, k)
    ensures r.stack == [Table.Binder(sym, value)] + t.stack
    ensures Table.Inv(t) ==> Table.Inv(r)
  {
    Table.Enter(t, sym, value)
  }

  /**
   * `sym_lookup`: the value most recently entered for `sym`, or None (NULL)
   * when it was never entered.
   */
  function SymLookup<V>(t: Table.Table<V>, sym: SymId): (r: Option<V>)
    requires Table.Valid(t)
    ensures Table.Inv(t) ==> r == Table.Find(t.stack, sym)
    ensures Table.Inv(t) && r.None? ==> forall j :: 0 <= j < |t.stack| ==> t.stack[j].key != sym
  {
    var r := Table.Lookup(t, sym);
    assert Table.Inv(t) && r.None? ==> forall j :: 0 <= j < |t.stack| ==> t.stack[j].key != sym by {
      if Table.Inv(t) && r.None? {
        NotFound(t.stack, sym);
      }
    }
    r
  }

  lemma {:induction false} NotFound<V>(chain: seq<Table.Binder<V>>, key: nat)
    requires Table.Find(chain, key).None?
    ensures forall j :: 0 <= j < |chain| ==> chain[j].key != key
  {
    if chain != [] {
      NotFound(chain[1..], key);
      assert forall j :: 1 <= j < |chain| ==> chain[j] == chain[1..][j - 1];
    }
  }

  /** `sym_begin_scope`: a stub that marks nothing and returns NULL. */
  function BeginScope<V>(t: Table.Table<V>): (r: Option<Table.Table<V>>)
    ensures r.None?
  {
    None
  }

  /**
   * `sym_end_scope`: a stub; no binding is withdrawn, so every symbol keeps
   * its lookup result.
   */
  function EndScope<V>(t: Table.Table<V>): (r: Table.Table<V>)
    ensures r.stack == t.stack
    ensures Table.Valid(t) ==> Table.Valid(r) && forall k :: Table.Lookup(r, k) == Table.Lookup(t, k)
  {
    t
  }

  /** A binding entered inside a scope is still visible after the scope ends. */
  lemma ScopeKeepsBindings<V>(t: Table.Table<V>, sym: SymId, value: V)
    requires Table.Valid(t)
    ensures Table.Lookup(EndScope(SymEnter(t, sym, value)), sym) == Some(value)
  {
  }
}

=== FILE: table.dfy ===
/**
 * The stack-disciplined hash table of table.c. A table is an array of
 * bucket chains plus a `top` pointer threading every binder, newest first,
 * through `prev`. Keys are pointers compared by identity; here they are
 * abstract `nat` addresses and the bucket of a key is `key % size`.
 *
 * The same structure, with 109 buckets and no pop, is the symbol-keyed
 * table of symbol.c (see module Symbol), so the bucket count is a field.
 */
module Table {
  import opened Wrappers

  /** HT_SIZE of utils.h: the bucket count of table.c's tables. */
  const TabSize: nat := 773

  datatype Binder<V> = Binder(key: nat, value: V)

  /**
   * `buckets[i]` is the chain of binders whose key hashes to `i`, newest
   * first; `stack` is the chain from `top` along `prev`, newest first.
   */
  datatype Table<V> = Table(size: nat, buckets: seq<seq<Binder<V>>>, stack: seq<Binder<V>>)

  predicate Valid<V>(t: Table<V>)
  {
    t.size > 0 && |t.buckets| == t.size
  }

  /** The binders of `s` that hash to bucket `i`, in the order of `s`. */
  function InBucket<V>(s: seq<Binder<V>>, size: nat, i: nat): seq<Binder<V>>
    requires size > 0
  {
    if s == [] then []
    else (if s[0].key % size == i then [s[0]] else []) + InBucket(s[1..], size, i)
  }

  /**
   * Representation invariant: each bucket holds exactly the binders of the
   * `top` chain that hash to it, in chain order. In particular the `top`
   * binder heads its own bucket, which is what `tab_pop` relies on.
   */
  ghost predicate Inv<V>(t: Table<V>)
  {
    Valid(t) && forall i :: 0 <= i < t.size ==> t.buckets[i] == InBucket(t.stack, t.size, i)
  }

  /** The value of the first binder for `key` in a chain, or None (NULL). */
  function Find<V>(chain: seq<Binder<V>>, key: nat): Option<V>
  {
    if chain == [] then None
    else if chain[0].key == key then Some(chain[0].value)
    else Find(chain[1..], key)
  }

  /** A table with `size` empty buckets and no binders. */
  function EmptyOf<V>(size: nat): (t: Table<V>)
    requires size > 0
    ensures Inv(t)
    ensures t.stack == []
    ensures forall k :: Lookup(t, k) == None
  {
    var t := Table(size, seq(size, _ => []), []);
    assert forall i :: 0 <= i < size ==> t.buckets[i] == InBucket(t.stack, size, i);
    t
  }

  /** `tab_empty`. */
  function Empty<V>(): (t: Table<V>)
    ensures Inv(t) && t.size == TabSize
    ensures forall k :: Lookup(t, k) == None
  {
    EmptyOf(TabSize)
  }

  /**
   * `tab_enter`: a new binder goes in front of its bucket and becomes `top`.
   * The new binding shadows any older one for the same key; every other key
   * keeps its lookup result.
   */
  function Enter<V>(t: Table<V>, key: nat, value: V): (r: Table<V>)
    requires Valid(t)
    ensures Valid(r) && r.size == t.size
    ensures r.stack == [Binder(key, value)] + t.stack
    ensures Lookup(r, key) == Some(value)
    ensures forall k :: k != key ==> Lookup(r, k) == Lookup(t, k)
    ensures Inv(t) ==> Inv(r)
  {
    var i := key % t.size;
    var b := Binder(key, value);
    var r := Table(t.size, t.buckets[i := [b] + t.buckets[i]], [b] + t.stack);
    assert forall j :: 0 <= j < t.size ==>
      InBucket(r.stack, t.size, j) == (if i == j then [b] else []) + InBucket(t.stack, t.size, j)
    by {
      assert r.stack[1..] == t.stack;
    }
    r
  }

  /**
   * `tab_lookup`: scans the key's bucket. Under the invariant this is the
   * value of the most recently entered binder for `key` still on the stack.
   */
  function Lookup<V>(t: Table<V>, key: nat): (r: Option<V>)
    requires Valid(t)
    ensures Inv(t) ==> r == Find(t.stack, key)
  {
    FindInBucket(t.stack, t.size, key);
    Find(t.buckets[key % t.size], key)
  }

  /** Searching the key's bucket finds what searching the whole chain finds. */
  lemma {:induction false} FindInBucket<V>(s: seq<Binder<V>>, size: nat, key: nat)
    requires size > 0
    ensures Find(InBucket(s, size, key % size), key) == Find(s, key)
  {
    if s != [] {
      FindInBucket(s[1..], size, key);
      var rest := InBucket(s[1..], size, key % size);
      if s[0].key % size == key % size {
        assert InBucket(s, size, key % size) == [s[0]] + rest;
        assert ([s[0]] + rest)[1..] == rest;
      } else {
        assert InBucket(s, size, key % size) == rest;
      }
    }
  }

  /** Under the invariant the `top` binder heads its own bucket. */
  lemma TopHeadsBucket<V>(t: Table<V>)
    requires Inv(t) && t.stack != []
    ensures t.buckets[t.stack[0].key % t.size] != []
    ensures t.buckets[t.stack[0].key % t.size][0] == t.stack[0]
  {
  }

  /**
   * `tab_pop`: removes the head of the bucket of the `top` binder and moves
   * `top` to `prev`, returning the popped key. The source asserts that the
   * table has a binder and that the bucket is non-empty.
   */
  function Pop<V>(t: Table<V>): (r: (Table<V>, nat))
    requires Valid(t) && t.stack != []
    requires t.buckets[t.stack[0].key % t.size] != []
    ensures Valid(r.0) && r.0.size == t.size
    ensures r.1 == t.stack[0].key
    ensures r.0.stack == t.stack[1..]
    ensures Inv(t) ==> Inv(r.0)
  {
    var bind := t.stack[0];
    var i := bind.key % t.size;
    var r := Table(t.size, t.buckets[i := t.buckets[i][1..]], t.stack[1..]);
    assert forall j :: 0 <= j < t.size ==>
      InBucket(t.stack, t.size, j) == (if i == j then [bind] else []) + InBucket(r.stack, t.size, j);
    (r, bind.key)
  }

  /** Entering a binding and popping it gives back the very same table. */
  lemma EnterThenPop<V>(t: Table<V>, key: nat, value: V)
    requires Valid(t)
    ensures Pop(Enter(t, key, value)) == (t, key)
  {
    var i := key % t.size;
    var e := Enter(t, key, value);
    assert e.buckets[i][1..] == t.buckets[i];
    assert e.buckets[i := e.buckets[i][1..]] == t.buckets;
  }

  /** After `tab_enter` then `tab_pop` every lookup is as before. */
  lemma EnterThenPopLookups<V>(t: Table<V>, key: nat, value: V)
    requires Valid(t)
    ensures forall k :: Lookup(Pop(Enter(t, key, value)).0, k) == Lookup(t, k)
  {
    EnterThenPop(t, key, value);
  }

  /**
   * `tab_dump`: calls `show` on each binder from `top` along `prev`; the
   * result is the sequence of (key, value) pairs shown, in call order.
   */
  method Dump<V>(t: Table<V>) returns (shown: seq<Binder<V>>)
    ensures shown == t.stack
  {
    shown := [];
    var i := 0;
    while i < |t.stack|
      invariant 0 <= i <= |t.stack|
      invariant shown == t.stack[..i]
    {
      shown := shown + [t.stack[i]];
      i := i + 1;
    }
  }

  /** Enters `ops` one after another, first to last. */
  function EnterAll<V>(t: Table<V>, ops: seq<Binder<V>>): (r: Table<V>)
    requires Valid(t)
    ensures Valid(r) && r.size == t.size
    ensures Inv(t) ==> Inv(r)
    decreases |ops|
  {
    if ops == [] then t
    else EnterAll(Enter(t, ops[0].key, ops[0].value), ops[1..])
  }

  function Reverse<T>(s: seq<T>): (r: seq<T>)
    ensures |r| == |s|
    ensures forall i :: 0 <= i < |s| ==> r[i] == s[|s| - 1 - i]
  {
    if s == [] then [] else Reverse(s[1..]) + [s[0]]
  }

  /**
   * The chain `tab_dump` walks is the entry history newest first: every
   * binding entered is shown exactly once, in reverse order of entry.
   */
  lemma {:induction false} EnterAllStack<V>(t: Table<V>, ops: seq<Binder<V>>)
    requires Valid(t)
    ensures EnterAll(t, ops).stack == Reverse(ops) + t.stack
    decreases |ops|
  {
    if ops != [] {
      var t1 := Enter(t, ops[0].key, ops[0].value);
      EnterAllStack(t1, ops[1..]);
      assert [ops[0]] == [Binder(ops[0].key, ops[0].value)];
      calc {
        EnterAll(t, ops).stack;
        Reverse(ops[1..]) + t1.stack;
        Reverse(ops[1..]) + ([ops[0]] + t.stack);
        (Reverse(ops[1..]) + [ops[0]]) + t.stack;
      }
    }
  }

  /**
   * Chain `long` is chain `short` with newer binders in front: what entering
   * bindings, and never popping them, does to a table's stack.
   */
  ghost predicate Extends<V>(long: seq<Binder<V>>, short: seq<Binder<V>>)
    decreases |long|
  {
    long == short || (|long| > |short| && Extends(long[1..], short))
  }

  lemma {:induction false} ExtendsShape<V>(long: seq<Binder<V>>, short: seq<Binder<V>>)
    requires Extends(long, short)
    ensures |short| <= |long| && long == long[..|long| - |short|] + short
    decreases |long|
  {
    if long != short {
      ExtendsShape(long[1..], short);
      assert long == [long[0]] + long[1..];
    }
  }

  /** The binders `long` has in front of `short`. */
  ghost function Added<V>(long: seq<Binder<V>>, short: seq<Binder<V>>): (r: seq<Binder<V>>)
    requires Extends(long, short)
    ensures long == r + short
  {
    ExtendsShape(long, short);
    long[..|long| - |short|]
  }

  /** Growing twice is growing. */
  lemma {:induction false} ExtendsTrans<V>(a: seq<Binder<V>>, b: seq<Binder<V>>, c: seq<Binder<V>>)
    requires Extends(b, a) && Extends(c, b)
    ensures Extends(c, a)
    decreases |c|
  {
    if c != b {
      ExtendsTrans(a, b, c[1..]);
      ExtendsShape(c[1..], a);
      ExtendsShape(b, a);
    }
  }

  /** What two growths add is what the second adds in front of what the first adds. */
  lemma AddedTrans<V>(a: seq<Binder<V>>, b: seq<Binder<V>>, c: seq<Binder<V>>)
    requires Extends(b, a) && Extends(c, b)
    ensures Extends(c, a) && Added(c, a) == Added(c, b) + Added(b, a)
  {
    ExtendsTrans(a, b, c);
    var x, y, z := Added(c, b), Added(b, a), Added(c, a);
    assert c == z + a && c == x + b && b == y + a;
    assert |z| == |x| + |y|;
    forall k | 0 <= k < |z| ensures z[k] == (x + y)[k] {
      assert z[k] == (z + a)[k] == c[k];
      if k < |x| {
        assert c[k] == (x + b)[k] == x[k] == (x + y)[k];
      } else {
        var j := k - |x|;
        assert j < |y|;
        assert c[k] == (x + b)[k] == b[j];
        assert b[j] == (y + a)[j] == y[j];
        assert (x + y)[k] == y[j];
      }
    }
  }
}

=== FILE: temp.dfy ===
/**
 * temp.c: label and temporary generators, and layered maps from temporaries
 * to names. The counters `_labels`, `_temps`, the interning table they feed
 * and the lazily created global map are one explicit state, `Gen`.
 */
module Temp {
  import opened Wrappers
  import Table
  import Symbol

  /** A `temp_s`; temporaries are compared by number. */
  datatype Temp = Temp(num: nat)

  /** `tmp_label_t` is `symbol_t`. */
  type Label = Symbol.SymId

  /**
   * A `tmp_map_t` chain, top layer first; each layer maps temp numbers to
   * names. The empty sequence is NULL.
   */
  type TempMap = seq<Table.Table<string>>

  /** Every layer of a map is a well-formed table. */
  predicate MapValid(m: TempMap)
  {
    forall i :: 0 <= i < |m| ==> Table.Valid(m[i])
  }

  /** The generators' global state. */
  datatype Gen = Gen(interner: Symbol.Interner, labels: nat, temps: nat, global: Option<TempMap>)

  ghost predicate Valid(g: Gen)
  {
    Symbol.Valid(g.interner) && (g.global.Some? ==> g.global.value != [] && MapValid(g.global.value))
  }

  /** Start of a compilation: `_labels = 0`, `_temps = 100`, no map yet. */
  function InitGen(): (g: Gen)
    ensures Valid(g)
  {
    Gen(Symbol.InitInterner(), 0, 100, None)
  }

  /** The character of one decimal digit. */
  function Digit(d: nat): (c: char)
    requires d < 10
    ensures IsDigit(c) && c as int - '0' as int == d
  {
    "0123456789"[d]
  }

  predicate IsDigit(c: char)
  {
    '0' <= c <= '9'
  }

  /** The number a string of decimal digits denotes, most significant first. */
  function DecValue(s: string): nat
    requires forall i :: 0 <= i < |s| ==> IsDigit(s[i])
    decreases |s|
  {
    if s == [] then 0
    else
      assert IsDigit(s[|s| - 1]);
      10 * DecValue(s[..|s| - 1]) + (s[|s| - 1] as int - '0' as int)
  }

  /** `snprintf("%d", n)` for a non-negative `n`. */
  function Decimal(n: nat): (s: string)
    ensures 1 <= |s|
    ensures forall i :: 0 <= i < |s| ==> IsDigit(s[i])
    ensures s[0] == '0' <==> n == 0
    ensures n >= 10 ==> |s| >= 2
    decreases n
  {
    if n < 10 then [Digit(n)] else Decimal(n / 10) + [Digit(n % 10)]
  }

  /** Reading the numeral back gives the number: no digit is lost or altered. */
  lemma {:induction false} DecimalValue(n: nat)
    ensures DecValue(Decimal(n)) == n
    decreases n
  {
    var s := Decimal(n);
    if n >= 10 {
      assert s[..|s| - 1] == Decimal(n / 10);
      DecimalValue(n / 10);
    } else {
      assert s[..|s| - 1] == [];
    }
  }

  /** Different numbers print differently. */
  lemma {:induction false} DecimalInjective(a: nat, b: nat)
    requires Decimal(a) == Decimal(b)
    ensures a == b
    decreases a
  {
    var s := Decimal(a);
    if a < 10 && b < 10 {
      assert s[0] == Digit(a) == Digit(b);
    } else if a >= 10 && b >= 10 {
      assert s[|s| - 1] == Digit(a % 10) == Digit(b % 10);
      assert Decimal(a / 10) == s[..|s| - 1] == Decimal(b / 10);
      DecimalInjective(a / 10, b / 10);
    }
  }

  /**
   * `tmp_label`: interns ".L<n>" for the current counter and bumps it, so
   * successive calls name `.L0`, `.L1`, ...
   */
  function NewLabel(g: Gen): (r: (Gen, Label))
    requires Valid(g)
    ensures Valid(r.0)
    ensures r.0.labels == g.labels + 1
    ensures r.0.temps == g.temps && r.0.global == g.global
    ensures r.1 < |r.0.interner.names| && r.0.interner.names[r.1] == ".L" + Decimal(g.labels)
    ensures |g.interner.names| <= |r.0.interner.names|
    ensures r.0.interner.names[..|g.interner.names|] == g.interner.names
  {
    var (it, l) := Symbol.Intern(g.interner, ".L" + Decimal(g.labels));
    (g.(interner := it, labels := g.labels + 1), l)
  }

  /** Two successive `tmp_label` calls give different labels. */
  lemma SuccessiveLabelsDiffer(g: Gen)
    requires Valid(g)
    ensures NewLabel(NewLabel(g).0).1 != NewLabel(g).1
  {
    var (g1, l1) := NewLabel(g);
    var (g2, l2) := NewLabel(g1);
    if l1 == l2 {
      assert g2.interner.names[l1] == g1.interner.names[l1];
      assert Decimal(g.labels) == (".L" + Decimal(g.labels))[2..] == (".L" + Decimal(g1.labels))[2..] == Decimal(g1.labels);
      DecimalInjective(g.labels, g1.labels);
    }
  }

  /** `tmp_named_label`: interns the string, so equal strings give one label. */
  function NamedLabel(g: Gen, s: string): (r: (Gen, Label))
    requires Valid(g)
    ensures Valid(r.0)
    ensures r.1 < |r.0.interner.names| && Symbol.SymName(r.0.interner, r.1) == s
    ensures r.0.labels == g.labels && r.0.temps == g.temps && r.0.global == g.global
  {
    var (it, l) := Symbol.Intern(g.interner, s);
    (g.(interner := it), l)
  }

  /** Naming the same string twice gives the same label and no new state. */
  lemma NamedLabelIdempotent(g: Gen, s: string)
    requires Valid(g)
    ensures NamedLabel(NamedLabel(g, s).0, s) == NamedLabel(g, s)
  {
    Symbol.InternIdempotent(g.interner, s);
  }

  /**
   * `tmp_name`: the string of a label. Naming a label by that string gives
   * the label back and changes nothing.
   */
  function TmpName(g: Gen, l: Label): (r: string)
    requires l < |g.interner.names|
    ensures Valid(g) ==> NamedLabel(g, r) == (g, l)
  {
    Symbol.SymName(g.interner, l)
  }

  /** `tmp_empty`: one layer, an empty table, nothing under it. */
  function TmpEmpty(): (m: TempMap)
    ensures |m| == 1 && MapValid(m) && m[0].stack == []
  {
    [Table.Empty()]
  }

  /**
   * `tmp_map`: the global map, created empty on the first call; later calls
   * return it unchanged and leave the state alone.
   */
  function TmpMap(g: Gen): (r: (Gen, TempMap))
    requires Valid(g)
    ensures Valid(r.0) && r.0.global == Some(r.1)
    ensures g.global.Some? ==> r.0 == g
    ensures r.0.interner == g.interner && r.0.labels == g.labels && r.0.temps == g.temps
  {
    match g.global
    case Some(m) => (g, m)
    case None => var m := TmpEmpty(); (g.(global := Some(m)), m)
  }

  /** `tmp_map` returns the same map on every call. */
  lemma TmpMapStable(g: Gen)
    requires Valid(g)
    ensures TmpMap(TmpMap(g).0) == TmpMap(g)
  {
  }

  /** `tmp_enter`: binds in the top layer only. The source asserts a layer exists. */
  function TmpEnter(m: TempMap, t: Temp, s: string): (r: TempMap)
    requires m != [] && MapValid(m)
    ensures |r| == |m| && MapValid(r) && r[1..] == m[1..]
    ensures Table.Lookup(r[0], t.num) == Some(s)
    ensures forall k :: k != t.num ==> Table.Lookup(r[0], k) == Table.Lookup(m[0], k)
    ensures TmpLookup(r, t) == Some(s)
    ensures forall u: Temp :: u.num != t.num ==> TmpLookup(r, u) == TmpLookup(m, u)
  {
    m[0 := Table.Enter(m[0], t.num, s)]
  }

  /**
   * `temp`: a temporary numbered by the counter, which then rises by one;
   * the new temporary is registered in the global map under its decimal
   * number.
   */
  function NewTemp(g: Gen): (r: (Gen, Temp))
    requires Valid(g)
    ensures Valid(r.0)
    ensures r.1.num == g.temps && r.0.temps == g.temps + 1
    ensures r.0.interner == g.interner && r.0.labels == g.labels
    ensures r.0.global.Some? && TmpLookup(r.0.global.value, r.1) == Some(Decimal(g.temps))
    ensures g.global.Some? ==>
              forall u: Temp :: u.num != g.temps ==> TmpLookup(r.0.global.value, u) == TmpLookup(g.global.value, u)
    ensures g.global.None? ==>
              forall u: Temp :: u.num != g.temps ==> TmpLookup(r.0.global.value, u) == None
  {
    var t := Temp(g.temps);
    var (g1, m) := TmpMap(g.(temps := g.temps + 1));
    var m1 := TmpEnter(m, t, Decimal(t.num));
    (g1.(global := Some(m1)), t)
  }

  /** Temporaries made one after the other are distinct. */
  lemma SuccessiveTempsDiffer(g: Gen)
    requires Valid(g)
    ensures NewTemp(NewTemp(g).0).1.num == NewTemp(g).1.num + 1
  {
  }

  /**
   * `tmp_layer_map(over, under)`: copies the layer chain of `over` and hangs
   * `under` below it; a NULL `over` yields `under` itself.
   */
  function LayerMap(over: TempMap, under: TempMap): (r: TempMap)
    ensures over == [] ==> r == under
    ensures r == over + under
  {
    if over == [] then under else [over[0]] + LayerMap(over[1..], under)
  }

  /** No layer above layer `i` binds the temporary. */
  predicate FirstHitAt(m: TempMap, t: Temp, i: nat)
    requires MapValid(m) && i <= |m|
  {
    forall j :: 0 <= j < i ==> Table.Lookup(m[j], t.num).None?
  }

  /**
   * `tmp_lookup`: the hit of the first layer, top down, that binds the
   * temporary; None (NULL) when no layer does.
   */
  function TmpLookup(m: TempMap, t: Temp): (r: Option<string>)
    requires m != [] && MapValid(m)
    ensures r.None? <==> forall i :: 0 <= i < |m| ==> Table.Lookup(m[i], t.num).None?
    ensures r.Some? ==>
              exists i :: 0 <= i < |m| && Table.Lookup(m[i], t.num) == r && FirstHitAt(m, t, i)
    decreases |m|
  {
    match Table.Lookup(m[0], t.num)
    case Some(s) => Some(s)
    case None =>
      if |m| > 1 then
        var r := TmpLookup(m[1..], t);
        assert forall i :: 1 <= i < |m| ==> m[i] == m[1..][i - 1];
        r
      else None
  }
}

=== FILE: translate.dfy ===
/**
 * translate.c: nesting levels. A level wraps a frame, remembers its parent
 * level and tags each of its frame's accesses with itself. Levels live in a
 * store indexed by `LevelId`, threaded together with the label/temporary
 * generator.
 *
 * The expression builders of translate.h (`tr_num_expr`, `tr_if_expr`, ...)
 * have no definitions, so their results are the uninterpreted terms of
 * `TrExpr`: one constructor per builder, recording its arguments.
 */
module Translate {
  import opened Wrappers
  import Temp
  import Frame
  import Ir

  type LevelId = nat

  /** `tr_access_s`: a frame access together with its level. */
  datatype TrAccess = TrAccess(level: LevelId, access: Frame.Access)

  /** `tr_level_s`. */
  datatype Level = Level(parent: Option<LevelId>, frame: Frame.Frame, formals: seq<TrAccess>, locals: seq<TrAccess>)

  /** The level store, the generator and the `_outermost` cache. */
  datatype TrState = TrState(gen: Temp.Gen, levels: seq<Level>, outermost: Option<LevelId>)

  /** Each access of `accs` tagged with level `id`, in order. */
  function Tagged(id: LevelId, accs: seq<Frame.Access>): (r: seq<TrAccess>)
    ensures |r| == |accs|
    ensures forall k :: 0 <= k < |accs| ==> r[k] == TrAccess(id, accs[k])
  {
    seq(|accs|, k requires 0 <= k < |accs| => TrAccess(id, accs[k]))
  }

  /**
   * Level `id` is well formed: its parent is an older level, its formals and
   * locals are its frame's accesses tagged with `id`, formal 0 is the static
   * link in frame slot 0, and the frame's slot layout is intact.
   */
  ghost predicate LevelOk(levels: seq<Level>, id: LevelId)
    requires id < |levels|
  {
    var lv := levels[id];
    (lv.parent.Some? ==> lv.parent.value < id)
    && lv.formals == Tagged(id, lv.frame.formals)
    && lv.locals == Tagged(id, lv.frame.locals)
    && |lv.formals| >= 1 && lv.frame.formals[0] == Frame.InFrame(0)
    && Frame.LocalsInv(lv.frame)
  }

  ghost predicate LevelsOk(levels: seq<Level>)
  {
    forall id :: 0 <= id < |levels| ==> LevelOk(levels, id)
  }

  ghost predicate Valid(st: TrState)
  {
    Temp.Valid(st.gen)
    && LevelsOk(st.levels)
    && (st.outermost.Some? ==> st.outermost.value < |st.levels| && st.levels[st.outermost.value].parent.None?)
  }

  function InitState(g: Temp.Gen): (st: TrState)
    requires Temp.Valid(g)
    ensures Valid(st) && st.levels == [] && st.outermost.None?
  {
    TrState(g, [], None)
  }

  /**
   * `tr_level(parent, name, formals)`: a new level whose frame gets an extra
   * leading escaping formal for the static link, so it has one formal more
   * than given, formal 0 being the frame slot at offset 0. The level's
   * formals are the frame's, in order, tagged with the new level; it records
   * `parent` and starts with no locals.
   */
  function NewLevel(st: TrState, parent: Option<LevelId>, name: Temp.Label, escapes: seq<bool>): (r: (TrState, LevelId))
    requires Valid(st) && (parent.Some? ==> parent.value < |st.levels|)
    ensures Valid(r.0)
    ensures r.1 == |st.levels| && |r.0.levels| == |st.levels| + 1 && r.0.levels[..|st.levels|] == st.levels
    ensures r.0.outermost == st.outermost
    ensures r.0.gen.interner == st.gen.interner && r.0.gen.labels == st.gen.labels
    ensures var lv := r.0.levels[r.1];
      && lv.parent == parent && lv.locals == [] && lv.frame.name == name
      && |lv.formals| == |escapes| + 1 && |lv.frame.formals| == |lv.formals|
      && lv.formals[0] == TrAccess(r.1, Frame.InFrame(0))
      && (forall k :: 0 <= k < |lv.formals| ==> lv.formals[k] == TrAccess(r.1, lv.frame.formals[k]))
      && (forall k :: 0 <= k < |escapes| ==>
            (lv.formals[k + 1].access.InFrame? <==> Frame.FormalInFrame(escapes[k], k + 1)))
  {
    var (g1, fr) := Frame.NewFrame(st.gen, name, [true] + escapes);
    var id := |st.levels|;
    var lv := Level(parent, fr, Tagged(id, fr.formals), []);
    StaticLinkFirst(st.gen, name, escapes);
    AppendLevel(st.levels, lv);
    (st.(gen := g1, levels := st.levels + [lv]), id)
  }

  /**
   * A frame made with the static link in front: the link is the slot at
   * offset 0, and each given formal is placed as formal `k + 1`.
   */
  lemma StaticLinkFirst(g: Temp.Gen, name: Temp.Label, escapes: seq<bool>)
    requires Temp.Valid(g)
    ensures var fr := Frame.NewFrame(g, name, [true] + escapes).1;
            && |fr.formals| == |escapes| + 1 && fr.formals[0] == Frame.InFrame(0)
            && (forall k :: 0 <= k < |escapes| ==>
                  (fr.formals[k + 1].InFrame? <==> Frame.FormalInFrame(escapes[k], k + 1)))
  {
    var es := [true] + escapes;
    var fr := Frame.NewFrame(g, name, es).1;
    assert Frame.FormalInFrame(es[0], 0);
    assert forall k :: 0 <= k < |escapes| ==> es[k + 1] == escapes[k];
  }

  /** Appending a level that is well formed in its place keeps every level well formed. */
  lemma AppendLevel(levels: seq<Level>, lv: Level)
    requires LevelsOk(levels)
    requires lv.parent.Some? ==> lv.parent.value < |levels|
    requires lv.formals == Tagged(|levels|, lv.frame.formals) && lv.locals == Tagged(|levels|, lv.frame.locals)
    requires |lv.formals| >= 1 && lv.frame.formals[0] == Frame.InFrame(0) && Frame.LocalsInv(lv.frame)
    ensures LevelsOk(levels + [lv]) && (levels + [lv])[..|levels|] == levels && (levels + [lv])[|levels|] == lv
  {
    var ls := levels + [lv];
    assert ls[..|levels|] == levels;
    assert LevelOk(ls, |levels|);
    forall i | 0 <= i < |levels| ensures LevelOk(ls, i) {
      assert ls[i] == levels[i] && LevelOk(levels, i);
    }
  }

  /**
   * `tr_outermost`: the first call makes a parentless level named by a fresh
   * label; every later call returns that same level.
   */
  function Outermost(st: TrState): (r: (TrState, LevelId))
    requires Valid(st)
    ensures Valid(r.0) && r.0.outermost == Some(r.1) && r.1 < |r.0.levels|
    ensures r.0.levels[r.1].parent.None?
    ensures |st.levels| <= |r.0.levels| && r.0.levels[..|st.levels|] == st.levels
    ensures st.outermost.Some? ==> r == (st, st.outermost.value)
    ensures st.gen.labels <= r.0.gen.labels
    ensures |st.gen.interner.names| <= |r.0.gen.interner.names|
    ensures r.0.gen.interner.names[..|st.gen.interner.names|] == st.gen.interner.names
  {
    match st.outermost
    case Some(id) => (st, id)
    case None =>
      var (g1, name) := Temp.NewLabel(st.gen);
      var (st1, id) := NewLevel(st.(gen := g1), None, name, []);
      (st1.(outermost := Some(id)), id)
  }

  /** Repeated `tr_outermost` calls return the same level and change nothing. */
  lemma OutermostStable(st: TrState)
    requires Valid(st)
    ensures var (st1, id) := Outermost(st); Outermost(st1) == (st1, id)
  {
  }

  /**
   * `tr_formals`: the level's formals, the static link first, each tagged
   * with the level.
   */
  function Formals(st: TrState, lvl: LevelId): (r: seq<TrAccess>)
    requires Valid(st) && lvl < |st.levels|
    ensures |r| >= 1 && r[0] == TrAccess(lvl, Frame.InFrame(0))
    ensures forall k :: 0 <= k < |r| ==> r[k].level == lvl
  {
    assert LevelOk(st.levels, lvl);
    st.levels[lvl].formals
  }

  lemma TaggedSnoc(id: LevelId, accs: seq<Frame.Access>, a: Frame.Access)
    ensures Tagged(id, accs + [a]) == Tagged(id, accs) + [TrAccess(id, a)]
  {
  }

  /**
   * `tr_alloc_local`: allocates a local in the level's frame with the same
   * escape flag and appends the access, tagged with the level, to the
   * level's locals. No other level changes.
   */
  function AllocLocal(st: TrState, lvl: LevelId, escape: bool): (r: (TrState, TrAccess))
    requires Valid(st) && lvl < |st.levels|
    ensures Valid(r.0)
    ensures r.1.level == lvl && (r.1.access.InFrame? <==> escape)
    ensures |r.0.levels| == |st.levels| && r.0.outermost == st.outermost
    ensures r.0.levels[lvl].locals == st.levels[lvl].locals + [r.1]
    ensures r.0.levels[lvl].frame.locals == st.levels[lvl].frame.locals + [r.1.access]
    ensures r.0.levels[lvl].parent == st.levels[lvl].parent
    ensures r.0.levels[lvl].formals == st.levels[lvl].formals
    ensures forall i :: 0 <= i < |st.levels| && i != lvl ==> r.0.levels[i] == st.levels[i]
    ensures r.0.gen.interner == st.gen.interner && r.0.gen.labels == st.gen.labels
  {
    var lv := st.levels[lvl];
    var (fr, g1, a) := Frame.AllocLocal(lv.frame, st.gen, escape);
    var acc := TrAccess(lvl, a);
    var lv' := lv.(frame := fr, locals := lv.locals + [acc]);
    assert LevelOk(st.levels, lvl);
    TaggedSnoc(lvl, lv.frame.locals, a);
    ReplaceLevel(st.levels, lvl, lv');
    (st.(gen := g1, levels := st.levels[lvl := lv']), acc)
  }

  /** Replacing a level by one that is well formed in its place keeps every level well formed. */
  lemma ReplaceLevel(levels: seq<Level>, id: LevelId, lv: Level)
    requires LevelsOk(levels) && id < |levels|
    requires lv.parent.Some? ==> lv.parent.value < id
    requires lv.formals == Tagged(id, lv.frame.formals) && lv.locals == Tagged(id, lv.frame.locals)
    requires |lv.formals| >= 1 && lv.frame.formals[0] == Frame.InFrame(0) && Frame.LocalsInv(lv.frame)
    ensures LevelsOk(levels[id := lv])
  {
    var ls := levels[id := lv];
    assert LevelOk(ls, id);
    forall i | 0 <= i < |levels| && i != id ensures LevelOk(ls, i) {
      assert ls[i] == levels[i] && LevelOk(levels, i);
    }
  }

  /**
   * The results of the uninterpreted builders of translate.h: each records
   * its arguments. `TrNone` is a NULL `tr_expr_t`.
   */
  datatype TrExpr =
    | TrNone
    | TrNum(num: int)
    | TrString(str: string)
    | TrCall(level: LevelId, func: Temp.Label, args: seq<TrExpr>)
    | TrOp(op: Ir.BinOp, left: TrExpr, right: TrExpr)
    | TrRel(rel: Ir.RelOp, left: TrExpr, right: TrExpr)
    | TrStringRel(rel: Ir.RelOp, left: TrExpr, right: TrExpr)
    | TrRecord(fields: seq<TrExpr>, size: int)
    | TrArray(count: TrExpr, init: TrExpr)
    | TrSeq(stmts: seq<TrExpr>)
    | TrIf(cond: TrExpr, thn: TrExpr, els: TrExpr)
    | TrWhile(cond: TrExpr, body: TrExpr)
    | TrFor(access: TrAccess, lo: TrExpr, hi: TrExpr, body: TrExpr)
    | TrAssign(lhs: TrExpr, rhs: TrExpr)
    | TrSimpleVar(access: TrAccess, level: LevelId)
    | TrFieldVar(rec: TrExpr, index: nat)
}

=== FILE: types.dfy ===
/**
 * types.c: Tiger types. Types are pointers compared by identity, and Name
 * types are patched after creation, so types live in a store indexed by
 * `TypeId`: identity is index equality, creation appends, and patching a
 * Name's link updates one entry. Ids 0..3 are the four built-in singletons.
 */
module Types {
  import opened Wrappers
  import Symbol

  type TypeId = nat

  const NilId: TypeId := 0
  const IntId: TypeId := 1
  const StringId: TypeId := 2
  const VoidId: TypeId := 3

  /** `ty_field`: a record field's name and (unresolved) type. */
  datatype Field = Field(name: Symbol.SymId, ty: TypeId)

  datatype Ty =
    | NilTy
    | IntTy
    | StringTy
    | VoidTy
    | RecordTy(fields: seq<Field>)
    | ArrayTy(elem: TypeId)
    | NameTy(name: Symbol.SymId, link: Option<TypeId>)

  /** The `kind` tag of a type; `Dangling` is an id outside the store. */
  datatype Kind = Record | Nil | Int | String | Array | Name | Void | Dangling

  type Store = seq<Ty>

  function InitStore(): Store
  {
    [NilTy, IntTy, StringTy, VoidTy]
  }

  /**
   * The built-ins sit at ids 0..3 and no other entry has their kind, so
   * `ty_nil()`, `ty_int()`, `ty_string()` and `ty_void()` are singletons.
   */
  ghost predicate Valid(s: Store)
  {
    |s| >= 4 && s[..4] == InitStore()
    && forall i :: 4 <= i < |s| ==> s[i].RecordTy? || s[i].ArrayTy? || s[i].NameTy?
  }

  function KindOf(s: Store, t: TypeId): Kind
  {
    if t >= |s| then Dangling
    else match s[t]
      case NilTy => Nil
      case IntTy => Int
      case StringTy => String
      case VoidTy => Void
      case RecordTy(_) => Record
      case ArrayTy(_) => Array
      case NameTy(_, _) => Name
  }

  /** The id of the one type of built-in kind `k`. */
  function BuiltinId(k: Kind): TypeId
    requires k in {Nil, Int, String, Void}
  {
    match k
    case Nil => NilId
    case Int => IntId
    case String => StringId
    case Void => VoidId
  }

  /**
   * `ty_nil`, `ty_int`, `ty_string`, `ty_void`: every call yields the same
   * id, and it is the only type of its kind in a valid store.
   */
  lemma BuiltinsAreSingletons(s: Store, k: Kind, t: TypeId)
    requires Valid(s) && k in {Nil, Int, String, Void}
    ensures BuiltinId(k) < |s| && KindOf(s, BuiltinId(k)) == k
    ensures KindOf(s, t) == k <==> t == BuiltinId(k)
  {
    assert s[0] == NilTy && s[1] == IntTy && s[2] == StringTy && s[3] == VoidTy by {
      assert s[..4][0] == s[0] && s[..4][1] == s[1] && s[..4][2] == s[2] && s[..4][3] == s[3];
    }
  }

  /** In a valid store the four built-in ids have their own kinds. */
  lemma BuiltinKinds(s: Store)
    requires Valid(s)
    ensures KindOf(s, NilId) == Nil && KindOf(s, IntId) == Int
    ensures KindOf(s, StringId) == String && KindOf(s, VoidId) == Void
  {
    assert s[..4][0] == s[0] && s[..4][1] == s[1] && s[..4][2] == s[2] && s[..4][3] == s[3];
  }

  /**
   * Appends one new type. Its id is the first unused one, so it differs from
   * every existing type, and no existing entry changes.
   */
  function Alloc(s: Store, node: Ty): (r: (Store, TypeId))
    requires node.RecordTy? || node.ArrayTy? || node.NameTy?
    ensures r.1 == |s|
    ensures |r.0| == |s| + 1 && r.0[..|s|] == s && r.0[r.1] == node
    ensures Valid(s) ==> Valid(r.0)
  {
    var s' := s + [node];
    assert Valid(s) ==> s'[..4] == s[..4];
    (s', |s|)
  }

  /** `ty_record`: a fresh record type, distinct from every existing type. */
  function NewRecord(s: Store, fields: seq<Field>): (r: (Store, TypeId))
    ensures r.1 == |s|
    ensures |r.0| == |s| + 1 && r.0[..|s|] == s && KindOf(r.0, r.1) == Record && r.0[r.1].fields == fields
    ensures Valid(s) ==> Valid(r.0)
  {
    Alloc(s, RecordTy(fields))
  }

  /** `ty_array`: a fresh array type of the given element type. */
  function NewArray(s: Store, elem: TypeId): (r: (Store, TypeId))
    ensures r.1 == |s|
    ensures |r.0| == |s| + 1 && r.0[..|s|] == s && KindOf(r.0, r.1) == Array && r.0[r.1].elem == elem
    ensures Valid(s) ==> Valid(r.0)
  {
    Alloc(s, ArrayTy(elem))
  }

  /** `ty_name`: a fresh Name type with the given (possibly NULL) link. */
  function NewName(s: Store, name: Symbol.SymId, link: Option<TypeId>): (r: (Store, TypeId))
    ensures r.1 == |s|
    ensures |r.0| == |s| + 1 && r.0[..|s|] == s && r.0[r.1] == NameTy(name, link)
    ensures Valid(s) ==> Valid(r.0)
  {
    Alloc(s, NameTy(name, link))
  }

  /**
   * The assignment `type->u.name.type = target` on a Name type; any other
   * entry is left as it is.
   */
  function SetLink(s: Store, t: TypeId, target: TypeId): (r: Store)
    ensures |r| == |s|
    ensures forall u :: 0 <= u < |s| && u != t ==> r[u] == s[u]
    ensures KindOf(s, t) == Name ==> r[t] == NameTy(s[t].name, Some(target))
    ensures KindOf(s, t) != Name ==> r == s
    ensures Valid(s) ==> Valid(r)
  {
    if t < |s| && s[t].NameTy? then
      var r := s[t := NameTy(s[t].name, Some(target))];
      assert Valid(s) ==> r[..4] == s[..4];
      r
    else s
  }

  /** The hop bound of `ty_actual`. */
  const MaxHops: nat := 4096

  /**
   * The loop of `ty_actual` after `counter` hops: None when the bound is
   * exceeded. A Name whose link is NULL stops the walk (the source would
   * dereference NULL there; no caller reaches such a Name).
   */
  function ActualFrom(s: Store, t: TypeId, counter: nat): (r: Option<TypeId>)
    requires counter <= MaxHops
    decreases MaxHops - counter
  {
    if KindOf(s, t) != Name || s[t].link.None? then Some(t)
    else if counter + 1 > MaxHops then None
    else ActualFrom(s, s[t].link.value, counter + 1)
  }

  /** Every Name in the store has a link to an id in the store. */
  ghost predicate AllLinked(s: Store)
  {
    forall t :: 0 <= t < |s| && s[t].NameTy? ==> s[t].link.Some? && s[t].link.value < |s|
  }

  /**
   * `ty_actual`: follows Name links to a non-Name type; if the 4096-hop bound
   * is exceeded (a cycle such as a -> b -> a) it returns its argument.
   */
  function Actual(s: Store, t: TypeId): (r: TypeId)
    ensures KindOf(s, t) != Name ==> r == t
    ensures AllLinked(s) && t < |s| ==> r == t || (r < |s| && KindOf(s, r) != Name)
  {
    assert AllLinked(s) && t < |s| && ActualFrom(s, t, 0).Some? ==>
      ActualFrom(s, t, 0).value < |s| && KindOf(s, ActualFrom(s, t, 0).value) != Name
    by {
      if AllLinked(s) && t < |s| {
        ActualFromResolves(s, t, 0);
      }
    }
    match ActualFrom(s, t, 0)
    case Some(r) => r
    case None => t
  }

  lemma {:induction false} ActualFromResolves(s: Store, t: TypeId, counter: nat)
    requires counter <= MaxHops && AllLinked(s) && t < |s|
    ensures ActualFrom(s, t, counter).Some? ==>
              ActualFrom(s, t, counter).value < |s| && KindOf(s, ActualFrom(s, t, counter).value) != Name
    decreases MaxHops - counter
  {
    if KindOf(s, t) == Name && counter + 1 <= MaxHops {
      ActualFromResolves(s, s[t].link.value, counter + 1);
    }
  }

  lemma {:induction false} ActualFromStops(s: Store, t: TypeId, counter: nat)
    requires counter <= MaxHops
    ensures ActualFrom(s, t, counter).Some? ==>
              var r := ActualFrom(s, t, counter).value; KindOf(s, r) != Name || s[r].link.None?
    decreases MaxHops - counter
  {
    if KindOf(s, t) == Name && s[t].link.Some? && counter + 1 <= MaxHops {
      ActualFromStops(s, s[t].link.value, counter + 1);
    }
  }

  /**
   * A resolved type resolves to itself: the walk stops where `ty_actual`
   * stopped, and a type returned at the bound is returned again.
   */
  lemma ActualIdempotent(s: Store, t: TypeId)
    ensures Actual(s, Actual(s, t)) == Actual(s, t)
  {
    ActualFromStops(s, t, 0);
  }

  /** The id reached from `t` after `n` link hops, if every hop is a linked Name. */
  function Follow(s: Store, t: TypeId, n: nat): Option<TypeId>
    decreases n
  {
    if n == 0 then Some(t)
    else if KindOf(s, t) == Name && s[t].link.Some? then Follow(s, s[t].link.value, n - 1)
    else None
  }

  lemma {:induction false} ActualFromOnChain(s: Store, t: TypeId, counter: nat)
    requires counter <= MaxHops
    ensures ActualFrom(s, t, counter).Some? ==>
              exists k :: 0 <= k <= MaxHops - counter && Follow(s, t, k) == ActualFrom(s, t, counter)
    decreases MaxHops - counter
  {
    if KindOf(s, t) != Name || s[t].link.None? {
      assert Follow(s, t, 0) == Some(t);
    } else if counter + 1 <= MaxHops {
      var next := s[t].link.value;
      ActualFromOnChain(s, next, counter + 1);
      if ActualFrom(s, next, counter + 1).Some? {
        var k :| 0 <= k <= MaxHops - (counter + 1) && Follow(s, next, k) == ActualFrom(s, next, counter + 1);
        assert Follow(s, t, k + 1) == Follow(s, next, k);
      }
    }
  }

  /**
   * What `ty_actual` returns is its argument or a type reached from it by
   * following at most 4096 Name links.
   */
  lemma ActualOnChain(s: Store, t: TypeId)
    ensures Actual(s, t) == t || exists k :: 0 <= k <= MaxHops && Follow(s, t, k) == Some(Actual(s, t))
  {
    ActualFromOnChain(s, t, 0);
  }

  lemma {:induction false} ActualFromReaches(s: Store, t: TypeId, counter: nat, k: nat, u: TypeId)
    requires counter + k <= MaxHops && Follow(s, t, k) == Some(u) && KindOf(s, u) != Name
    ensures ActualFrom(s, t, counter) == Some(u)
    decreases k
  {
    if k > 0 {
      ActualFromReaches(s, s[t].link.value, counter + 1, k - 1, u);
    }
  }

  /**
   * `ty_actual` reaches the end of a chain: when following at most 4096 Name
   * links from `t` arrives at a type that is not a Name, that type is the
   * result.
   */
  lemma ActualResolves(s: Store, t: TypeId, k: nat, u: TypeId)
    requires k <= MaxHops && Follow(s, t, k) == Some(u) && KindOf(s, u) != Name
    ensures Actual(s, t) == u
  {
    ActualFromReaches(s, t, 0, k, u);
  }

  /** A set of Name types whose links never leave the set: a cycle of names. */
  ghost predicate NameCycle(s: Store, c: set<TypeId>)
  {
    forall t :: t in c ==> KindOf(s, t) == Name && s[t].link.Some? && s[t].link.value in c
  }

  lemma {:induction false} CycleExhaustsBound(s: Store, c: set<TypeId>, t: TypeId, counter: nat)
    requires NameCycle(s, c) && t in c && counter <= MaxHops
    ensures ActualFrom(s, t, counter).None?
    decreases MaxHops - counter
  {
    if counter + 1 <= MaxHops {
      CycleExhaustsBound(s, c, s[t].link.value, counter + 1);
    }
  }

  /** On a cycle of Name types `ty_actual` hits its bound and returns its argument. */
  lemma CycleResolvesToSelf(s: Store, c: set<TypeId>, t: TypeId)
    requires NameCycle(s, c) && t in c
    ensures Actual(s, t) == t
  {
    CycleExhaustsBound(s, c, t, 0);
  }

  /** `type a = a`: a Name linked to itself resolves to itself. */
  lemma SelfLoopResolvesToSelf(s: Store, a: TypeId)
    requires KindOf(s, a) == Name && s[a].link == Some(a)
    ensures Actual(s, a) == a
  {
    CycleResolvesToSelf(s, {a}, a);
  }

  /** `type a = b type b = a`: both names resolve to themselves. */
  lemma TwoCycleResolvesToSelf(s: Store, a: TypeId, b: TypeId)
    requires KindOf(s, a) == Name && s[a].link == Some(b)
    requires KindOf(s, b) == Name && s[b].link == Some(a)
    ensures Actual(s, a) == a && Actual(s, b) == b
  {
    CycleResolvesToSelf(s, {a, b}, a);
    CycleResolvesToSelf(s, {a, b}, b);
  }

  /**
   * `ty_match`: the actual types are the same type, or one is a record and
   * the other nil.
   */
  function Match(s: Store, a: TypeId, b: TypeId): (r: bool)
    ensures Actual(s, a) == Actual(s, b) ==> r
    ensures KindOf(s, Actual(s, a)) == Record && KindOf(s, Actual(s, b)) == Nil ==> r
    ensures KindOf(s, Actual(s, a)) == Nil && KindOf(s, Actual(s, b)) == Record ==> r
    ensures r ==> Actual(s, a) == Actual(s, b)
                  || (KindOf(s, Actual(s, a)) == Record && KindOf(s, Actual(s, b)) == Nil)
                  || (KindOf(s, Actual(s, a)) == Nil && KindOf(s, Actual(s, b)) == Record)
  {
    var a' := Actual(s, a);
    var b' := Actual(s, b);
    a' == b'
    || (KindOf(s, a') == Record && KindOf(s, b') == Nil)
    || (KindOf(s, a') == Nil && KindOf(s, b') == Record)
  }

  /** `ty_match` is reflexive and symmetric. */
  lemma MatchReflexiveSymmetric(s: Store, a: TypeId, b: TypeId)
    ensures Match(s, a, a)
    ensures Match(s, a, b) == Match(s, b, a)
  {
  }

  /**
   * Two separately built records never match, even with identical fields:
   * only identity counts.
   */
  lemma DistinctRecordsDontMatch(s: Store, a: TypeId, b: TypeId)
    requires KindOf(s, a) == Record && KindOf(s, b) == Record && a != b
    ensures !Match(s, a, b)
  {
  }

  /** Built-in types of different kinds never match (nil matches only records and itself). */
  lemma MatchOfNonRecords(s: Store, a: TypeId, b: TypeId)
    requires KindOf(s, Actual(s, a)) != Record && KindOf(s, Actual(s, b)) != Record
    ensures Match(s, a, b) <==> Actual(s, a) == Actual(s, b)
  {
  }
}

=== FILE: utils.dfy ===
/**
 * The linked lists of utils.c. A `list_t` is a chain of cells ending in
 * NULL; here it is the value `List<T>`, with `Nil` for NULL. Every other
 * module consumes such chains front to back and so uses `seq` directly;
 * `Elems` is the bridge between the two views.
 */
module Utils {

  datatype List<T> = Nil | Cons(data: T, next: List<T>)

  /** The elements of a chain, head first. */
  function Elems<T>(l: List<T>): seq<T>
  {
    match l
    case Nil => []
    case Cons(x, next) => [x] + Elems(next)
  }

  /**
   * `list`, `int_list` and `bool_list`: one fresh cell holding `x` in front
   * of `next` (the three differ only in which union member holds `x`).
   */
  function Prepend<T>(x: T, next: List<T>): (r: List<T>)
    ensures Elems(r) == [x] + Elems(next)
    ensures |Elems(r)| == |Elems(next)| + 1
  {
    Cons(x, next)
  }

  /**
   * `vlist(count, ...)`: a chain of the first `count` variadic arguments in
   * argument order, NULL when `count <= 0`. The caller must pass at least
   * `count` arguments, as `va_arg` reads that many.
   */
  function VList<T>(count: int, args: seq<T>): (r: List<T>)
    requires count <= |args|
    ensures count <= 0 ==> r == Nil
    ensures count > 0 ==> Elems(r) == args[..count]
    decreases count
  {
    if count <= 0 then Nil
    else
      Cons(args[0], VList(count - 1, args[1..]))
  }

  /**
   * `join_list(l1, l2)`: walks to the last cell of `l1` and links `l2` after
   * it. A NULL `l1` yields `l2` itself; otherwise the result starts with the
   * first cell of `l1`.
   */
  function JoinList<T>(l1: List<T>, l2: List<T>): (r: List<T>)
    ensures l1 == Nil ==> r == l2
    ensures l1 != Nil ==> r.Cons? && r.data == l1.data
    ensures Elems(r) == Elems(l1) + Elems(l2)
  {
    match l1
    case Nil => l2
    case Cons(x, next) => Cons(x, JoinList(next, l2))
  }
}

=== FILE: wrappers.dfy ===
/** The NULL-or-value results of the C code, as a datatype. */
module Wrappers {

  /** `None` stands for a NULL pointer result; `Some(v)` for a real value. */
  datatype Option<+T> = None | Some(value: T) {

    /** Returns the wrapped value, or `default` for `None`. */
    function GetOr(default: T): T {
      match this
      case Some(v) => v
      case None => default
    }
  }
}
